=== FILE: README.md ===
# Harmonia audio wizard — a Dafny model

Harmonia is a browser wizard for "therapeutic frequency" audio transformation. The user
uploads a track and picks an emotional intention. They preview the track through an
equalizer, send it to a FastAPI backend that retunes it, poll the backend until it is done,
and export the result.

This project models the parts of that system that hold decisions. Each source file
has one Dafny module:

- **Playback engines.** The graph-based engine `useAudioProcessor` (`audio_graph.dfy`),
  the element-based engine `useSimpleAudioProcessor`, and the four player components built
  on them.
  - Each is a `class` whose methods change the fields the source changes.
  - The graph engine keeps its state in a value and has transition functions. The class
    methods are proved to follow them.
  - The audio clock, timers and decoder outcomes are method parameters.
- **Large-file utilities** (`audioOptimization.ts`, `usePerformanceOptimization.ts`):
  - the chunk planner's `while` loop, the sample copy and the channel interleaving, as
    loops over sequences;
  - the FIFO semaphore, as a class;
  - the order-preserving chunk executor;
  - the complexity and memory thresholds;
  - the resource monitor's warnings, recommendations and byte slicing.
- **Equalizers, progress and formatting.** The two equalizer panels, the transformation
  screen's progress steps and poll reactions, the progress bar, the performance panel and
  the polyfills.
- **Wizard screens.** The upload, questionnaire, instructions, export and app-level step
  logic. The constant tables of `src/types/index.ts`, with their invariants proved.
- **Backend** (`main.py`), as `server.dfy`:
  - file validation;
  - the processing task table's transitions through the background job;
  - the 404/400/500 gates of the status, download and export endpoints.

Conventions:

- JavaScript numbers are `real`, computed exactly.
- The chunk planner counts time in sample frames (`nat`).
- `Math.round`, `Math.floor`, JavaScript's truncating `%` and `toFixed` are written out in
  `common.dfy`.
- Strings are `seq<char>`; byte buffers are `seq<bv8>`.

A completed poll produces two progress reports. The first echoes the server's reply; the
second is the final 100 % report, added once the transformed audio has loaded
(`AudioProcessor.PollReaction`).

## Model

| member | source | states |
|---|---|---|
| Types.IntentionIdsMatchKeys | src/types/index.ts:67-104 | every entry of the intention table is filed under its own id |
| Types.IntentionFrequenciesAreSolfege | src/types/index.ts:67-104 | every intention lists at least one frequency and each of them is one of the nine solfège frequencies |
| Types.IntentionSettingsInRange | src/types/index.ts:41-43 | every intention's tuning lies in 430-450 Hz and its BPM adjustment within ±20 %, the ranges the settings document |
| Types.SolfegeIncreasing | src/types/index.ts:106-170 | the solfège table runs strictly upwards from 174 Hz to 963 Hz |
| Types.BrainwaveBandsTile | src/types/index.ts:172-208 | each brainwave's nominal frequency lies in its range, the ranges abut, and they run delta, theta, alpha, beta, gamma |
| App.MergeSettings | src/App.tsx:48-51 | each key the partial settings carry replaces the old value; every other key keeps its value |
| App.MergeLaws | src/App.tsx:48-51 | an empty patch changes nothing, applying a patch twice equals applying it once, and a full patch forgets the old settings |
| App.InitialSettings | src/App.tsx:19-29 | the page starts with a tuning inside 430-450 Hz, no BPM change, the binaural beat off, the 528 Hz solfège frequency and no intention chosen |
| App.RenderStepContent | src/App.tsx:53-93 | step 0 shows the upload, 1 the questionnaire, 2 the processor, and every other step (3 included) the placeholder, each as an if-and-only-if |
| App.AppState.constructor | src/App.tsx:17-33 | the app starts at step 0 with no file, 432 Hz tuning, no BPM change, the alpha beat off at volume 0.3, 528 Hz, no intention, and an idle status at 0 |
| App.AppState.HandleNext | src/App.tsx:35-37 | the step goes up by one with no upper bound; nothing else changes |
| App.AppState.HandleBack | src/App.tsx:39-41 | the step goes down by one with no lower bound; nothing else changes |
| App.AppState.HandleAudioUpload | src/App.tsx:43-46 | the file is kept and the step goes up by one; settings and status are untouched |
| App.AppState.HandleIntentionSelect | src/App.tsx:48-51 | the partial settings are merged into the current ones and the step goes up by one |
| App.AppState.SetTransformationSettings | src/App.tsx:74 | the transformation screen's settings replace the app's; nothing else changes |
| App.AppState.SetProcessingStatus | src/App.tsx:76 | the transformation screen's status replaces the app's; nothing else changes |
| App.UploadThenIntention | src/App.tsx:43-51 | from a fresh app, an upload followed by an intention choice shows the processor screen with the initial settings merged with the choice |
| AudioEqualizer.HandleBandChange | src/components/AudioEqualizer.tsx:67-71 | only band `index` changes, to the new gain; frequencies, labels and length are kept |
| AudioEqualizer.ResetEqualizer | src/components/AudioEqualizer.tsx:73-76 | every gain becomes 0 dB; frequencies, labels and length are kept |
| AudioEqualizer.ApplyPreset | src/components/AudioEqualizer.tsx:94-100 | band `i` takes the preset's gain `i`, or 0 dB where the preset has no entry; the layout is kept |
| AudioEqualizer.PresetsFitSliders | src/components/AudioEqualizer.tsx:85-92 | every preset has one gain per band, all within the sliders' ±12 dB |
| AudioEqualizer.FlatPresetIsReset | src/components/AudioEqualizer.tsx:85-100 | applying the flat preset equals a reset, whatever the bands |
| AudioEqualizer.PresetForgetsBandChange | src/components/AudioEqualizer.tsx:67-100 | a preset or a reset after a band edit gives the same bands as without the edit |
| AudioEqualizer.BandChangeToSameGain | src/components/AudioEqualizer.tsx:67-71 | setting a band to the gain it already has leaves the bands unchanged |
| AudioEqualizer.GetVolumeIcon | src/components/AudioEqualizer.tsx:78-83 | the "off" icon shows exactly when muted or at 0, the "up" icon exactly when unmuted at 70 or more |
| AudioEqualizer.VolumeIconMonotone | src/components/AudioEqualizer.tsx:78-83 | unmuted, a louder slider never shows a quieter icon |
| AudioExport.Extension | src/components/AudioExport.tsx:106 | the extension written after the dot is the chosen format's three-letter name |
| AudioExport.ExportFileName | src/components/AudioExport.tsx:106 | the exported file's name starts with "harmonya_export_" and ends with a dot and the chosen format |
| AudioExport.DirectFileName | src/components/AudioExport.tsx:136 | a direct download is named "harmonya_transformed_…" and always ends in ".wav" |
| AudioExport.AfterTicksValue | src/components/AudioExport.tsx:69-77 | after `k` firings from 0 the ticker shows min(10·k, 90): it climbs by ten and never passes 90 before the response |
| AudioExport.AudioExportPanel.constructor | src/components/AudioExport.tsx:50-56 | the screen starts with WAV at high quality, not exporting, progress 0, nothing exported |
| AudioExport.AudioExportPanel.HandleExport | src/components/AudioExport.tsx:58-83 | without a completed transformation only the alert is raised; otherwise the export starts at 0 with the ticker armed, and the stored task is requested or, with no task, the export fails with an alert while the ticker keeps running |
| AudioExport.AudioExportPanel.Tick | src/components/AudioExport.tsx:69-77 | one firing adds ten, or stops the ticker at 90; a stopped ticker changes nothing |
| AudioExport.AudioExportPanel.ReceiveExportResponse | src/components/AudioExport.tsx:85-117 | a rejected request raises the export alert and leaves the ticker running and the progress where it was; a response stops the ticker at 100; only an ok response whose body is read downloads the file under the chosen extension and marks the export complete, every other outcome raises the export alert; the export ends on every path |
| AudioExport.AudioExportPanel.HandleDirectDownload | src/components/AudioExport.tsx:120-145 | with a stored task and a good response the WAV is downloaded; otherwise the download alert is raised; the export state is untouched |
| AudioGraph.GraphIsOnePath | src/hooks/useAudioProcessor.ts:43-81 | the graph built is a single path: master gain, the eight filters in increasing frequency order, the analyser, then the output |
| AudioGraph.WithBandGains | src/hooks/useAudioProcessor.ts:232-241 | filter `i` takes band `i`'s gain and keeps its type, frequency and Q |
| AudioGraph.InitialIsValid | src/hooks/useAudioProcessor.ts:20-40 | the hook's starting state satisfies the engine invariant |
| AudioGraph.InitGraphOnce | src/hooks/useAudioProcessor.ts:43-81 | building the context twice equals building it once; afterwards there is a context, fresh ones at the default gain, and the invariant holds |
| AudioGraph.LoadOutcome | src/hooks/useAudioProcessor.ts:84-105 | loading always ends the loading flag; a decoded buffer sets the duration, a failure reports exactly one error and keeps the duration |
| AudioGraph.TickBounds | src/hooks/useAudioProcessor.ts:108-123 | a tick reports a position within [0, duration]; reaching the duration stops playback and reports the end right after that position |
| AudioGraph.StoppedIsValid | src/hooks/useAudioProcessor.ts:179-194 | stopping keeps the engine invariant |
| AudioGraph.PlayStarts | src/hooks/useAudioProcessor.ts:126-159 | play keeps the invariant, does nothing but read the clock without a buffer, and otherwise starts a source at the pause time |
| AudioGraph.PauseAndStopSilence | src/hooks/useAudioProcessor.ts:162-194 | after pause or stop nothing plays, no source exists and no frame is scheduled; pausing while playing records the current position as the pause time |
| AudioGraph.SeekClamps | src/hooks/useAudioProcessor.ts:197-210 | a seek lands inside [0, duration], keeps the invariant and arms the replay timer only when it was playing |
| AudioGraph.SeekThenReplay | src/hooks/useAudioProcessor.ts:197-210 | seeking while playing and letting the 50 ms timer fire restarts playback from the sought position |
| AudioGraph.MuteRoundTrip | src/hooks/useAudioProcessor.ts:213-229 | muting sets the gain to 0 and keeps the volume; unmuting restores the stored volume as the gain |
| AudioGraph.VolumeWhileMuted | src/hooks/useAudioProcessor.ts:213-229 | a volume change while muted stays silent, and unmuting then plays at the clamped new volume |
| AudioGraph.VolumeWhileUnmuted | src/hooks/useAudioProcessor.ts:213-229 | unmuted, a volume change is heard at once: the gain and the stored volume both become the volume clamped to [0, 1] |
| AudioGraph.EqualizerKeepsGraph | src/hooks/useAudioProcessor.ts:232-241 | applying bands writes only filter gains; with no context or a band count unlike the filter count nothing changes |
| AudioGraph.ResumeDoublesPosition | src/hooks/useAudioProcessor.ts:108-159 | as written, resuming from pause time `p` reports position `2p`: the offset is subtracted from the start time and added again by the tick |
| AudioGraph.IntendedResumeIsContinuous | src/hooks/useAudioProcessor.ts:108-159 | measuring from the adjusted start alone, playback resumes exactly at the pause time and then follows the clock; the tick as written gives min(2p, duration) instead |
| AudioGraph.AudioEngine.constructor | src/hooks/useAudioProcessor.ts:19-40 | the engine starts in the hook's initial state |
| AudioGraph.AudioEngine.InitializeAudioContext | src/hooks/useAudioProcessor.ts:43-81 | the fields change exactly as `InitGraph` says, and the invariant is kept |
| AudioGraph.AudioEngine.LoadAudioFile | src/hooks/useAudioProcessor.ts:84-105 | the fields change exactly as `Loaded` says, and the invariant is kept |
| AudioGraph.AudioEngine.Stop | src/hooks/useAudioProcessor.ts:179-194 | the fields change exactly as `Stopped` says, and the invariant is kept |
| AudioGraph.AudioEngine.Tick | src/hooks/useAudioProcessor.ts:108-123 | the fields change exactly as `Ticked` says, and the invariant is kept |
| AudioGraph.AudioEngine.Play | src/hooks/useAudioProcessor.ts:126-159 | the fields change exactly as `Started` says, and the invariant is kept |
| AudioGraph.AudioEngine.Pause | src/hooks/useAudioProcessor.ts:162-176 | the fields change exactly as `Paused` says, and the invariant is kept |
| AudioGraph.AudioEngine.Seek | src/hooks/useAudioProcessor.ts:197-210 | the fields change exactly as `Sought` says, and the invariant is kept |
| AudioGraph.AudioEngine.FireReplay | src/hooks/useAudioProcessor.ts:207 | the fields change exactly as `ReplayFired` says, and the invariant is kept |
| AudioGraph.AudioEngine.SetVolume | src/hooks/useAudioProcessor.ts:213-220 | the fields change exactly as `VolumeSet` says, and the invariant is kept |
| AudioGraph.AudioEngine.SetMuted | src/hooks/useAudioProcessor.ts:223-229 | the fields change exactly as `MutedSet` says, and the invariant is kept |
| AudioGraph.AudioEngine.ApplyEqualizer | src/hooks/useAudioProcessor.ts:232-241 | the fields change exactly as `EqualizerApplied` says, and the invariant is kept |
| AudioInstructions.Steps | src/components/AudioInstructions.tsx:51-84 | four steps: loading is done iff a file is loaded, enabling iff the equalizer is on, the last two never; only the first step has no tab |
| AudioInstructions.GetStepStatus | src/components/AudioInstructions.tsx:117-121 | a step is completed iff it is done, active iff not done and at the active index, pending otherwise |
| AudioInstructions.AtMostOneActive | src/components/AudioInstructions.tsx:117-121 | no two different steps are shown active at once |
| AudioInstructions.InstructionsPanel.constructor | src/components/AudioInstructions.tsx:48 | the guide starts at step 0 with no tab requested |
| AudioInstructions.InstructionsPanel.HandleStepClick | src/components/AudioInstructions.tsx:109-115 | the clicked step becomes active and its tab, when it has one, is requested once; the first step requests none |
| AudioInstructions.CallToActionFor | src/components/AudioInstructions.tsx:257-307 | the closing card asks to load a file iff none is loaded, to enable the equalizer iff a file is loaded and it is off, and offers listen and adjust otherwise |
| AudioInstructions.CallToActionTabs | src/components/AudioInstructions.tsx:266-300 | loading opens no tab (it navigates back), enabling opens tab 1, listen and adjust open tabs 0 and 1 |
| AudioInstructions.CallToActionFollowsSteps | src/components/AudioInstructions.tsx:51-307 | the call to action points at the first of the first two steps not yet done |
| AudioOptimization.ChunkCountBound | src/utils/audioOptimization.ts:75-107 | turn `i` of the planner loop runs exactly when its time `i·chunkSize` is before the duration |
| AudioOptimization.SampleAt | src/utils/audioOptimization.ts:91 | a read inside the channel gives that sample; a read past its end gives 0 |
| AudioOptimization.Window | src/utils/audioOptimization.ts:86-93 | a window has the requested length and holds the channel's samples from its start, zero past the end |
| AudioOptimization.CopyWindow | src/utils/audioOptimization.ts:90-92 | the copy loop writes exactly the window of the channel at the chunk's start |
| AudioOptimization.Frame | src/utils/audioOptimization.ts:176-178 | frame `i` holds sample `i` of every channel, in channel order |
| AudioOptimization.Interleaved | src/utils/audioOptimization.ts:165-182 | the interleaved data has length·channels entries |
| AudioOptimization.InterleavedAt | src/utils/audioOptimization.ts:165-182 | entry `i·channels + c` of the interleaved data is sample `i` of channel `c` |
| AudioOptimization.AudioBufferToArrayBuffer | src/utils/audioOptimization.ts:165-182 | the running-offset loop produces exactly the frame-by-frame interleaving of the channels |
| AudioOptimization.ChunkPlan | src/utils/audioOptimization.ts:54-110 | the planner emits one chunk per loop turn |
| AudioOptimization.EmitChunk | src/utils/audioOptimization.ts:76-104 | one turn copies each channel's window and interleaves it into the chunk the plan names for that turn |
| AudioOptimization.ChunkAudioFile | src/utils/audioOptimization.ts:54-110 | the `while` loop returns exactly the planned chunks, in order |
| AudioOptimization.ChunkPlanIndices | src/utils/audioOptimization.ts:72-107 | chunk indices are 0, 1, 2, … in emission order, and there are no chunks exactly when the duration is 0 |
| AudioOptimization.ChunkWithinDuration | src/utils/audioOptimization.ts:76-82 | every window is non-empty and lies within [0, duration] |
| AudioOptimization.ChunkPlanEnds | src/utils/audioOptimization.ts:75-107 | the first window starts at 0 and the last one ends exactly at the duration |
| AudioOptimization.ChunkPlanNoGap | src/utils/audioOptimization.ts:76-105 | consecutive windows overlap by exactly min(overlap, i·chunkSize) frames: the configured overlap, clamped where the start would fall before 0; so each window starts no later than the previous one ends and the windows cover the file without a gap |
| AudioOptimization.ChunkSampleAt | src/utils/audioOptimization.ts:86-98 | entry `k·channels + c` of a chunk's data is sample `start + k` of channel `c`, zero past the end |
| AudioOptimization.ProcessChunksOptimized | src/utils/audioOptimization.ts:115-141 | the run succeeds exactly when every chunk does, and then slot `k` holds chunk `k`'s output whatever the completion order; otherwise it fails with the error of the first failure to complete; the `j`-th report is (j+1)/n·100, and a successful run reports n times, ending at 100 |
| AudioOptimization.EveryChunkFilled | src/utils/audioOptimization.ts:124-138 | once every chunk in the completion order has finished, each slot holds its own chunk's output, or nothing when that chunk failed |
| AudioOptimization.ProcessChunk | src/utils/audioOptimization.ts:124-135 | an output fills its chunk's empty slot and reports the share of filled slots; a rejection fills nothing and reports nothing; no other slot changes |
| AudioOptimization.CompleteNext | src/utils/audioOptimization.ts:124-138 | one more completion keeps the executor's state: the completed chunks' slots hold their outcomes, one report per success, and the first error kept |
| AudioOptimization.AllCompleted | src/utils/audioOptimization.ts:115-141 | after every completion the run has failed exactly when some chunk failed, with the first failure's error; otherwise every slot holds its chunk's output and every chunk reported |
| AudioOptimization.FirstErrorMeaning | src/utils/audioOptimization.ts:138 | no error among the first `j` completions exactly when all of them succeeded; an error recorded is that of the first failed completion |
| AudioOptimization.AllCompletedOk | src/utils/audioOptimization.ts:138 | every completion succeeded exactly when every chunk succeeded, since the order lists each chunk once |
| AudioOptimization.StoreStep | src/utils/audioOptimization.ts:127 | storing one more completion's outcome in its slot extends the stored prefix by one and leaves the other slots alone |
| AudioOptimization.CountSomeFill | src/utils/audioOptimization.ts:129-130 | filling one empty slot raises the number of defined results, from which progress is computed, by exactly one |
| AudioOptimization.Semaphore.constructor | src/utils/audioOptimization.ts:223-229 | a semaphore starts with its permits free and nobody waiting |
| AudioOptimization.Semaphore.Acquire | src/utils/audioOptimization.ts:231-240 | a free permit is taken at once; otherwise the caller joins the back of the queue; holders never exceed the capacity |
| AudioOptimization.Semaphore.Release | src/utils/audioOptimization.ts:242-251 | with nobody waiting the permit returns; otherwise it passes straight to the oldest waiter; holders never exceed the capacity |
| AudioOptimization.EstimateProcessingComplexity | src/utils/audioOptimization.ts:191-217 | below 10 MiB is low, below 50 medium, below 100 high, from 100 MiB extreme, each as an if-and-only-if; the estimates are 5, 15, 30 and 60 s with chunks of 60, 30, 15 and 10 s |
| AudioOptimization.ComplexityMonotone | src/utils/audioOptimization.ts:191-217 | a larger file never gets a lower complexity, a shorter estimate or a larger recommended chunk |
| AudioOptimization.CheckMemoryAvailability | src/utils/audioOptimization.ts:263-286 | memory is available iff usage is below 80 %; the usage is used/limit·100; the advice to optimise shows iff usage is above 70 %; without a reading memory counts as available at 0 % with the "unknown" advice |
| AudioPreview.AudioPreview.constructor | src/components/AudioPreview.tsx:34-59 | a preview of a file starts paused at 0, volume 0.7 given to the element, unmuted, not loading |
| AudioPreview.AudioPreview.HandleVolumeChange | src/components/AudioPreview.tsx:106-118 | the volume and the element take the slider value; muted exactly when the value is 0 |
| AudioPreview.AudioPreview.ToggleMute | src/components/AudioPreview.tsx:120-130 | the mute flag flips; the element goes to 0 or back to the stored volume, which never changes |
| AudioPreview.AudioPreview.HandleSeek | src/components/AudioPreview.tsx:99-104 | the element and the shown time move to the slider value |
| AudioPreview.AudioPreview.TogglePlay | src/components/AudioPreview.tsx:83-97 | playing pauses; paused starts playing exactly when the element's play succeeds |
| AudioPreview.AudioPreview.HandleTimeUpdate | src/components/AudioPreview.tsx:65 | the shown time follows the element's time |
| AudioPreview.AudioPreview.HandleLoading | src/components/AudioPreview.tsx:66-67 | load start sets the loading flag and "can play" clears it |
| AudioPreview.AudioPreview.HandleEnded | src/components/AudioPreview.tsx:68 | at the end the preview shows paused |
| AudioPreview.AudioPreview.Progress | src/components/AudioPreview.tsx:132 | progress is 0 for a zero duration and lies in 0-100 while the time is within the duration |
| AudioProcessor.CreateProgressSteps | src/components/AudioProcessor.tsx:253-323 | six stages in fixed order, plus binaural before finalize exactly when binaural beats are enabled; analyze and prepare always complete; on completion every later stage is complete at 100; outside processing and completion every later stage is pending at 0 |
| AudioProcessor.ProcessingStages | src/components/AudioProcessor.tsx:271-320 | while processing at p: frequency is active at min(0.4p, 40); tuning, tempo, binaural and finalize are active exactly when p exceeds 25, 50, 75 and 90, with progress min(1.33(p-25), 100), min(2(p-50), 100), min(4(p-75), 100) and min(10(p-90), 100); a stage that is not active is pending at 0 |
| AudioProcessor.ProcessingProgressInRange | src/components/AudioProcessor.tsx:271-320 | while processing with a non-negative percentage every stage's progress lies in [0, 100] |
| AudioProcessor.StagesActivateInOrder | src/components/AudioProcessor.tsx:271-320 | an active stage has every earlier stage active too |
| AudioProcessor.StageProgressMonotone | src/components/AudioProcessor.tsx:271-320 | a higher percentage never shows less progress on any stage |
| AudioProcessor.RemainingTime | src/components/AudioProcessor.tsx:831 | the estimate is max(0, round(0.5(100-p))): never negative, 0 at or above 100 %, at most 50 s, and within half a second of 0.5(100-p) |
| AudioProcessor.RemainingTimeNonIncreasing | src/components/AudioProcessor.tsx:831 | the estimate never grows as the percentage grows |
| AudioProcessor.MessageOr | src/components/AudioProcessor.tsx:399-431 | `message \|\| fallback`: an absent or empty message gives the fallback, any other message is kept |
| AudioProcessor.PollReaction | src/components/AudioProcessor.tsx:390-441 | each reply is echoed first; polling continues exactly on "processing"; completion adds completed/100 or error/0 when loading the result fails; an error reply adds error/0 with the server message or a default; a failed request reports error/0 and stops |
| AudioProcessor.PollRun | src/components/AudioProcessor.tsx:390-441 | a poll sequence makes at most two reports per reply and at least one report when any reply arrives |
| AudioProcessor.PollWhileProcessing | src/components/AudioProcessor.tsx:398-406 | while every reply says "processing", each poll makes exactly one report carrying that reply's progress |
| AudioProcessor.PollStopsAtFirstFinalReply | src/components/AudioProcessor.tsx:390-441 | polling stops at the first reply that is not "processing": later replies are never consumed |
| AudioProcessor.ProcessTransformation | src/components/AudioProcessor.tsx:328-454 | without a file nothing is reported; otherwise the upload is reported; an upload that is rejected, not ok or unreadable ends in the catch's report of the thrown message (the upload error for a response that is not ok); a readable upload reports the start at 20 %, then the catch's report for a failed process request (the start error when not ok) or the poll run; the processing task id is stored exactly when both bodies are read, and it is the process reply's id |
| AudioProcessor.CaughtReport | src/components/AudioProcessor.tsx:446-452 | an error at 0 whose message is "Erreur: " followed by the thrown message, or by "Erreur inconnue" when it is absent or empty |
| AudioProcessor.AudioProcessorPanel.constructor | src/components/AudioProcessor.tsx:80-91 | the original player is selected, nothing plays, volume 0.7, no player has been paused, stopped or given a volume |
| AudioProcessor.AudioProcessorPanel.HandlePlayerSwitch | src/components/AudioProcessor.tsx:217-226 | the target becomes selected; the previously selected player is paused exactly when it differs from the target and exists; the target is never paused; nothing else changes |
| AudioProcessor.AudioProcessorPanel.HandleStop | src/components/AudioProcessor.tsx:206-214 | an existing selected player is stopped and playback is off; without that player nothing changes |
| AudioProcessor.AudioProcessorPanel.HandleVolumeChange | src/components/AudioProcessor.tsx:228-233 | the volume is stored and given to each player that exists; nothing else changes |
| AudioProcessor.HandleSettingChange | src/components/AudioProcessor.tsx:235-240 | the new settings differ from the old in the changed key only |
| AudioProcessor.HandleBinauralBeatChange | src/components/AudioProcessor.tsx:242-250 | only the changed binaural key differs; everything outside the binaural settings is kept |
| AudioProcessor.SettingChangesCommute | src/components/AudioProcessor.tsx:235-240 | repeating a change has no further effect; changes to different keys commute; a later change to the same key overrides an earlier one |
| AudioProcessor.BinauralChangeIsSettingChange | src/components/AudioProcessor.tsx:235-250 | a binaural change equals a top-level change of the binaural settings to the new value |
| AudioUpload.EstimatedBpm | src/components/AudioUpload.tsx:57 | the simulated tempo floor(80r + 60) lies in [60, 139] for every draw r in [0, 1) |
| AudioUpload.AnalyzeAudioFile | src/components/AudioUpload.tsx:43-81 | the record is produced exactly when the metadata loads with a duration of at most 600 s; an unreadable file and a longer file get their error messages; the record copies name, size, type and duration, with key "C" and a tempo in [60, 139] |
| AudioUpload.AudioUploadPanel.constructor | src/components/AudioUpload.tsx:40-41 | no error, no analysis running, nothing handed on |
| AudioUpload.AudioUploadPanel.OnDrop | src/components/AudioUpload.tsx:83-105 | the error is cleared first; an empty drop hands nothing on; only the first file counts; above 100 MiB it is refused with the size message before analysis; otherwise the analysed record is handed on or its error shown; analysis is never left running, and every record handed on passed both gates |
| AudioUpload.SizeGateBoundary | src/components/AudioUpload.tsx:36 | exactly 100 MiB (104857600 bytes) passes the size gate and one byte more does not |
| AudioUpload.Pow1024 | src/components/AudioUpload.tsx:119 | every power of 1024 is at least 1 |
| AudioUpload.UnitIndex | src/components/AudioUpload.tsx:118 | the unit index i of a positive size satisfies 1024^i <= bytes < 1024^(i+1) |
| AudioUpload.FormatFileSize | src/components/AudioUpload.tsx:114-120 | "0 Bytes" exactly for 0; otherwise the shown value lies in [1, 1024) and, below the terabyte range, carries the unit named by the unit index |
| AudioUpload.Pow1024Monotone | src/components/AudioUpload.tsx:118 | powers of 1024 grow with the exponent |
| AudioUpload.UnitIndexBelowTerabyte | src/components/AudioUpload.tsx:117-119 | every size below 1024^4 bytes gets one of the four named units |
| DetailedProgressBar.GetStepIcon | src/components/DetailedProgressBar.tsx:50-60 | a step's own icon wins exactly when it has one; otherwise the icon is chosen by id, with the pending icon for any other id |
| DetailedProgressBar.GetStatusColor | src/components/DetailedProgressBar.tsx:78-85 | grey exactly for pending steps, green exactly for completed ones |
| DetailedProgressBar.FindStepIndex | src/components/DetailedProgressBar.tsx:94 | the first position whose id matches, or -1 exactly when none matches |
| DetailedProgressBar.Connectors | src/components/DetailedProgressBar.tsx:277-287 | one connector fewer than steps, each green exactly when the step before it is completed |
| DetailedProgressBar.ShowTimeChip | src/components/DetailedProgressBar.tsx:174 | the chip shows exactly when estimates are on and the estimate is present and non-zero |
| DetailedProgressBar.FormatTime | src/components/DetailedProgressBar.tsx:87-92 | the label ends in 's', and shows a minutes part exactly from one minute on |
| DetailedProgressBar.FormatTimeMinutes | src/components/DetailedProgressBar.tsx:87-92 | from one minute on the label is the whole minutes elapsed, then the rounded remainder, which lies in [0, 60] |
| DetailedProgressBar.FormatTimeShowsSixtySeconds | src/components/DetailedProgressBar.tsx:87-92 | 119.6 s is shown as "1m 60s" |
| DetailedProgressBar.FormatTimeIntendedParts | src/components/DetailedProgressBar.tsx:87-92 | the corrected label rounds once and splits the total into minutes and 0-59 seconds that recombine to it |
| DetailedProgressBar.FormatTimeIntendedAgrees | src/components/DetailedProgressBar.tsx:87-92 | wherever the written label's seconds part is below 60 the corrected label is identical to it |
| DetailedProgressBar.FormatTimeAgreesOnWholeSeconds | src/components/DetailedProgressBar.tsx:87-92 | on whole seconds the written and corrected labels are identical |
| DetailedProgressBar.TimeChipLabel | src/components/DetailedProgressBar.tsx:177 | the chip reads the fixed prefix followed by the corrected time label |
| DetailedProgressBar.ShowsActiveDetail | src/components/DetailedProgressBar.tsx:95-295 | the detail panel shows exactly when the first step with the current id exists and is active |
| EmotionalQuestionnaire.FindIntention | src/components/EmotionalQuestionnaire.tsx:182 | the first listed intention with the id, or none exactly when no intention has it |
| EmotionalQuestionnaire.FindSubOption | src/components/EmotionalQuestionnaire.tsx:207-208 | the first listed sub-option with the id, or none exactly when no sub-option has it |
| EmotionalQuestionnaire.TuningOrDefault | src/components/EmotionalQuestionnaire.tsx:191 | `tuning \|\| 432`: an absent or zero tuning gives 432 Hz, any other tuning is kept |
| EmotionalQuestionnaire.IntentionSettings | src/components/EmotionalQuestionnaire.tsx:189-198 | the emitted settings carry the intention id and the chosen frequency, the intention's tuning (or 432) and tempo, and binaural beats enabled in its band at volume 0.3 |
| EmotionalQuestionnaire.Questionnaire.constructor | src/components/EmotionalQuestionnaire.tsx:176-178 | nothing selected, main step, nothing emitted |
| EmotionalQuestionnaire.Questionnaire.HandleMainIntentionSelect | src/components/EmotionalQuestionnaire.tsx:180-202 | the intention is selected; one with sub-options opens the sub step and emits nothing; one without emits its settings with its first frequency when it is in the intention table, and nothing otherwise |
| EmotionalQuestionnaire.Questionnaire.HandleSubOptionSelect | src/components/EmotionalQuestionnaire.tsx:204-226 | the sub-option is selected; without a main intention nothing is emitted; with a matching sub-option it emits `main_sub` with the sub-option's frequency and the main intention's other settings |
| EmotionalQuestionnaire.Questionnaire.HandleBackToMain | src/components/EmotionalQuestionnaire.tsx:228-232 | back to the main step with both selections cleared; nothing emitted |
| EmotionalQuestionnaire.MainIntentionsComplete | src/components/EmotionalQuestionnaire.tsx:49-170 | all four intentions have three sub-options with solfège frequencies and are keys of the intention table, and every table key is listed |
| EmotionalQuestionnaire.GetFrequencyInfo | src/components/EmotionalQuestionnaire.tsx:234-236 | the first entry with exactly that frequency, or none exactly when no entry has it |
| EmotionalQuestionnaire.EmittedFrequenciesDescribed | src/components/EmotionalQuestionnaire.tsx:49-236 | every frequency the questionnaire can emit has its solfège description |
| EnhancedAudioPlayer.BandsToApply | src/components/EnhancedAudioPlayer.tsx:102-110 | the bands keep their count, frequencies and labels; enabled bands are passed as given, disabled ones with every gain 0 |
| EnhancedAudioPlayer.VolumeSyncSettles | src/components/EnhancedAudioPlayer.tsx:87-92 | after the volume effect the engine is within 0.01 of prop/100 for any prop in [0, 100], so a second run does not call the engine again |
| EnhancedAudioPlayer.EnhancedAudioPlayer.constructor | src/components/EnhancedAudioPlayer.tsx:45-77 | a fresh engine in its initial state, no interaction yet, nothing asked of the parent |
| EnhancedAudioPlayer.EnhancedAudioPlayer.Load | src/components/EnhancedAudioPlayer.tsx:80-84 | the engine takes the file exactly as its own load operation does |
| EnhancedAudioPlayer.EnhancedAudioPlayer.SyncVolume | src/components/EnhancedAudioPlayer.tsx:87-92 | the engine's volume is set to prop/100 exactly when it is more than 0.01 away, and is otherwise left alone; afterwards it is within 0.01 of any prop in [0, 100] |
| EnhancedAudioPlayer.EnhancedAudioPlayer.SyncMuted | src/components/EnhancedAudioPlayer.tsx:95-99 | the mute flag is pushed only when the engine differs, so afterwards they agree |
| EnhancedAudioPlayer.EnhancedAudioPlayer.SyncEqualizer | src/components/EnhancedAudioPlayer.tsx:102-110 | the engine applies the bands as given when enabled and the zero-gain copy when disabled |
| EnhancedAudioPlayer.EnhancedAudioPlayer.TogglePlay | src/components/EnhancedAudioPlayer.tsx:112-126 | the interaction is recorded, then a playing engine pauses and a stopped one plays |
| EnhancedAudioPlayer.EnhancedAudioPlayer.HandleSeek | src/components/EnhancedAudioPlayer.tsx:128-132 | the engine seeks to the slider value |
| EnhancedAudioPlayer.EnhancedAudioPlayer.HandleVolumeChange | src/components/EnhancedAudioPlayer.tsx:134-138 | the parent is asked for the slider value times 100 |
| EnhancedAudioPlayer.EnhancedAudioPlayer.ToggleMute | src/components/EnhancedAudioPlayer.tsx:140-142 | the parent is asked for the opposite of the mute prop |
| EnhancedAudioPlayer.EnhancedAudioPlayer.Progress | src/components/EnhancedAudioPlayer.tsx:144 | 0 without a positive duration; within [0, 100] while the position is within the track |
| PerformanceMonitor.FormatFileSize | src/components/PerformanceMonitor.tsx:46-51 | shown in KB (the size times 1024) exactly below one MB, otherwise in MB |
| PerformanceMonitor.FormatTime | src/components/PerformanceMonitor.tsx:53-60 | the display ends in 's'; below a minute it has a decimal point (tenths), and exactly from one minute on a minutes part |
| PerformanceMonitor.FormatTimeMinutes | src/components/PerformanceMonitor.tsx:53-60 | from one minute on the display is the whole minutes elapsed, then the remainder rounded to a whole number in [0, 60] |
| PerformanceMonitor.FormatTimeShowsSixtySeconds | src/components/PerformanceMonitor.tsx:53-60 | 119.6 s is shown as "1m 60s" |
| PerformanceMonitor.FormatTimeIntendedParts | src/components/PerformanceMonitor.tsx:53-60 | the corrected display rounds first and splits into minutes and 0-59 seconds that recombine to the rounded time |
| PerformanceMonitor.FormatTimeIntendedAgrees | src/components/PerformanceMonitor.tsx:53-60 | below a minute, and wherever the written seconds part stays below 60, the corrected label is the written one |
| PerformanceMonitor.GetMemoryStatus | src/components/PerformanceMonitor.tsx:62-66 | optimal exactly below 100 MB, moderate exactly in [100, 300), high exactly from 300 MB |
| PerformanceMonitor.StatusColor | src/components/PerformanceMonitor.tsx:63-65 | each status's colour is a seven-character hex colour `#rrggbb` |
| PerformanceMonitor.StatusLabel | src/components/PerformanceMonitor.tsx:63-65 | each status has a label of at least five characters |
| PerformanceMonitor.StatusPresentationDistinct | src/components/PerformanceMonitor.tsx:63-65 | different statuses get different colours and different labels |
| PerformanceMonitor.MemoryStatusMonotone | src/components/PerformanceMonitor.tsx:62-66 | more memory in use never shows a better status |
| PerformanceMonitor.GetWarningMessage | src/components/PerformanceMonitor.tsx:68-79 | the three known tags get their fixed wordings; any other tag is shown unchanged |
| PerformanceMonitor.AlertSeverity | src/components/PerformanceMonitor.tsx:95 | an alert is an error exactly when its tag contains "very-large" |
| PerformanceMonitor.KnownTagsSeverity | src/components/PerformanceMonitor.tsx:68-95 | of the hook's three tags only the very-large-file one is an error, and each has its own wording |
| PerformanceMonitor.MemoryBar | src/components/PerformanceMonitor.tsx:142 | the bar never exceeds 100, is non-negative for non-negative usage, is usage/5 up to 500 MB and full from there |
| PerformanceMonitor.TimeShown | src/components/PerformanceMonitor.tsx:176-182 | the elapsed time with its caption once it is positive, otherwise the estimate with its caption |
| PerformanceMonitor.FileChip | src/components/PerformanceMonitor.tsx:164 | the chip says "Gros fichier" exactly for a large file |
| PerformanceOptimization.RecommendedChunkSize | src/hooks/usePerformanceOptimization.ts:84-89 | 5 MB above 200 MB, 8 MB in (100, 200], the configured size otherwise |
| PerformanceOptimization.RecommendedChunkSizeNonIncreasing | src/hooks/usePerformanceOptimization.ts:84-89 | with a configured size of at least 8 MB (the default is 10), a bigger file never gets bigger slices |
| PerformanceOptimization.FileWarnings | src/hooks/usePerformanceOptimization.ts:106-114 | the list holds the large-file tag exactly for a large file and the very-large-file tag exactly above 500 MB, in that order, with no repeats and never the high-memory tag |
| PerformanceOptimization.AnalyzeFile | src/hooks/usePerformanceOptimization.ts:79-117 | the size is bytes / 1 MiB; large exactly above the configured maximum; the recommended slice size follows the size; the estimate is max(5, 0.5 MB) and never below either; the elapsed time is reset to 0; memory usage is carried over; the warning list is replaced by the file warnings |
| PerformanceOptimization.DefaultLargeFileThreshold | src/hooks/usePerformanceOptimization.ts:19-24 | with the default options a file is large exactly above 100 MiB, and up to there gets 10 MB slices |
| PerformanceOptimization.Recommendations | src/hooks/usePerformanceOptimization.ts:197-214 | one message for a large file (first), one above 300 MB of memory, two above 200 MB of file (last), each present exactly when its condition holds |
| PerformanceOptimization.SlicesConcatenate | src/hooks/usePerformanceOptimization.ts:166-169 | the slices put back together are the buffer |
| PerformanceOptimization.SliceSizes | src/hooks/usePerformanceOptimization.ts:166-169 | no slices exactly for an empty buffer; every slice but the last has exactly the slice size; the last has between 1 byte and the slice size |
| PerformanceOptimization.SlicesStep | src/hooks/usePerformanceOptimization.ts:166-169 | one loop step at offset i takes the bytes from i up to i plus the slice size or the end |
| PerformanceOptimization.SliceBuffer | src/hooks/usePerformanceOptimization.ts:162-169 | the loop produces exactly the slices of the buffer |
| PerformanceOptimization.ProcessInChunks | src/hooks/usePerformanceOptimization.ts:157-184 | the call succeeds exactly when every slice's processor call does, and then result i is slice i's value, with one report per slice ending at 100; otherwise it fails with the first rejection, at slice k, after exactly the reports of slices 0..k-1; report i is (i+1)/n * 100 |
| PerformanceOptimization.PerformanceOptimizer.constructor | src/hooks/usePerformanceOptimization.ts:26-42 | zero metrics with the configured slice size, not optimising, no warnings, no sampler armed |
| PerformanceOptimization.PerformanceOptimizer.StartMemoryMonitoring | src/hooks/usePerformanceOptimization.ts:45-69 | arms a new sampler handle exactly when monitoring is enabled; nothing else changes |
| PerformanceOptimization.PerformanceOptimizer.SampleMemory | src/hooks/usePerformanceOptimization.ts:49-67 | a sample records the memory usage; above 500 MB the high-memory tag is appended only when absent, so tags never repeat; other warnings and fields are untouched |
| PerformanceOptimization.PerformanceOptimizer.StopMemoryMonitoring | src/hooks/usePerformanceOptimization.ts:71-76 | an armed sampler is cleared once and the handle emptied; with none armed nothing is cleared, so a second call does nothing |
| PerformanceOptimization.PerformanceOptimizer.AnalyzeFileOf | src/hooks/usePerformanceOptimization.ts:79-117 | the metrics and warnings become those of the file analysis, from the last memory sample |
| PerformanceOptimization.PerformanceOptimizer.StartOptimization | src/hooks/usePerformanceOptimization.ts:120-124 | optimising from the given time, with the sampler armed when monitoring is enabled |
| PerformanceOptimization.PerformanceOptimizer.StopOptimization | src/hooks/usePerformanceOptimization.ts:127-138 | not optimising; the elapsed seconds are recorded and nothing else in the metrics changes; the sampler is stopped |
| Polyfills.Repeat | src/utils/polyfills.ts:11 | n copies of the pattern have n times its length |
| Polyfills.RepeatAt | src/utils/polyfills.ts:11 | position k*len + r of n copies holds the pattern's character r |
| Polyfills.RepeatIndex | src/utils/polyfills.ts:11 | each character of a repetition is the pattern's character at the same position modulo its length |
| Polyfills.OneMoreCopyCovers | src/utils/polyfills.ts:10-11 | the pad plus floor(missing/len) more copies is longer than the missing part |
| Polyfills.PadStart | src/utils/polyfills.ts:5-14 | a string at least as long as the target comes back unchanged; the replacement fails exactly when padding is needed and the pad is empty |
| Polyfills.LongPad | src/utils/polyfills.ts:10-13 | when one pad copy is too short, the extended pad is longer than the missing part and repeats the pad from its first character |
| Polyfills.PadStartPads | src/utils/polyfills.ts:9-13 | a shorter string with a non-empty pad comes back exactly as long as the target, ending with the string, preceded by the pad repeated cyclically from its first character |
| Polyfills.PadStartIntended | src/utils/polyfills.ts:5-14 | the corrected padding leaves the string unchanged for an empty pad and otherwise agrees with the replacement |
| Polyfills.EmptyPadFails | src/utils/polyfills.ts:10-11 | "7" padded to 2 with an empty pad fails in the replacement, while the corrected padding returns "7" |
| Polyfills.TwoDigits | src/utils/polyfills.ts:28-29 | seconds take exactly two digits, with a leading '0' exactly below ten |
| Polyfills.FormatTime | src/utils/polyfills.ts:25-30 | for a non-negative time the text ends in ':' and two digits, the first of them 0-5, so the seconds field never exceeds 59 |
| Polyfills.PaddedSeconds | src/utils/polyfills.ts:27-29 | whole seconds below a minute, padded with a leading '0' when shorter than two characters, are exactly their two digits |
| Polyfills.FormatTimeParts | src/utils/polyfills.ts:25-30 | for a non-negative time the minutes and the 0-59 seconds shown recombine to the whole seconds elapsed, and the seconds always take two digits |
| Polyfills.ObjectValues | src/utils/polyfills.ts:18-22 | one value per key |
| Polyfills.ObjectValuesInKeyOrder | src/utils/polyfills.ts:33-35 | the value at each position is the one the object stores under that position's key |
| Server.LastIndexOf | main.py:98-101 | the last position of the character, or -1; nothing after it is that character |
| Server.LastIndexOfIs | main.py:98-101 | a position holding the character with no later occurrence is the last position |
| Server.Suffix | main.py:99 | a suffix is empty, or a dot and at least one more character that end the filename and are shorter than it |
| Server.SuffixShape | main.py:98-101 | a filename's suffix is empty, or a dot followed by at least one character, none of them a dot or a slash |
| Server.ValidateAudioFile | main.py:90-104 | an accepted file has a given, supported content type; a supported type with no filename is accepted; a named file with no suffix is refused |
| Server.ValidationExamples | main.py:90-104 | "Song.MP3" is accepted as audio/mpeg (the suffix is lowercased); an MP3 name sent as audio/wav, a dot-file ".mp3" and a missing content type are refused; a known type with no filename is accepted |
| Server.AcceptedFileCarriesExtension | main.py:90-104 | an accepted file has a given, supported content type, and a named one ends, ignoring case, with one of the extensions listed for that type |
| Server.CheckpointMessage | main.py:267-312 | every checkpoint message differs from the initial and the done messages and ends with "..." |
| Server.CheckpointMessagesDistinct | main.py:267-312 | the checkpoints 10, 30, 50, 70, 90 rise, and each reports its own message |
| Server.ClientAndServerFormats | main.py:80-88 | the drop zone's types agree with the API's except M4A, which the drop zone sends as "audio/x-m4a" and the API refuses, expecting "audio/mp4" with the same extension |
| Server.CatchAllAsWritten | main.py:224-225 | every failure inside the endpoint's catch-all handler, HTTP exceptions included, reaches the client as a 500 |
| Server.CatchAllIntended | main.py:224-225 | the corrected handler passes an HTTP exception through with its own status and detail, and turns any other failure into the same 500 as written |
| Server.GatesSwallowed | main.py:236-262 | the 404 for an unknown upload and the 400 for an unsupported format come out as 500s with the rendered exception in the detail; the corrected handler keeps 404 and 400 |
| Server.ExportPath | main.py:380-381 | the export file is never the processed file it is converted from |
| Server.FormatName | main.py:381 | each export format is named with three letters |
| Server.FormatNamesAgree | main.py:381 | the API's name for each export format is the extension the export screen gives its download |
| Server.ExportEncoding | main.py:383-393 | MP3 exactly for the mp3 format, at 320k exactly for high quality; WAV is re-encoded as 24-bit exactly for high quality and copied otherwise |
| Server.BeatFrequenciesMatchClientTable | main.py:132-164 | the generator's beat frequency for each brainwave band is the client table's nominal frequency for that band |
| Server.FindUpload | main.py:236-239 | the first stored name beginning with the file id and "_", or none exactly when no stored name does |
| Server.Backend.constructor | main.py:71-77 | no uploads, no tasks, no processed files |
| Server.Backend.UploadAudio | main.py:187-225 | an unsupported file gets a 400 and nothing is stored; an accepted one is stored as id_filename, then the analysis answers with sample rate 44100 or fails with a 500 carrying the upload prefix |
| Server.Backend.ProcessAudio | main.py:227-262 | an unknown upload gets a 404 and no task; otherwise a new task starts processing at 0 with the initial message and no output, and its id is returned |
| Server.Backend.Reach | main.py:267-332 | one checkpoint moves the processing task's progress and message; a failure there ends it in error at that progress; only this task changes |
| Server.Backend.RunCheckpoints | main.py:267-318 | the checkpoints 10 to 90 in order: a failure at a listed checkpoint ends the processing task in error there with "Erreur: " and the failure text; otherwise the processing task is still processing at 90 with its message; only this task changes |
| Server.Backend.ProcessBackground | main.py:264-332 | without failure the processing task ends completed at 100 with its output path and the processed file exists; a failure at a checkpoint ends the processing task in error at that checkpoint with "Erreur: " and the failure text, and writes no file; no other task and no upload changes; progress never exceeds 100 |
| Server.Backend.GetStatus | main.py:334-346 | 404 for an unknown task; otherwise its status, progress and message, with progress at most 100 and exactly 100 when completed |
| Server.Backend.Download | main.py:348-366 | 404 for an unknown task, 400 while unfinished, 404 when the processed file is missing; the WAV is returned exactly when the processing task is completed and its file exists |
| Server.Backend.Export | main.py:368-401 | 404 for an unknown task, 400 while unfinished, 500 with the export prefix when the conversion fails; otherwise the export file is written next to the processed one and returned with its format's media type, name and encoding |
| Server.UploadProcessDownload | main.py:187-366 | a file uploaded with a .wav name, processed without failure, can be downloaded from its processed path |
| SimpleAudioPlayer.SeekTime | src/components/SimpleAudioPlayer.tsx:115-121 | slider percent p maps to p/100 of the duration: within the track for p in [0, 100], 0 at 0 %, the end at 100 %, and the progress shown afterwards is p again |
| SimpleAudioPlayer.ElementVolume | src/components/SimpleAudioPlayer.tsx:66-70 | 0 when muted, otherwise volume/100, which lies in [0, 1] for a 0-100 volume |
| SimpleAudioPlayer.SimpleAudioPlayer.constructor | src/components/SimpleAudioPlayer.tsx:46-50 | not playing, at 0, no duration, not loading, nothing asked of the parent |
| SimpleAudioPlayer.SimpleAudioPlayer.LoadFile | src/components/SimpleAudioPlayer.tsx:53-63 | loading starts; the element is paused and rewound to 0; the component's playing flag, time and duration are kept, so it can show "playing" over a paused element |
| SimpleAudioPlayer.SimpleAudioPlayer.HandleLoadedMetadata | src/components/SimpleAudioPlayer.tsx:72-77 | the duration is the element's and loading ends; nothing else changes |
| SimpleAudioPlayer.SimpleAudioPlayer.SyncVolume | src/components/SimpleAudioPlayer.tsx:66-70 | the element's volume becomes the effective volume; nothing else changes |
| SimpleAudioPlayer.SimpleAudioPlayer.HandleTimeUpdate | src/components/SimpleAudioPlayer.tsx:79-83 | the shown time follows the element's; nothing else changes |
| SimpleAudioPlayer.SimpleAudioPlayer.HandleEnded | src/components/SimpleAudioPlayer.tsx:85-88 | playback is off and the shown time back at 0 |
| SimpleAudioPlayer.SimpleAudioPlayer.TogglePlay | src/components/SimpleAudioPlayer.tsx:90-104 | playing pauses; paused starts playing exactly when the element's play succeeds |
| SimpleAudioPlayer.SimpleAudioPlayer.HandleStop | src/components/SimpleAudioPlayer.tsx:106-113 | the element is paused and rewound, playback is off and the shown time is 0 |
| SimpleAudioPlayer.SimpleAudioPlayer.HandleSeek | src/components/SimpleAudioPlayer.tsx:115-121 | the element and the shown time move to the slider's share of the duration |
| SimpleAudioPlayer.SimpleAudioPlayer.HandleVolumeChange | src/components/SimpleAudioPlayer.tsx:123-127 | the parent is asked for the slider value |
| SimpleAudioPlayer.SimpleAudioPlayer.ToggleMute | src/components/SimpleAudioPlayer.tsx:129-131 | the parent is asked for the opposite of the mute prop |
| SimpleAudioPlayer.SimpleAudioPlayer.Progress | src/components/SimpleAudioPlayer.tsx:133 | 0 without a positive duration; within [0, 100] while the position is within the track |
| SimpleAudioProcessor.SimpleAudioProcessor.constructor | src/hooks/useSimpleAudioProcessor.ts:20-30 | the initial record: stopped at 0, no duration, volume 0.7, unmuted, not loading; no file |
| SimpleAudioProcessor.SimpleAudioProcessor.LoadAudioFile | src/hooks/useSimpleAudioProcessor.ts:33-69 | without a file nothing happens; with one it is remembered; metadata sets the duration, rewinds, stops and ends loading; a load error ends loading and notifies once |
| SimpleAudioProcessor.SimpleAudioProcessor.Play | src/hooks/useSimpleAudioProcessor.ts:71-74 | only the playing flag changes, to on |
| SimpleAudioProcessor.SimpleAudioProcessor.Pause | src/hooks/useSimpleAudioProcessor.ts:76-79 | only the playing flag changes, to off |
| SimpleAudioProcessor.SimpleAudioProcessor.Stop | src/hooks/useSimpleAudioProcessor.ts:81-87 | playback off and the time at 0; nothing else changes |
| SimpleAudioProcessor.SimpleAudioProcessor.SetVolume | src/hooks/useSimpleAudioProcessor.ts:90-93 | the volume is clamped into [0, 1], kept as given inside it; nothing else changes |
| SimpleAudioProcessor.SimpleAudioProcessor.SetMuted | src/hooks/useSimpleAudioProcessor.ts:95-98 | only the mute flag changes; the volume is kept |
| SimpleAudioProcessor.SimpleAudioProcessor.Seek | src/hooks/useSimpleAudioProcessor.ts:100-103 | the time is clamped into [0, duration]; nothing else changes |
| SimpleAudioProcessor.SimpleAudioProcessor.UpdateCurrentTime | src/hooks/useSimpleAudioProcessor.ts:106-109 | the time is stored unclamped and reported once |
| SimpleAudioProcessor.SimpleAudioProcessor.HandleEnded | src/hooks/useSimpleAudioProcessor.ts:112-115 | playback off and the time at 0, and the end is reported once |
| SimpleEqualizer.SimplePresetsFitSliders | src/components/SimpleEqualizer.tsx:40-71 | every preset has five gains, all within the sliders' [-12, 12] |
| SimpleEqualizer.SumAbsGains | src/components/SimpleEqualizer.tsx:114 | the total of absolute gains is non-negative and 0 exactly when every gain is 0 |
| SimpleEqualizer.EqualizerIntensity | src/components/SimpleEqualizer.tsx:113-116 | the gauge lies in [0, 1], is 0 exactly when every gain is 0, and is full exactly when the absolute gains add up to at least 10 |
| SimpleEqualizer.ResetZeroesIntensity | src/components/SimpleEqualizer.tsx:100-116 | after a reset the gauge reads 0 |
| SimpleEqualizer.SimpleEqualizerPanel.constructor | src/components/SimpleEqualizer.tsx:85 | the panel starts on the flat preset with the given bands |
| SimpleEqualizer.SimpleEqualizerPanel.ApplyPresetKey | src/components/SimpleEqualizer.tsx:87-97 | an unknown key changes nothing; a known one gives band i the preset's gain i (0 when missing) and records the key |
| SimpleEqualizer.SimpleEqualizerPanel.ResetEqualizer | src/components/SimpleEqualizer.tsx:100-102 | the flat preset is active, the band layout is kept and every gain is 0 |
| SimpleEqualizer.SimpleEqualizerPanel.HandleBandChange | src/components/SimpleEqualizer.tsx:105-110 | only the chosen band's gain changes, and the panel shows "custom" |
| WebAudioNodes.FilterChain | src/components/WebAudioPlayer.tsx:81-91 | a chain through n filters makes n + 1 connections |
| WebAudioNodes.FilterChainIsPath | src/components/WebAudioPlayer.tsx:81-91 | the chain is one path from its first node to its last through every filter in index order |
| WebAudioNodes.ConnectChain | src/components/WebAudioPlayer.tsx:81-91 | the loop keeping the last connected node makes exactly the chain's connections |
| WebAudioPlayer.FilterKindAt | src/components/WebAudioPlayer.tsx:66-74 | a low shelf exactly at index 0, a high shelf exactly at a later last index, peaking everywhere else; a single band is a low shelf |
| WebAudioPlayer.ShelvesAtTheEnds | src/components/WebAudioPlayer.tsx:66-74 | with two bands or more there is exactly one low shelf, first, and one high shelf, last |
| WebAudioPlayer.InitialFilters | src/components/WebAudioPlayer.tsx:64-78 | one filter per band, of its position's type, with the band's frequency and gain and Q 1 |
| WebAudioPlayer.TopologyIsOnePath | src/components/WebAudioPlayer.tsx:81-91 | the connections form one path from the element to the output; through every filter in band order when the equalizer is enabled, straight into the gain otherwise |
| WebAudioPlayer.SyncedFilters | src/components/WebAudioPlayer.tsx:181-192 | each existing filter with a band gets the band's gain when enabled and 0 when not; other filters are untouched; the count is kept |
| WebAudioPlayer.DisableThenEnable | src/components/WebAudioPlayer.tsx:181-192 | disabling zeroes the gains but keeps the bands, so enabling again gives exactly the gains of enabling directly |
| WebAudioPlayer.SeekDependencyAsWritten | src/components/WebAudioPlayer.tsx:214-218 | the seek effect's read of `currentTime` gives the prop's value exactly when that name is in scope, and a ReferenceError naming it otherwise |
| WebAudioPlayer.SeekEffectReadsUnboundName | src/components/WebAudioPlayer.tsx:22-35 | `currentTime` is a declared prop that the destructuring leaves unbound, so the seek effect as written fails with a ReferenceError, and binds only once the name is destructured |
| WebAudioPlayer.SeekTarget | src/components/WebAudioPlayer.tsx:214-218 | the element moves to the prop only when more than one second away, so afterwards it is within one second of it |
| WebAudioPlayer.WebAudioPlayer.constructor | src/components/WebAudioPlayer.tsx:36-41 | no nodes yet, element at full volume, at 0 and paused, no callbacks |
| WebAudioPlayer.WebAudioPlayer.InitializeAudioContext | src/components/WebAudioPlayer.tsx:44-98 | the first call creates a gain at 1, the filters from the bands and the connections of the topology; later calls, whatever the bands, change nothing |
| WebAudioPlayer.WebAudioPlayer.SyncPlayback | src/components/WebAudioPlayer.tsx:133-167 | playing initialises the graph first, then, when the element's `play()` succeeds, plays it and reports play; a refused `play()` changes neither the element nor the callbacks; pausing pauses it and reports pause; an existing graph is never rebuilt |
| WebAudioPlayer.WebAudioPlayer.SyncVolume | src/components/WebAudioPlayer.tsx:170-178 | the level muted ? 0 : volume goes to the element and to the gain node when one exists |
| WebAudioPlayer.WebAudioPlayer.SyncEqualizer | src/components/WebAudioPlayer.tsx:181-192 | the filter gains become the synced ones; the connections never change |
| WebAudioPlayer.WebAudioPlayer.SyncSeek | src/components/WebAudioPlayer.tsx:214-218 | the element's time becomes the seek target; nothing else changes |
| WebAudioPlayer.WebAudioPlayer.ElementTimeUpdate | src/components/WebAudioPlayer.tsx:196-211 | the element's time is forwarded once |
| WebAudioPlayer.WebAudioPlayer.LoadFile | src/components/WebAudioPlayer.tsx:101-130 | the element is paused and rewound to 0; loading is reported on, then the duration when the metadata arrives, then loading off |

## Left out

- Web Audio, the audio element and WaveSurfer are not modelled as such. This covers
  decoding, biquad filtering, the analyser's FFT (`getAnalyserData`), context creation and
  resumption, and waveform drawing. Only the node parameters and connections the code writes
  are modelled. Decoder and element outcomes are parameters.
- Scheduling is not modelled; each callback is an explicit event method. This covers
  `requestAnimationFrame`, `setTimeout`, `setInterval`, the 1 s poll, the 50 ms replay after
  a seek, and the memory timer.
- `AudioOptimization.ProcessChunksOptimized` does not model the concurrency cap. The source
  builds a `Semaphore` of `options.maxConcurrentChunks` permits and runs the chunks under it;
  the model has no cap parameter and does not use `AudioOptimization.Semaphore`. Its arbitrary
  completion order covers every schedule a cap allows. With a cap of 0 and at least one chunk,
  every `acquire` queues (`AudioOptimization.Semaphore.Acquire` grants only when a permit is
  left), so the source's call never settles, while the model always answers.
- `AudioOptimization.ProcessChunksOptimized` lets every chunk complete before it answers. After
  a failure, `Promise.all` rejects at once while the remaining chunks go on in the background;
  the model returns the same first error, with the reports of all completions.
- `PerformanceOptimization.ProcessInChunks` requires a positive chunk size. With a
  `recommendedChunkSize` of 0, the slicing loop at usePerformanceOptimization.ts:165 adds 0 to
  its index and never ends on a non-empty buffer. The hook's own values are 10 (the default
  `chunkSize`), 8 and 5, and the one caller, `AudioProcessor`, keeps the default.
- React stale closures and effect dependency lists are not modelled. Each handler acts on
  the current state.
- `fetch`, `FormData`, blob downloads and `localStorage` are left out. Server replies, stored
  task ids and request failures are parameters.
- Chunk times and sizes are whole sample frames. The floating-point `floor(t * sampleRate)`
  and the `Float32Array` rounding are left out.
- `toFixed` is modelled as exact decimal rounding, half up. The binary floating-point cases
  where JavaScript rounds differently are left out.
- `AudioUpload.FormatFileSize`: gives the unit and a value in [1, 1024). It does not give the
  `toFixed(2)`/`parseFloat` text. Its unit index is exact integer arithmetic rather than
  `Math.log`.
- `AudioUpload.EstimatedBpm`: the `Math.random()` draw is a parameter.
- React-dropzone's MIME filtering of dropped files is not modelled. `OnDrop` receives what the
  drop zone passes on.
- The polyfills are modelled as functions. The guards that install them only when the browser
  lacks `padStart` or `Object.values` are left out.
- `Polyfills.PadStart` counts Dafny characters, where `length` in JavaScript counts UTF-16 code
  units. Strings outside the Basic Multilingual Plane would be padded differently.
- `Polyfills.PadStart`: the pad string is always given. The default `' '` for a missing
  argument is not modelled.
- `Polyfills.ObjectValues`: takes an object's entries in key order with distinct keys. How
  JavaScript orders integer-like keys is not modelled.
- `AudioEqualizer.HandleBandChange` and `SimpleEqualizer.SimpleEqualizerPanel.HandleBandChange`
  require an index within the bands. The sliders only call them so; an out-of-range index
  would grow the array in JavaScript.
- `AudioInstructions.InstructionsPanel.HandleStepClick` requires one of the four listed steps,
  which are the only ones rendered.
- `AudioExport.AudioExportPanel.HandleExport` requires that no export is in flight. The export
  button is disabled while exporting.
- `AudioExport.AudioExportPanel.HandleExport` keeps one `tickerRunning` flag. On the no-task
  path the source leaves its interval armed, and a second export arms another one, since each
  call creates its own `progressInterval`. The model does not count the armed intervals; the
  shown progress still stops at 90 either way.
- `AudioOptimization.CheckMemoryAvailability` requires a positive `jsHeapSizeLimit`. The source
  divides by it without a guard; browsers that expose `performance.memory` report a positive
  limit.
- `AudioProcessor.AudioProcessorPanel` covers the player switch, stop and volume handlers.
  Play/pause and the WaveSurfer event wiring are presentation and are left out.
- Backend signal processing is left out: librosa loading and beat tracking, `estimate_key`'s
  chroma correlation, the binaural sine synthesis of `generate_binaural_beat`, the
  therapeutic wave, normalisation, and pydub/soundfile encoding. These are floating-point
  numerics and library calls.
  - The analysis result and a conversion failure are parameters.
  - The binaural generator contributes only its frequency table (`Server.BeatFrequency`).
  - The background job's failure point is a parameter: the checkpoint after which the work
    raises.
- The backend's UUIDs are parameters.
- These backend parts are left out: startup cleanup of old files (main.py:166-181), the
  health and root endpoints, static mounting, CORS, and pydantic request validation.
- `Server.Suffix` does not model `pathlib`'s normalisation of repeated or trailing slashes in
  a filename.
- `Server.ValidateAudioFile`: its contract and `Server.AcceptedFileCarriesExtension` state what
  acceptance implies. `Server.ValidationExamples` and `Server.ClientAndServerFormats` fix its
  answers on representative inputs. The converse direction (every name with a listed extension
  is accepted) is not proved.
- `Common.Lower` lowers ASCII letters only, where Python's `str.lower()` lowers every letter.
  Only the Kelvin sign (to 'k') and U+0130 (to 'i' and a combining dot) lower into ASCII, and
  neither can complete one of the listed extensions, so acceptance is the same.
- `Server.FindUpload` reads `UPLOAD_DIR.glob(f"{file_id}_*")` as "the first stored name that
  begins with the id and '_'", in upload order. Glob metacharacters (`*`, `?`, `[...]`) inside
  the id are taken literally, where `Path.glob` would match them as patterns. The order in
  which the file system lists the directory is taken to be the upload order.
- `Server.Backend.UploadAudio` answers 400 for an unsupported file. As written, main.py answers
  500, because its catch-all `except Exception` wraps the `HTTPException` (see Findings;
  `Server.GatesSwallowed` models the code as written).
- `Server.Backend.ProcessAudio` answers 404 for an unknown upload. As written, main.py answers
  500 for the same reason (see Findings).
- `WebAudioPlayer.WebAudioPlayer.SyncSeek` seeks to the `currentTime` prop. As written, the
  component never destructures that prop, so the name the effect reads is unbound (see
  Findings; `WebAudioPlayer.SeekEffectReadsUnboundName` models the code as written).
- `DetailedProgressBar.TimeChipLabel` shows the corrected time label. As written, `formatTime`
  can show "1m 60s" (see Findings). `DetailedProgressBar.FormatTimeIntendedAgrees` shows the two
  labels are the same wherever the written seconds part is below 60.
- `PerformanceMonitor.TimeShown` shows the corrected time display. As written, `formatTime` can
  show "1m 60s" (see Findings).

## Findings

| source | as written | input that shows it | evidently intended | confidence | as-written member | corrected member |
|---|---|---|---|---|---|---|
| src/hooks/useAudioProcessor.ts:108-210 | `play` sets `startTime = now - pauseTime`, and the tick adds `pauseTime` again, so a restarted track jumps ahead by its start position | seek to 30 s while playing a track longer than 60 s: the 50 ms replay restarts the source from `pauseTime` = 30 with `startTime = now - 30`, and its first tick reports 60 s | playback resumes where it paused: position = now - startTime | high (not executed) | AudioGraph.ResumeDoublesPosition | AudioGraph.IntendedResumeIsContinuous |
| src/components/DetailedProgressBar.tsx:87-92 | minutes are taken with `floor(s / 60)`, then the remainder is rounded separately, so it can round up to 60 | 119.6 s is shown as "1m 60s" | round once, then split into minutes and 0-59 seconds ("2m 0s") | high (not executed) | DetailedProgressBar.FormatTimeShowsSixtySeconds | DetailedProgressBar.FormatTimeIntendedParts |
| src/components/PerformanceMonitor.tsx:53-60 | the remainder `(s % 60).toFixed(0)` is rounded after the minutes are taken | 119.6 s is shown as "1m 60s" | round once, then split ("2m 0s") | high (not executed) | PerformanceMonitor.FormatTimeShowsSixtySeconds | PerformanceMonitor.FormatTimeIntendedParts |
| src/utils/polyfills.ts:10-11 | an empty pad string divides by its length 0, and `repeat(Infinity)` throws | `"7".padStart(2, "")` throws a RangeError | like the built-in, an empty pad leaves the string unchanged ("7") | high (not executed) | Polyfills.EmptyPadFails | Polyfills.PadStartIntended |
| src/components/WebAudioPlayer.tsx:214-218 | the seek effect reads `currentTime`, a declared prop (line 9) that the destructuring at lines 22-35 leaves out, so the name is unbound | any render of `WebAudioPlayer`: the type checker reports an unknown name, and code compiled without it throws a ReferenceError on the first render, where the dependency array `[currentTime]` is evaluated | the effect compares the element's time with the `currentTime` prop and seeks to it | medium (not executed) | WebAudioPlayer.SeekEffectReadsUnboundName | WebAudioPlayer.WebAudioPlayer.SyncSeek |
| main.py:187-262 | the 400 and 404 `HTTPException`s are raised inside `try ... except Exception`, which turns them into 500s | `POST /api/process/unknown` answers 500 "Erreur lors du traitement: 404: Fichier non trouvé" | the client gets 404 (unknown upload) and 400 (unsupported format) | high (not executed) | Server.GatesSwallowed | Server.CatchAllIntended |

The backend class (`Server.Backend`) uses the corrected status codes, and the player's seek
(`WebAudioPlayer.WebAudioPlayer.SyncSeek`) reads the `currentTime` prop. The progress bar's
time chip (`DetailedProgressBar.TimeChipLabel`) and the performance panel's time tile
(`PerformanceMonitor.TimeShown`) use the corrected time labels.
`DetailedProgressBar.FormatTimeAgreesOnWholeSeconds` shows the two progress-bar labels are
identical on the whole seconds the transformation screen passes in.

=== FILE: app.dfy ===
/**
 * The application shell (`App`): the wizard step counter, the uploaded file, the merged
 * transformation settings and the screen shown for each step.
 */
module App {
  import opened Common
  import opened Types

  /** `{ ...prev, ...patch }`: every key the patch carries replaces the old value; the others stay. */
  function MergeSettings(prev: TransformationSettings, patch: PartialSettings): (r: TransformationSettings)
    ensures r.tuning == (if patch.tuning.Some? then patch.tuning.value else prev.tuning)
    ensures r.bpmAdjustment == (if patch.bpmAdjustment.Some? then patch.bpmAdjustment.value else prev.bpmAdjustment)
    ensures r.binauralBeat == (if patch.binauralBeat.Some? then patch.binauralBeat.value else prev.binauralBeat)
    ensures r.therapeuticFrequency == (if patch.therapeuticFrequency.Some? then patch.therapeuticFrequency.value else prev.therapeuticFrequency)
    ensures r.intention == (if patch.intention.Some? then patch.intention.value else prev.intention)
  {
    TransformationSettings(
      if patch.tuning.Some? then patch.tuning.value else prev.tuning,
      if patch.bpmAdjustment.Some? then patch.bpmAdjustment.value else prev.bpmAdjustment,
      if patch.binauralBeat.Some? then patch.binauralBeat.value else prev.binauralBeat,
      if patch.therapeuticFrequency.Some? then patch.therapeuticFrequency.value else prev.therapeuticFrequency,
      if patch.intention.Some? then patch.intention.value else prev.intention)
  }

  /** An empty patch changes nothing, a patch applied twice acts once, and a full patch forgets the old settings. */
  lemma MergeLaws(prev: TransformationSettings, other: TransformationSettings, patch: PartialSettings)
    ensures MergeSettings(prev, PartialSettings(None, None, None, None, None)) == prev
    ensures MergeSettings(MergeSettings(prev, patch), patch) == MergeSettings(prev, patch)
    ensures patch.tuning.Some? && patch.bpmAdjustment.Some? && patch.binauralBeat.Some?
            && patch.therapeuticFrequency.Some? && patch.intention.Some? ==>
      MergeSettings(prev, patch) == MergeSettings(other, patch)
  {
  }

  /**
   * The settings the page starts with: tuning inside the documented range, no tempo change, the
   * binaural beat off, the 528 Hz solfège frequency and no intention chosen.
   */
  function InitialSettings(): (s: TransformationSettings)
    ensures TUNING_MIN <= s.tuning <= TUNING_MAX
    ensures s.bpmAdjustment == 0.0 && !s.binauralBeat.enabled
    ensures s.therapeuticFrequency == SOLFEGE_FREQUENCIES[4].frequency
    ensures s.intention !in EMOTIONAL_INTENTIONS
  {
    TransformationSettings(432.0, 0.0, BinauralSettings(false, Alpha, 0.3), 528.0, "")
  }

  datatype Screen = UploadScreen | QuestionnaireScreen | ProcessorScreen | Placeholder

  /** `renderStepContent`: steps 0, 1 and 2 show their screens; any other value the placeholder. */
  function RenderStepContent(step: int): (screen: Screen)
    ensures screen == UploadScreen <==> step == 0
    ensures screen == QuestionnaireScreen <==> step == 1
    ensures screen == ProcessorScreen <==> step == 2
    ensures screen == Placeholder <==> step < 0 || step > 2
  {
    if step == 0 then UploadScreen
    else if step == 1 then QuestionnaireScreen
    else if step == 2 then ProcessorScreen
    else Placeholder
  }

  /** The application state. */
  class AppState {
    var activeStep: int
    var audioFile: Option<AudioFile>
    var settings: TransformationSettings
    var status: ProcessingStatus

    constructor()
      ensures activeStep == 0 && audioFile == None
      ensures settings == InitialSettings()
      ensures status == ProcessingStatus(Idle, 0.0, None, None)
    {
      activeStep := 0;
      audioFile := None;
      settings := InitialSettings();
      status := ProcessingStatus(Idle, 0.0, None, None);
    }

    /** `handleNext`: one step forward, with no upper bound. */
    method HandleNext()
      modifies this
      ensures activeStep == old(activeStep) + 1
      ensures audioFile == old(audioFile) && settings == old(settings) && status == old(status)
    {
      activeStep := activeStep + 1;
    }

    /** `handleBack`: one step back, with no lower bound. */
    method HandleBack()
      modifies this
      ensures activeStep == old(activeStep) - 1
      ensures audioFile == old(audioFile) && settings == old(settings) && status == old(status)
    {
      activeStep := activeStep - 1;
    }

    /** `handleAudioUpload`: keeps the file and moves on. */
    method HandleAudioUpload(file: AudioFile)
      modifies this
      ensures audioFile == Some(file) && activeStep == old(activeStep) + 1
      ensures settings == old(settings) && status == old(status)
    {
      audioFile := Some(file);
      HandleNext();
    }

    /** `handleIntentionSelect`: merges the partial settings and moves on. */
    method HandleIntentionSelect(patch: PartialSettings)
      modifies this
      ensures settings == MergeSettings(old(settings), patch) && activeStep == old(activeStep) + 1
      ensures audioFile == old(audioFile) && status == old(status)
    {
      settings := MergeSettings(settings, patch);
      HandleNext();
    }

    /** `setTransformationSettings`, handed to the transformation screen as `onSettingsChange`. */
    method SetTransformationSettings(s: TransformationSettings)
      modifies this
      ensures settings == s
      ensures activeStep == old(activeStep) && audioFile == old(audioFile) && status == old(status)
    {
      settings := s;
    }

    /** `setProcessingStatus`, handed to the transformation screen as `onProcessingStatusChange`. */
    method SetProcessingStatus(st: ProcessingStatus)
      modifies this
      ensures status == st
      ensures activeStep == old(activeStep) && audioFile == old(audioFile) && settings == old(settings)
    {
      status := st;
    }
  }

  /** From the start, an upload then a questionnaire answer lead to the transformation screen. */
  method UploadThenIntention(file: AudioFile, patch: PartialSettings) returns (screen: Screen, settings: TransformationSettings)
    ensures screen == ProcessorScreen
    ensures settings == MergeSettings(InitialSettings(), patch)
  {
    var app := new AppState();
    app.HandleAudioUpload(file);
    app.HandleIntentionSelect(patch);
    screen := RenderStepContent(app.activeStep);
    settings := app.settings;
  }
}

=== FILE: audio_equalizer.dfy ===
/**
 * The 8-band equalizer panel: band edits are copies of the band list with one gain replaced,
 * presets overwrite every gain (0 where the preset has no entry), and the volume icon is a
 * threshold chain over the 0-100 slider value.
 */
module AudioEqualizer {

  /** `EqualizerBand`: centre frequency in Hz, gain in dB, and its `label` (a reserved word here). */
  datatype Band = Band(frequency: real, gain: real, displayLabel: string)

  datatype Preset = Preset(name: string, gains: seq<real>)

  /** Range of the band sliders, in dB. */
  const SLIDER_MIN: real := -12.0
  const SLIDER_MAX: real := 12.0

  /** Band `i` keeps its frequency and label; only gains may differ. */
  ghost predicate SameLayout(a: seq<Band>, b: seq<Band>)
  {
    |a| == |b| && forall i :: 0 <= i < |a| ==> a[i].frequency == b[i].frequency && a[i].displayLabel == b[i].displayLabel
  }

  /** `handleBandChange(index, gain)`: a copy of the bands where only band `index` has the new gain. */
  function HandleBandChange(bands: seq<Band>, index: nat, gain: real): (r: seq<Band>)
    requires index < |bands|
    ensures SameLayout(r, bands)
    ensures r[index].gain == gain
    ensures forall i :: 0 <= i < |bands| && i != index ==> r[i] == bands[i]
  {
    bands[index := bands[index].(gain := gain)]
  }

  /** `resetEqualizer`: every gain becomes 0, frequency, label and length are kept. */
  function ResetEqualizer(bands: seq<Band>): (r: seq<Band>)
    ensures SameLayout(r, bands)
    ensures forall i :: 0 <= i < |r| ==> r[i].gain == 0.0
  {
    seq(|bands|, i requires 0 <= i < |bands| => bands[i].(gain := 0.0))
  }

  /** `preset.gains[index] || 0`: a missing entry reads as 0. */
  function PresetGain(gains: seq<real>, index: nat): real
  {
    if index < |gains| then gains[index] else 0.0
  }

  /** `applyPreset`: band `i` takes the preset's gain `i`, or 0 when the preset is shorter. */
  function ApplyPreset(bands: seq<Band>, gains: seq<real>): (r: seq<Band>)
    ensures SameLayout(r, bands)
    ensures forall i :: 0 <= i < |r| && i < |gains| ==> r[i].gain == gains[i]
    ensures forall i :: |gains| <= i < |r| ==> r[i].gain == 0.0
  {
    seq(|bands|, i requires 0 <= i < |bands| => bands[i].(gain := PresetGain(gains, i)))
  }

  /** The six presets of the panel. */
  const Presets: seq<Preset> := [
    Preset("Plat", [0.0, 0.0, 0.0, 0.0, 0.0, 0.0, 0.0, 0.0]),
    Preset("Rock", [4.0, 3.0, -1.0, -2.0, 1.0, 2.0, 4.0, 5.0]),
    Preset("Pop", [-1.0, 2.0, 4.0, 4.0, 1.0, -1.0, -2.0, -1.0]),
    Preset("Jazz", [3.0, 2.0, 1.0, 2.0, -1.0, -1.0, 2.0, 3.0]),
    Preset("Classique", [4.0, 3.0, 2.0, 1.0, -1.0, -1.0, 2.0, 4.0]),
    Preset("Vocal", [-2.0, -1.0, 2.0, 4.0, 4.0, 2.0, 1.0, -1.0])
  ]

  ghost predicate WithinSlider(gains: seq<real>)
  {
    forall i :: 0 <= i < |gains| ==> SLIDER_MIN <= gains[i] <= SLIDER_MAX
  }

  /** Every preset has one gain per band and stays within the slider range. */
  lemma PresetsFitSliders()
    ensures forall p :: p in Presets ==> |p.gains| == 8 && WithinSlider(p.gains)
  {
    forall p | p in Presets
      ensures |p.gains| == 8 && WithinSlider(p.gains)
    {
    }
  }

  /** Applying the flat preset is a reset, whatever the number of bands. */
  lemma FlatPresetIsReset(bands: seq<Band>)
    ensures ApplyPreset(bands, Presets[0].gains) == ResetEqualizer(bands)
  {
    var a := ApplyPreset(bands, Presets[0].gains);
    var b := ResetEqualizer(bands);
    forall i | 0 <= i < |bands|
      ensures a[i] == b[i]
    {
      assert PresetGain(Presets[0].gains, i) == 0.0;
    }
  }

  /** A preset or a reset overwrites every earlier band edit. */
  lemma PresetForgetsBandChange(bands: seq<Band>, index: nat, gain: real, gains: seq<real>)
    requires index < |bands|
    ensures ApplyPreset(HandleBandChange(bands, index, gain), gains) == ApplyPreset(bands, gains)
    ensures ResetEqualizer(HandleBandChange(bands, index, gain)) == ResetEqualizer(bands)
  {
    var edited := HandleBandChange(bands, index, gain);
    assert edited[index].(gain := PresetGain(gains, index)) == bands[index].(gain := PresetGain(gains, index));
    assert edited[index].(gain := 0.0) == bands[index].(gain := 0.0);
  }

  /** Setting a band to the gain it already has changes nothing. */
  lemma BandChangeToSameGain(bands: seq<Band>, index: nat)
    requires index < |bands|
    ensures HandleBandChange(bands, index, bands[index].gain) == bands
  {
  }

  datatype VolumeIcon = VolumeOff | VolumeMute | VolumeDown | VolumeUp

  function IconLevel(icon: VolumeIcon): nat
  {
    match icon
    case VolumeOff => 0
    case VolumeMute => 1
    case VolumeDown => 2
    case VolumeUp => 3
  }

  /** `getVolumeIcon` over the 0-100 slider value. */
  function GetVolumeIcon(muted: bool, volume: real): (icon: VolumeIcon)
    ensures icon == VolumeOff <==> muted || volume == 0.0
    ensures icon == VolumeUp <==> !muted && volume != 0.0 && volume >= 70.0
  {
    if muted || volume == 0.0 then VolumeOff
    else if volume < 30.0 then VolumeMute
    else if volume < 70.0 then VolumeDown
    else VolumeUp
  }

  /** Unmuted, a louder slider never shows a quieter icon. */
  lemma VolumeIconMonotone(v1: real, v2: real)
    requires 0.0 < v1 <= v2
    ensures IconLevel(GetVolumeIcon(false, v1)) <= IconLevel(GetVolumeIcon(false, v2))
  {
  }
}

=== FILE: audio_export.dfy ===
/**
 * The export screen (`AudioExport`): the completed-status guard, the simulated progress ticker,
 * the export request for the stored task, and the downloaded file names.
 */
module AudioExport {
  import opened Common
  import opened Types

  /** The screen's own export choice: format and quality. */
  datatype ExportChoice = ExportChoice(format: ExportFormat, quality: ExportQuality)

  /**
   * How the export request ends: the fetch itself rejects (no response), or a response
   * arrives with its `ok` flag and whether reading its body as a blob succeeds.
   */
  datatype ExportReply = Rejected | Response(ok: bool, blobOk: bool)

  function Extension(format: ExportFormat): (ext: string)
    ensures |ext| == 3
  {
    match format
    case Mp3 => "mp3"
    case Wav => "wav"
  }

  /** `harmonya_export_<ms>.<format>`: the extension is the chosen format. */
  function ExportFileName(format: ExportFormat, now: nat): (name: string)
    ensures |name| > 4 && name[|name| - 4..] == "." + Extension(format)
    ensures |name| > 16 && name[..16] == "harmonya_export_"
  {
    "harmonya_export_" + NatToString(now) + "." + Extension(format)
  }

  /** `harmonya_transformed_<ms>.wav`: a direct download is always WAV. */
  function DirectFileName(now: nat): (name: string)
    ensures |name| > 4 && name[|name| - 4..] == ".wav"
    ensures |name| > 21 && name[..21] == "harmonya_transformed_"
  {
    "harmonya_transformed_" + NatToString(now) + ".wav"
  }

  const NOT_READY_ALERT: string := "Veuillez d'abord terminer la transformation audio"
  const EXPORT_ALERT: string := "Erreur lors de l'export du fichier"
  const DOWNLOAD_ALERT: string := "Erreur lors du téléchargement du fichier"

  /** A progress value the ticker can show: a multiple of ten from 0 to 90, or 100 once the response is in. */
  predicate TickerValue(p: int)
  {
    0 <= p <= 100 && p % 10 == 0
  }

  /** The interval's update: 90 once reached, otherwise ten more. */
  function NextTick(p: int): int
  {
    if p >= 90 then 90 else p + 10
  }

  /** The progress shown after `k` firings from the start at 0. */
  function AfterTicks(k: nat): int
  {
    if k == 0 then 0 else NextTick(AfterTicks(k - 1))
  }

  /** Before the response the ticker shows 10 per firing, capped at 90. */
  lemma {:induction false} AfterTicksValue(k: nat)
    ensures AfterTicks(k) == MinInt(10 * k, 90)
    ensures TickerValue(AfterTicks(k)) && AfterTicks(k) <= 90
  {
    if k > 0 {
      AfterTicksValue(k - 1);
    }
  }

  class AudioExportPanel {
    var choice: ExportChoice
    var isExporting: bool
    var exportProgress: int
    var exportComplete: bool
    /** Whether the 200 ms progress interval is still armed. */
    var tickerRunning: bool
    /** The processing task whose export request is awaiting its response. */
    var pendingTask: Option<string>
    var alerts: seq<string>
    var downloads: seq<string>

    predicate Valid()
      reads this
    {
      && TickerValue(exportProgress)
      && (tickerRunning ==> exportProgress <= 90)
      && (pendingTask.Some? ==> isExporting)
      && (exportComplete ==> |downloads| > 0)
    }

    constructor()
      ensures choice == ExportChoice(Wav, High)
      ensures !isExporting && exportProgress == 0 && !exportComplete && !tickerRunning
      ensures pendingTask == None && alerts == [] && downloads == []
      ensures Valid()
    {
      choice := ExportChoice(Wav, High);
      isExporting := false;
      exportProgress := 0;
      exportComplete := false;
      tickerRunning := false;
      pendingTask := None;
      alerts := [];
      downloads := [];
    }

    /**
     * `handleExport` up to the request: nothing but an alert unless the transformation is
     * complete; otherwise the ticker starts from 0 and the stored task is requested. Without a
     * stored task the export fails before any request, and the ticker is left running.
     */
    method HandleExport(status: Phase, storedTaskId: Option<string>)
      requires Valid() && pendingTask.None?
      modifies this
      ensures Valid()
      ensures status != Completed ==>
        alerts == old(alerts) + [NOT_READY_ALERT]
        && isExporting == old(isExporting) && exportProgress == old(exportProgress)
        && tickerRunning == old(tickerRunning) && pendingTask == None
      ensures status == Completed ==> exportProgress == 0 && tickerRunning
      ensures status == Completed && storedTaskId.None? ==>
        alerts == old(alerts) + [EXPORT_ALERT] && !isExporting && pendingTask == None
      ensures status == Completed && storedTaskId.Some? ==>
        alerts == old(alerts) && isExporting && pendingTask == storedTaskId
      ensures choice == old(choice) && exportComplete == old(exportComplete) && downloads == old(downloads)
    {
      if status != Completed {
        alerts := alerts + [NOT_READY_ALERT];
        return;
      }
      isExporting := true;
      exportProgress := 0;
      tickerRunning := true;
      if storedTaskId.None? {
        alerts := alerts + [EXPORT_ALERT];
        isExporting := false;
        return;
      }
      pendingTask := storedTaskId;
    }

    /** One firing of the interval: stop at 90, otherwise add 10. */
    method Tick()
      requires Valid()
      modifies this
      ensures Valid()
      ensures old(tickerRunning) ==> exportProgress == NextTick(old(exportProgress))
      ensures old(tickerRunning) ==> (tickerRunning <==> old(exportProgress) < 90)
      ensures !old(tickerRunning) ==> exportProgress == old(exportProgress) && !tickerRunning
      ensures pendingTask == old(pendingTask) && isExporting == old(isExporting) && exportComplete == old(exportComplete)
      ensures alerts == old(alerts) && downloads == old(downloads) && choice == old(choice)
    {
      if tickerRunning {
        if exportProgress >= 90 {
          exportProgress := 90;
          tickerRunning := false;
        } else {
          exportProgress := exportProgress + 10;
        }
      }
    }

    /**
     * The export request's outcome. A rejected fetch goes straight to the catch: the ticker
     * is not stopped and progress is not set to 100, but an alert is raised. A response stops
     * the ticker and shows 100; it is downloaded under the chosen format's extension, and marks
     * the export complete, only when it is ok and its body is read; otherwise an alert is
     * raised. On every path the export is no longer running.
     */
    method ReceiveExportResponse(reply: ExportReply, now: nat)
      requires Valid() && pendingTask.Some?
      modifies this
      ensures Valid()
      ensures !isExporting && pendingTask == None && choice == old(choice)
      ensures reply.Rejected? ==> tickerRunning == old(tickerRunning) && exportProgress == old(exportProgress)
      ensures reply.Response? ==> exportProgress == 100 && !tickerRunning
      ensures reply == Response(true, true) ==>
        exportComplete && downloads == old(downloads) + [ExportFileName(choice.format, now)] && alerts == old(alerts)
      ensures reply != Response(true, true) ==>
        exportComplete == old(exportComplete) && downloads == old(downloads) && alerts == old(alerts) + [EXPORT_ALERT]
    {
      if reply.Response? {
        tickerRunning := false;
        exportProgress := 100;
      }
      if reply == Response(true, true) {
        downloads := downloads + [ExportFileName(choice.format, now)];
        exportComplete := true;
      } else {
        alerts := alerts + [EXPORT_ALERT];
      }
      isExporting := false;
      pendingTask := None;
    }

    /** `handleDirectDownload`: downloads the stored task's WAV, or alerts when there is no task or the request fails. */
    method HandleDirectDownload(storedTaskId: Option<string>, ok: bool, now: nat)
      requires Valid()
      modifies this
      ensures Valid()
      ensures storedTaskId.Some? && ok ==> downloads == old(downloads) + [DirectFileName(now)] && alerts == old(alerts)
      ensures storedTaskId.None? || !ok ==> downloads == old(downloads) && alerts == old(alerts) + [DOWNLOAD_ALERT]
      ensures choice == old(choice) && isExporting == old(isExporting) && exportProgress == old(exportProgress)
      ensures exportComplete == old(exportComplete) && tickerRunning == old(tickerRunning) && pendingTask == old(pendingTask)
    {
      if storedTaskId.Some? && ok {
        downloads := downloads + [DirectFileName(now)];
      } else {
        alerts := alerts + [DOWNLOAD_ALERT];
      }
    }
  }
}

=== FILE: audio_graph.dfy ===
/**
 * The graph-based playback engine (`useAudioProcessor`): a master gain, eight peaking filters,
 * an analyser, one buffer source at a time, and the timing references `startTime` and
 * `pauseTime` that turn the audio clock into a playback position.
 *
 * Each operation is first stated as a function on an `EngineState` value; the class
 * `AudioEngine` holds the same fields and each method is proved to perform that function.
 * The audio clock, decode outcomes and timer firings are parameters of the methods.
 */
module AudioGraph {
  import opened Common
  import opened WebAudioNodes
  import AudioEqualizer

  const DEFAULT_GAIN: real := 0.7
  const FFT_SIZE: nat := 256
  const EQ_FREQUENCIES: seq<real> := [60.0, 170.0, 310.0, 600.0, 1000.0, 3000.0, 6000.0, 12000.0]

  /** The filters `initializeAudioContext` creates: all peaking, Q 1, gain 0. */
  function DefaultFilters(): seq<BiquadFilter>
  {
    seq(|EQ_FREQUENCIES|, i requires 0 <= i < |EQ_FREQUENCIES| => BiquadFilter(Peaking, EQ_FREQUENCIES[i], 1.0, 0.0))
  }

  /** master gain -> 8 filters -> analyser, then analyser -> destination. */
  function GraphLinks(): seq<Link>
  {
    FilterChain(MasterGain, |EQ_FREQUENCIES|, Analyser) + [Link(Analyser, Destination)]
  }

  /** The built graph: filter `i` is peaking at the `i`-th frequency with Q 1, wired as `GraphLinks`. */
  ghost predicate GraphBuilt(filters: seq<BiquadFilter>, links: seq<Link>)
  {
    && |filters| == |EQ_FREQUENCIES|
    && (forall i :: 0 <= i < |filters| ==>
          filters[i].kind == Peaking && filters[i].frequency == EQ_FREQUENCIES[i] && filters[i].q == 1.0)
    && links == GraphLinks()
  }

  /** The graph is one path from the master gain through the filters in frequency order to the output. */
  lemma GraphIsOnePath()
    ensures IsPath(GraphLinks())
    ensures GraphLinks()[0].from == MasterGain && GraphLinks()[|GraphLinks()| - 1] == Link(Analyser, Destination)
    ensures forall i :: 0 <= i < |EQ_FREQUENCIES| ==> GraphLinks()[i].to == FilterNode(i)
    ensures forall i :: 0 <= i < |EQ_FREQUENCIES| - 1 ==> EQ_FREQUENCIES[i] < EQ_FREQUENCIES[i + 1]
  {
    var n := |EQ_FREQUENCIES|;
    FilterChainIsPath(MasterGain, n, Analyser);
    var chain := FilterChain(MasterGain, n, Analyser);
    assert GraphLinks()[..n + 1] == chain;
  }


  /** The source node playing the decoded buffer, started at `offset` seconds into it. */
  datatype PlaybackSource = PlaybackSource(offset: real)

  /** Calls made to the `onTimeUpdate`, `onEnded` and `onError` callbacks, in order. */
  datatype EngineEvent = TimeUpdate(time: real) | Ended | LoadFailed

  /** The hook's React state record (`AudioProcessorState`); every update is a spread copy. */
  datatype PlayerState = PlayerState(
    isPlaying: bool,
    currentTime: real,
    duration: real,
    volume: real,
    muted: bool,
    isLoading: bool)

  /** The audio context once created, with the nodes made alongside it: master gain value, analyser FFT size, filters, connections. */
  datatype AudioNodes = AudioNodes(gain: real, analyserFftSize: nat, filters: seq<BiquadFilter>, links: seq<Link>)

  /**
   * Everything the hook keeps: the context and its nodes, the decoded buffer (its duration),
   * the playing source, the timing refs, the pending animation frame, the React state, the audio
   * clock, the replay timers armed by `seek`, and the callbacks made so far.
   */
  datatype EngineState = EngineState(
    context: Option<AudioNodes>,
    buffer: Option<real>,
    source: Option<PlaybackSource>,
    startTime: real,
    pauseTime: real,
    animationFrame: Option<nat>,
    nextFrameId: nat,
    state: PlayerState,
    clock: real,
    pendingReplays: nat,
    events: seq<EngineEvent>)

  function InitialPlayerState(): PlayerState
  {
    PlayerState(false, 0.0, 0.0, DEFAULT_GAIN, false, false)
  }

  function InitialState(): EngineState
  {
    EngineState(None, None, None, 0.0, 0.0, None, 1, InitialPlayerState(), 0.0, 0, [])
  }

  ghost predicate StateInv(st: PlayerState)
  {
    0.0 <= st.volume <= 1.0 && st.currentTime >= 0.0 && st.duration >= 0.0
  }

  ghost predicate NodesInv(nodes: AudioNodes)
  {
    GraphBuilt(nodes.filters, nodes.links) && nodes.analyserFftSize == FFT_SIZE
  }

  /** What holds between any two operations. */
  ghost predicate Inv(s: EngineState)
  {
    && StateInv(s.state)
    && s.pauseTime >= 0.0
    && (s.state.isPlaying <==> s.source.Some?)
    && (s.animationFrame.Some? ==> s.state.isPlaying)
    && (s.source.Some? ==> s.buffer.Some?)
    && (s.buffer.Some? ==> s.context.Some? && s.buffer.value >= 0.0)
    && (s.state.isPlaying ==> s.startTime <= s.clock)
    && (s.context.Some? ==> NodesInv(s.context.value))
  }

  /** The master gain for a stored volume and mute flag. */
  function EffectiveGain(volume: real, muted: bool): real
  {
    if muted then 0.0 else volume
  }

  // ---------------------------------------------------------------------------------------
  // Operations as functions of the state

  /** `initializeAudioContext`: builds the graph the first time only. */
  function InitGraph(s: EngineState): EngineState
  {
    if s.context.Some? then s
    else s.(context := Some(AudioNodes(DEFAULT_GAIN, FFT_SIZE, DefaultFilters(), GraphLinks())))
  }

  /** `loadAudioFile`: `decoded` is the duration of the decoded buffer, or `None` when reading or decoding fails. */
  function Loaded(s: EngineState, decoded: Option<real>): EngineState
  {
    var s1 := InitGraph(s.(state := s.state.(isLoading := true)));
    match decoded
    case Some(d) => s1.(buffer := Some(d), state := s1.state.(duration := d, isLoading := false))
    case None => s1.(events := s1.events + [LoadFailed], state := s1.state.(isLoading := false))
  }

  /** `stop`: drops the source, zeroes the timing references and the position, cancels the frame. */
  function Stopped(s: EngineState): EngineState
  {
    s.(source := None, pauseTime := 0.0, startTime := 0.0, animationFrame := None,
       state := s.state.(isPlaying := false, currentTime := 0.0))
  }

  /** Position computed by `updateTime`: clock minus start time, plus the pause time, capped at the duration. */
  function TickPosition(now: real, startTime: real, pauseTime: real, duration: real): real
  {
    MinReal(now - startTime + pauseTime, duration)
  }

  /** `updateTime` at clock `now`: report the position, then stop at the end or schedule the next frame. */
  function Ticked(s: EngineState, now: real): EngineState
  {
    var s0 := s.(clock := now);
    if s.state.isPlaying && s.context.Some? && s.startTime > 0.0 then
      var newTime := TickPosition(now, s.startTime, s.pauseTime, s.state.duration);
      var s1 := s0.(state := s.state.(currentTime := newTime), events := s.events + [TimeUpdate(newTime)]);
      if newTime >= s.state.duration then Stopped(s1).(events := s1.events + [Ended])
      else s1.(animationFrame := Some(s.nextFrameId), nextFrameId := s.nextFrameId + 1)
    else s0
  }

  /** `play` at clock `now`: a no-op without a buffer or context; else restart the source at `pauseTime` and tick. */
  function Started(s: EngineState, now: real): EngineState
  {
    if s.buffer.None? || s.context.None? then s.(clock := now)
    else
      var s1 := s.(source := Some(PlaybackSource(s.pauseTime)), startTime := now - s.pauseTime,
                   state := s.state.(isPlaying := true), clock := now);
      Ticked(s1, now)
  }

  /** `pause`: only with a live source; records the position as the pause time. */
  function Paused(s: EngineState): EngineState
  {
    if s.source.Some? && s.context.Some? then
      s.(source := None, pauseTime := s.state.currentTime, animationFrame := None, state := s.state.(isPlaying := false))
    else s
  }

  /** `seek(time)`: pause if playing, move to the clamped time, and arm the 50 ms replay timer if it was playing. */
  function Sought(s: EngineState, time: real): EngineState
    requires s.state.duration >= 0.0
  {
    var wasPlaying := s.state.isPlaying;
    var s1 := if wasPlaying then Paused(s) else s;
    var p := Clamp(time, 0.0, s.state.duration);
    s1.(pauseTime := p, state := s1.state.(currentTime := p),
        pendingReplays := s1.pendingReplays + (if wasPlaying then 1 else 0))
  }

  /** The replay timer armed by `seek` fires at clock `now`. */
  function ReplayFired(s: EngineState, now: real): EngineState
    requires s.pendingReplays > 0
  {
    Started(s.(pendingReplays := s.pendingReplays - 1), now)
  }

  /** The context with its master gain set to `gain`, when there is one. */
  function WithGain(context: Option<AudioNodes>, gain: real): Option<AudioNodes>
  {
    if context.Some? then Some(context.value.(gain := gain)) else None
  }

  /** `setVolume`: clamp to [0, 1]; the gain follows unless muted. */
  function VolumeSet(s: EngineState, volume: real): EngineState
  {
    var v := Clamp(volume, 0.0, 1.0);
    s.(state := s.state.(volume := v), context := WithGain(s.context, EffectiveGain(v, s.state.muted)))
  }

  /** `setMuted`: the gain becomes 0 or the stored volume; the volume itself is kept. */
  function MutedSet(s: EngineState, muted: bool): EngineState
  {
    s.(state := s.state.(muted := muted), context := WithGain(s.context, EffectiveGain(s.state.volume, muted)))
  }

  /** Filter gains after writing band `i`'s gain into filter `i`. */
  function WithBandGains(filters: seq<BiquadFilter>, bands: seq<AudioEqualizer.Band>): (r: seq<BiquadFilter>)
    requires |bands| == |filters|
    ensures |r| == |filters|
    ensures forall i :: 0 <= i < |r| ==> r[i] == filters[i].(gain := bands[i].gain)
  {
    seq(|filters|, i requires 0 <= i < |filters| => filters[i].(gain := bands[i].gain))
  }

  /** `applyEqualizer`: acts only when there is one band per filter (no context means no filters). */
  function EqualizerApplied(s: EngineState, bands: seq<AudioEqualizer.Band>): EngineState
  {
    if s.context.Some? && |s.context.value.filters| == |bands| then
      s.(context := Some(s.context.value.(filters := WithBandGains(s.context.value.filters, bands))))
    else s
  }

  // ---------------------------------------------------------------------------------------
  // Properties of the operations

  lemma InitialIsValid()
    ensures Inv(InitialState())
  {
  }

  /** Building the graph twice is building it once, and it keeps the invariant. */
  lemma InitGraphOnce(s: EngineState)
    requires Inv(s)
    ensures InitGraph(InitGraph(s)) == InitGraph(s)
    ensures Inv(InitGraph(s)) && InitGraph(s).context.Some?
    ensures s.context.None? ==> InitGraph(s).context.value.gain == DEFAULT_GAIN
  {
  }

  /**
   * Loading always clears `isLoading`; a decoded buffer sets the duration, a failure reports
   * one error and leaves the duration as it was.
   */
  lemma LoadOutcome(s: EngineState, decoded: Option<real>)
    requires Inv(s) && (decoded.Some? ==> decoded.value >= 0.0)
    ensures var t := Loaded(s, decoded);
      && Inv(t) && !t.state.isLoading && t.context.Some?
      && (decoded.Some? ==> t.state.duration == decoded.value && t.buffer == decoded && t.events == s.events)
      && (decoded.None? ==> t.state.duration == s.state.duration && t.buffer == s.buffer && t.events == s.events + [LoadFailed])
  {
  }

  /**
   * A tick never reports a position past the duration or before 0; reaching the duration stops
   * the engine and reports the end right after the last position.
   */
  lemma TickBounds(s: EngineState, now: real)
    requires Inv(s) && now >= s.clock
    ensures var t := Ticked(s, now);
      && Inv(t)
      && (t.events != s.events ==> |t.events| > |s.events| && 0.0 <= t.events[|s.events|].time <= s.state.duration)
      && (Ended in t.events[|s.events|..] ==> !t.state.isPlaying && t.state.currentTime == 0.0 && t.pauseTime == 0.0
                                              && t.events == s.events + [TimeUpdate(s.state.duration), Ended])
  {
    var t := Ticked(s, now);
    if s.state.isPlaying && s.context.Some? && s.startTime > 0.0 {
      var newTime := TickPosition(now, s.startTime, s.pauseTime, s.state.duration);
      assert newTime >= 0.0;
      if newTime >= s.state.duration {
        assert t.events[|s.events|..] == [TimeUpdate(newTime), Ended];
      } else {
        assert t.events[|s.events|..] == [TimeUpdate(newTime)];
      }
    } else {
      assert t.events[|s.events|..] == [];
    }
  }

  lemma StoppedIsValid(s: EngineState)
    requires Inv(s)
    ensures Inv(Stopped(s))
  {
  }

  /** `play` keeps the invariant; with a buffer and context it starts the source at the pause time. */
  lemma PlayStarts(s: EngineState, now: real)
    requires Inv(s) && now >= s.clock
    ensures Inv(Started(s, now))
    ensures s.buffer.None? ==> Started(s, now) == s.(clock := now)
    ensures s.buffer.Some? && Started(s, now).state.isPlaying ==> Started(s, now).source == Some(PlaybackSource(s.pauseTime))
  {
    if s.buffer.Some? {
      var s1 := s.(source := Some(PlaybackSource(s.pauseTime)), startTime := now - s.pauseTime,
                   state := s.state.(isPlaying := true), clock := now);
      TickBounds(s1, now);
    }
  }

  /** `pause` and `stop` both leave the engine silent, with no source and no frame scheduled. */
  lemma PauseAndStopSilence(s: EngineState)
    requires Inv(s)
    ensures Inv(Paused(s)) && Inv(Stopped(s))
    ensures !Paused(s).state.isPlaying && Paused(s).source.None? && Paused(s).animationFrame.None?
    ensures s.state.isPlaying ==> Paused(s).pauseTime == s.state.currentTime && Paused(s).state.currentTime == s.state.currentTime
    ensures !Stopped(s).state.isPlaying && Stopped(s).source.None? && Stopped(s).animationFrame.None?
  {
  }

  /** `seek` lands inside [0, duration], keeps the invariant, and re-arms playback only if it was playing. */
  lemma SeekClamps(s: EngineState, time: real)
    requires Inv(s)
    ensures var t := Sought(s, time);
      && Inv(t)
      && 0.0 <= t.pauseTime == t.state.currentTime <= s.state.duration
      && (0.0 <= time <= s.state.duration ==> t.state.currentTime == time)
      && !t.state.isPlaying
      && t.pendingReplays == s.pendingReplays + (if s.state.isPlaying then 1 else 0)
  {
  }

  /** Seeking while playing and letting the replay timer fire restarts the source at the sought position. */
  lemma SeekThenReplay(s: EngineState, time: real, now: real)
    requires Inv(s) && s.state.isPlaying && now >= s.clock
    ensures Sought(s, time).pendingReplays > 0
    ensures var t := ReplayFired(Sought(s, time), now);
      Inv(t) && (t.state.isPlaying ==> t.source == Some(PlaybackSource(Clamp(time, 0.0, s.state.duration))))
  {
    var s1 := Sought(s, time);
    SeekClamps(s, time);
    var s2 := s1.(pendingReplays := s1.pendingReplays - 1);
    assert s2.pauseTime == Clamp(time, 0.0, s.state.duration);
    assert s2.clock == s.clock && s2.buffer.Some?;
    PlayStarts(s2, now);
    assert ReplayFired(s1, now) == Started(s2, now);
  }

  /** Muting then unmuting restores the gain of the stored volume; muting never changes the volume. */
  lemma MuteRoundTrip(s: EngineState)
    requires Inv(s) && s.context.Some?
    ensures MutedSet(s, true).context.value.gain == 0.0 && MutedSet(s, true).state.volume == s.state.volume
    ensures MutedSet(MutedSet(s, true), false).context.value.gain == s.state.volume
    ensures Inv(MutedSet(s, true))
  {
  }

  /** A volume change while muted is stored but silent, and is what unmuting restores. */
  lemma VolumeWhileMuted(s: EngineState, volume: real)
    requires Inv(s) && s.context.Some? && s.state.muted
    ensures VolumeSet(s, volume).context.value.gain == 0.0
    ensures MutedSet(VolumeSet(s, volume), false).context.value.gain == Clamp(volume, 0.0, 1.0)
    ensures Inv(VolumeSet(s, volume))
  {
  }

  /** Unmuted, a volume change is heard at once: the gain becomes the clamped volume, which is also stored. */
  lemma VolumeWhileUnmuted(s: EngineState, volume: real)
    requires Inv(s) && s.context.Some? && !s.state.muted
    ensures VolumeSet(s, volume).context.value.gain == Clamp(volume, 0.0, 1.0)
    ensures VolumeSet(s, volume).state.volume == Clamp(volume, 0.0, 1.0)
    ensures Inv(VolumeSet(s, volume))
  {
  }

  /** Applying bands writes only gains; a band list of the wrong length changes nothing. */
  lemma EqualizerKeepsGraph(s: EngineState, bands: seq<AudioEqualizer.Band>)
    requires Inv(s)
    ensures Inv(EqualizerApplied(s, bands))
    ensures s.context.None? || |bands| != |s.context.value.filters| ==> EqualizerApplied(s, bands) == s
    ensures s.context.Some? && |bands| == |s.context.value.filters| ==>
      forall i :: 0 <= i < |bands| ==> EqualizerApplied(s, bands).context.value.filters[i].gain == bands[i].gain
  {
  }

  /**
   * As written, `play` stores `startTime = now - pauseTime` and the tick adds `pauseTime` again,
   * so the first position reported after resuming from `p` is `2p` (capped at the duration).
   */
  lemma ResumeDoublesPosition(s: EngineState, now: real)
    requires Inv(s) && s.buffer.Some? && !s.state.isPlaying && now >= s.clock
    requires 0.0 < s.pauseTime < now && 2.0 * s.pauseTime < s.state.duration
    ensures Started(s, now).state.currentTime == 2.0 * s.pauseTime
    ensures Started(s, now).events == s.events + [TimeUpdate(2.0 * s.pauseTime)]
  {
  }

  /** Intended position: time elapsed since the adjusted start, which already accounts for the offset. */
  function IntendedPosition(now: real, startTime: real, duration: real): real
  {
    MinReal(now - startTime, duration)
  }

  /**
   * With `startTime = now - pauseTime`, the intended position resumes exactly at the pause time
   * and then advances with the clock until the duration.
   */
  lemma IntendedResumeIsContinuous(now: real, pauseTime: real, duration: real, later: real)
    requires 0.0 <= pauseTime <= duration && now <= later
    ensures IntendedPosition(now, now - pauseTime, duration) == pauseTime
    ensures pauseTime + (later - now) <= duration ==>
      IntendedPosition(later, now - pauseTime, duration) == pauseTime + (later - now)
    ensures TickPosition(now, now - pauseTime, pauseTime, duration) == MinReal(2.0 * pauseTime, duration)
  {
  }

  // ---------------------------------------------------------------------------------------
  // The engine object

  class AudioEngine {
    var context: Option<AudioNodes>
    var buffer: Option<real>
    var source: Option<PlaybackSource>
    var startTime: real
    var pauseTime: real
    var animationFrame: Option<nat>
    var nextFrameId: nat
    var state: PlayerState
    var clock: real
    var pendingReplays: nat
    var events: seq<EngineEvent>

    function Snapshot(): EngineState
      reads this
    {
      EngineState(context, buffer, source, startTime, pauseTime, animationFrame, nextFrameId,
                  state, clock, pendingReplays, events)
    }

    ghost predicate Valid()
      reads this
    {
      Inv(Snapshot())
    }

    constructor()
      ensures Snapshot() == InitialState() && Valid()
    {
      context := None;
      buffer := None;
      source := None;
      startTime := 0.0;
      pauseTime := 0.0;
      animationFrame := None;
      nextFrameId := 1;
      state := InitialPlayerState();
      clock := 0.0;
      pendingReplays := 0;
      events := [];
    }

    method InitializeAudioContext()
      requires Valid()
      modifies this
      ensures Snapshot() == InitGraph(old(Snapshot())) && Valid()
    {
      if context.None? {
        var filters := DefaultFilters();
        var chain := ConnectChain(MasterGain, |filters|, Analyser);
        context := Some(AudioNodes(DEFAULT_GAIN, FFT_SIZE, filters, chain + [Link(Analyser, Destination)]));
      }
    }

    method LoadAudioFile(decoded: Option<real>)
      requires Valid() && (decoded.Some? ==> decoded.value >= 0.0)
      modifies this
      ensures Snapshot() == Loaded(old(Snapshot()), decoded) && Valid()
    {
      LoadOutcome(Snapshot(), decoded);
      state := state.(isLoading := true);
      InitializeAudioContext();
      match decoded {
        case Some(d) =>
          buffer := Some(d);
          state := state.(duration := d, isLoading := false);
        case None =>
          events := events + [LoadFailed];
          state := state.(isLoading := false);
      }
    }

    method Stop()
      requires Valid()
      modifies this
      ensures Snapshot() == Stopped(old(Snapshot())) && Valid()
    {
      StoppedIsValid(Snapshot());
      if source.Some? {
        source := None;
      }
      pauseTime := 0.0;
      startTime := 0.0;
      state := state.(isPlaying := false, currentTime := 0.0);
      if animationFrame.Some? {
        animationFrame := None;
      }
    }

    /** `updateTime`, run by `play` and by each animation frame, at audio clock `now`. */
    method Tick(now: real)
      requires Valid() && now >= clock
      modifies this
      ensures Snapshot() == Ticked(old(Snapshot()), now) && Valid()
    {
      TickBounds(Snapshot(), now);
      clock := now;
      if state.isPlaying && context.Some? && startTime > 0.0 {
        var elapsed := now - startTime + pauseTime;
        var newTime := MinReal(elapsed, state.duration);
        state := state.(currentTime := newTime);
        events := events + [TimeUpdate(newTime)];
        if newTime >= state.duration {
          Stop();
          events := events + [Ended];
        } else {
          animationFrame := Some(nextFrameId);
          nextFrameId := nextFrameId + 1;
        }
      }
    }

    method Play(now: real)
      requires Valid() && now >= clock
      modifies this
      ensures Snapshot() == Started(old(Snapshot()), now) && Valid()
    {
      PlayStarts(Snapshot(), now);
      if buffer.None? || context.None? {
        clock := now;
        return;
      }
      InitializeAudioContext();
      if source.Some? {
        source := None;
      }
      source := Some(PlaybackSource(pauseTime));
      var offset := pauseTime;
      startTime := now - offset;
      state := state.(isPlaying := true);
      clock := now;
      Tick(now);
    }

    method Pause()
      requires Valid()
      modifies this
      ensures Snapshot() == Paused(old(Snapshot())) && Valid()
    {
      PauseAndStopSilence(Snapshot());
      if source.Some? && context.Some? {
        source := None;
        pauseTime := state.currentTime;
        state := state.(isPlaying := false);
        if animationFrame.Some? {
          animationFrame := None;
        }
      }
    }

    method Seek(time: real)
      requires Valid()
      modifies this
      ensures Snapshot() == Sought(old(Snapshot()), time) && Valid()
    {
      SeekClamps(Snapshot(), time);
      var wasPlaying := state.isPlaying;
      if wasPlaying {
        Pause();
      }
      pauseTime := MaxReal(0.0, MinReal(time, state.duration));
      state := state.(currentTime := pauseTime);
      if wasPlaying {
        pendingReplays := pendingReplays + 1;
      }
    }

    /** The `setTimeout(play, 50)` armed by a seek fires at clock `now`. */
    method FireReplay(now: real)
      requires Valid() && pendingReplays > 0 && now >= clock
      modifies this
      ensures Snapshot() == ReplayFired(old(Snapshot()), now) && Valid()
    {
      pendingReplays := pendingReplays - 1;
      Play(now);
    }

    method SetVolume(newVolume: real)
      requires Valid()
      modifies this
      ensures Snapshot() == VolumeSet(old(Snapshot()), newVolume) && Valid()
    {
      var v := MaxReal(0.0, MinReal(1.0, newVolume));
      state := state.(volume := v);
      if context.Some? {
        context := Some(context.value.(gain := if state.muted then 0.0 else v));
      }
    }

    method SetMuted(newMuted: bool)
      requires Valid()
      modifies this
      ensures Snapshot() == MutedSet(old(Snapshot()), newMuted) && Valid()
    {
      state := state.(muted := newMuted);
      if context.Some? {
        context := Some(context.value.(gain := if newMuted then 0.0 else state.volume));
      }
    }

    /** `applyEqualizer`: the `forEach` writing each band's gain into its filter. */
    method ApplyEqualizer(bands: seq<AudioEqualizer.Band>)
      requires Valid()
      modifies this
      ensures Snapshot() == EqualizerApplied(old(Snapshot()), bands) && Valid()
    {
      EqualizerKeepsGraph(Snapshot(), bands);
      if context.Some? && |context.value.filters| == |bands| {
        var filters := context.value.filters;
        var updated := filters;
        var index := 0;
        while index < |bands|
          invariant 0 <= index <= |bands| == |updated| == |filters|
          invariant forall i :: 0 <= i < index ==> updated[i] == filters[i].(gain := bands[i].gain)
          invariant forall i :: index <= i < |updated| ==> updated[i] == filters[i]
        {
          updated := updated[index := updated[index].(gain := bands[index].gain)];
          index := index + 1;
        }
        assert updated == WithBandGains(filters, bands);
        context := Some(context.value.(filters := updated));
      }
    }
  }
}

=== FILE: audio_instructions.dfy ===
/**
 * The guided instructions panel (`AudioInstructions`): four steps with completion flags, the
 * active step, the tab a step leads to, and the call to action.
 */
module AudioInstructions {
  /** A guide step: whether it is done and the tab it opens (-1 for none). */
  datatype GuideStep = GuideStep(completed: bool, tab: int)

  /** The four steps: load a file (no tab), enable the equalizer (tab 1), listen (tab 0), adjust (tab 1). */
  function Steps(hasAudioFile: bool, equalizerEnabled: bool): (steps: seq<GuideStep>)
    ensures |steps| == 4
    ensures steps[0].completed <==> hasAudioFile
    ensures steps[1].completed <==> equalizerEnabled
    ensures !steps[2].completed && !steps[3].completed
    ensures steps[0].tab < 0 && forall i :: 1 <= i < 4 ==> steps[i].tab in {0, 1}
  {
    [GuideStep(hasAudioFile, -1), GuideStep(equalizerEnabled, 1), GuideStep(false, 0), GuideStep(false, 1)]
  }

  datatype StepStatus = Completed | Active | Pending

  /** `getStepStatus`: completion wins; otherwise active exactly at the active step; otherwise pending. */
  function GetStepStatus(steps: seq<GuideStep>, index: nat, activeStep: int): (status: StepStatus)
    requires index < |steps|
    ensures status == Completed <==> steps[index].completed
    ensures status == Active <==> !steps[index].completed && index == activeStep
    ensures status == Pending <==> !steps[index].completed && index != activeStep
  {
    if steps[index].completed then Completed
    else if index == activeStep then Active
    else Pending
  }

  /** At most one step is shown as active. */
  lemma AtMostOneActive(steps: seq<GuideStep>, activeStep: int, i: nat, j: nat)
    requires i < |steps| && j < |steps|
    requires GetStepStatus(steps, i, activeStep) == Active && GetStepStatus(steps, j, activeStep) == Active
    ensures i == j
  {
  }

  /** The panel's active step and the tab changes it has requested. */
  class InstructionsPanel {
    var activeStep: int
    var tabRequests: seq<int>
    const hasAudioFile: bool
    const equalizerEnabled: bool

    /** Only real tabs are ever requested. */
    predicate Valid()
      reads this
    {
      forall i :: 0 <= i < |tabRequests| ==> tabRequests[i] >= 0
    }

    constructor(hasAudioFile: bool, equalizerEnabled: bool)
      ensures activeStep == 0 && tabRequests == [] && Valid()
      ensures this.hasAudioFile == hasAudioFile && this.equalizerEnabled == equalizerEnabled
    {
      activeStep := 0;
      tabRequests := [];
      this.hasAudioFile := hasAudioFile;
      this.equalizerEnabled := equalizerEnabled;
    }

    /** `handleStepClick`: the clicked step becomes active and its tab, if it has one, is opened. */
    method HandleStepClick(step: nat)
      requires Valid() && step < 4
      modifies this
      ensures Valid() && activeStep == step
      ensures var tab := Steps(hasAudioFile, equalizerEnabled)[step].tab;
        tabRequests == old(tabRequests) + (if tab >= 0 then [tab] else [])
      ensures step == 0 ==> tabRequests == old(tabRequests)
    {
      activeStep := step;
      var tab := Steps(hasAudioFile, equalizerEnabled)[step].tab;
      if tab >= 0 {
        tabRequests := tabRequests + [tab];
      }
    }
  }

  /** The call to action: go back to load a file, open the equalizer tab, or offer listen and adjust. */
  datatype CallToAction = LoadFile | EnableEqualizer | ListenOrAdjust

  function CallToActionFor(hasAudioFile: bool, equalizerEnabled: bool): (cta: CallToAction)
    ensures cta == LoadFile <==> !hasAudioFile
    ensures cta == EnableEqualizer <==> hasAudioFile && !equalizerEnabled
    ensures cta == ListenOrAdjust <==> hasAudioFile && equalizerEnabled
  {
    if !hasAudioFile then LoadFile else if !equalizerEnabled then EnableEqualizer else ListenOrAdjust
  }

  /** The tabs each call to action's buttons open: none for loading (it navigates back), tab 1, or tabs 0 and 1. */
  function CallToActionTabs(cta: CallToAction): (tabs: seq<int>)
    ensures cta == LoadFile <==> tabs == []
  {
    match cta
    case LoadFile => []
    case EnableEqualizer => [1]
    case ListenOrAdjust => [0, 1]
  }

  /** The call to action points at the first step not yet done among the first two. */
  lemma CallToActionFollowsSteps(hasAudioFile: bool, equalizerEnabled: bool)
    ensures var steps := Steps(hasAudioFile, equalizerEnabled);
      var cta := CallToActionFor(hasAudioFile, equalizerEnabled);
      && (cta == LoadFile <==> !steps[0].completed)
      && (cta == EnableEqualizer ==> CallToActionTabs(cta) == [steps[1].tab])
      && (cta == ListenOrAdjust ==> CallToActionTabs(cta) == [steps[2].tab, steps[3].tab])
  {
  }
}

=== FILE: audio_optimization.dfy ===
/**
 * Large-file helpers of the audio optimizer: the overlapping chunk planner, the channel
 * interleaver, the index-preserving chunk executor, the FIFO counting semaphore that caps
 * concurrency, and the size and memory step functions.
 *
 * Times are whole sample frames, so `Math.floor(time * sampleRate)` is the time itself.
 * Samples are exact reals; the Float32 rounding of the buffers is not modelled.
 */
module AudioOptimization {
  import opened Common

  /** One planned window: the interleaved samples, its frame range and its position. */
  datatype AudioChunk = AudioChunk(data: seq<real>, startTime: int, endTime: int, index: nat)

  // ---------------------------------------------------------------------------------------
  // Chunk arithmetic

  /** Number of loop turns of the planner: the first multiple of `chunkSize` not below `duration`. */
  function ChunkCount(duration: nat, chunkSize: nat): nat
    requires chunkSize > 0
  {
    (duration + chunkSize - 1) / chunkSize
  }

  lemma MulMonotone(a: nat, b: nat, k: nat)
    requires a <= b
    ensures a * k <= b * k
  {
  }

  /** Turn `i` of the planner runs exactly when its start time `i * chunkSize` is before the end. */
  lemma {:induction false} ChunkCountBound(duration: nat, chunkSize: nat, i: nat)
    requires chunkSize > 0
    ensures i < ChunkCount(duration, chunkSize) <==> i * chunkSize < duration
  {
    var q := ChunkCount(duration, chunkSize);
    var m := duration + chunkSize - 1;
    assert q * chunkSize <= m < q * chunkSize + chunkSize;
    if i < q {
      MulMonotone(i + 1, q, chunkSize);
      assert (i + 1) * chunkSize == i * chunkSize + chunkSize;
    } else {
      MulMonotone(q, i, chunkSize);
    }
  }

  lemma MulStepBound(i: nat, length: nat, n: nat)
    requires i < length
    ensures i * n + n <= length * n
  {
    MulMonotone(i + 1, length, n);
    assert (i + 1) * n == i * n + n;
  }

  // ---------------------------------------------------------------------------------------
  // Sample copy with zero fill

  /** `channelData[k] || 0`: a read outside the channel yields 0. */
  function SampleAt(channel: seq<real>, k: int): (r: real)
    ensures 0 <= k < |channel| ==> r == channel[k]
    ensures !(0 <= k < |channel|) ==> r == 0.0
  {
    if 0 <= k < |channel| then channel[k] else 0.0
  }

  /** The `len` samples of a channel starting at frame `start`, zero-filled past the end. */
  function Window(channel: seq<real>, start: int, len: nat): (w: seq<real>)
    ensures |w| == len
    ensures forall k :: 0 <= k < len ==> w[k] == SampleAt(channel, start + k)
  {
    seq(len, k requires 0 <= k < len => SampleAt(channel, start + k))
  }

  /** The per-channel copy loop of the planner, writing into a fresh chunk channel. */
  method CopyWindow(channel: seq<real>, start: int, len: nat) returns (w: seq<real>)
    ensures w == Window(channel, start, len)
  {
    var chunkChannelData := new real[len];
    var i := 0;
    while i < len
      invariant 0 <= i <= len
      invariant forall k :: 0 <= k < i ==> chunkChannelData[k] == SampleAt(channel, start + k)
    {
      var sample := if 0 <= start + i < |channel| then channel[start + i] else 0.0;
      chunkChannelData[i] := sample;
      i := i + 1;
    }
    w := chunkChannelData[..];
  }

  // ---------------------------------------------------------------------------------------
  // Interleaving

  /** Every channel holds at least `length` frames. */
  ghost predicate CoversFrames(channels: seq<seq<real>>, length: nat)
  {
    forall c :: 0 <= c < |channels| ==> |channels[c]| >= length
  }

  /** Frame `i` of every channel, in channel order. */
  function Frame(channels: seq<seq<real>>, i: nat): (r: seq<real>)
    requires CoversFrames(channels, i + 1)
    ensures |r| == |channels|
    ensures forall c :: 0 <= c < |channels| ==> r[c] == channels[c][i]
  {
    seq(|channels|, c requires 0 <= c < |channels| => channels[c][i])
  }

  /** The first `length` frames laid out frame after frame, one sample per channel. */
  function Interleaved(channels: seq<seq<real>>, length: nat): (r: seq<real>)
    requires CoversFrames(channels, length)
    ensures |r| == length * |channels|
  {
    if length == 0 then []
    else
      assert (length - 1) * |channels| + |channels| == length * |channels|;
      Interleaved(channels, length - 1) + Frame(channels, length - 1)
  }

  /** Entry `i * channels + c` of the interleaved data is sample `i` of channel `c`. */
  lemma {:induction false} InterleavedAt(channels: seq<seq<real>>, length: nat, i: nat, c: nat)
    requires CoversFrames(channels, length)
    requires i < length && c < |channels|
    ensures i * |channels| + c < length * |channels|
    ensures Interleaved(channels, length)[i * |channels| + c] == channels[c][i]
  {
    var n := |channels|;
    MulStepBound(i, length, n);
    if i < length - 1 {
      InterleavedAt(channels, length - 1, i, c);
    } else {
      assert i * n == (length - 1) * n;
    }
  }

  /** `audioBufferToArrayBuffer`: a running offset walks frames, then channels, into one flat buffer. */
  method AudioBufferToArrayBuffer(channels: seq<seq<real>>, length: nat) returns (data: seq<real>)
    requires CoversFrames(channels, length)
    ensures data == Interleaved(channels, length)
  {
    var n := |channels|;
    var view := new real[length * n];
    var offset := 0;
    var i := 0;
    while i < length
      invariant 0 <= i <= length
      invariant offset == i * n
      invariant view[..offset] == Interleaved(channels, i)
    {
      MulStepBound(i, length, n);
      var frame := Frame(channels, i);
      var channel := 0;
      while channel < n
        invariant 0 <= channel <= n
        invariant offset == i * n + channel
        invariant view[..offset] == Interleaved(channels, i) + frame[..channel]
      {
        view[offset] := channels[channel][i];
        assert frame[..channel + 1] == frame[..channel] + [channels[channel][i]];
        assert view[..offset + 1] == view[..offset] + [view[offset]];
        offset := offset + 1;
        channel := channel + 1;
      }
      assert frame[..n] == frame;
      i := i + 1;
    }
    assert view[..] == view[..offset];
    data := view[..];
  }

  // ---------------------------------------------------------------------------------------
  // Chunk plan

  /** Start frame of turn `i`: the turn's time moved back by the overlap, never before 0. */
  function ChunkStart(i: nat, chunkSize: nat, overlap: nat): int
  {
    MaxInt(0, i * chunkSize - overlap)
  }

  /** End frame of turn `i`: one chunk after the turn's time, never past the duration. */
  function ChunkEnd(i: nat, duration: nat, chunkSize: nat): int
  {
    MinInt(duration, i * chunkSize + chunkSize)
  }

  /** The chunk emitted on turn `i` of the planner loop. */
  function ChunkAt(channels: seq<seq<real>>, duration: nat, chunkSize: nat, overlap: nat, i: nat): AudioChunk
    requires chunkSize > 0 && i < ChunkCount(duration, chunkSize)
  {
    ChunkCountBound(duration, chunkSize, i);
    var s := ChunkStart(i, chunkSize, overlap);
    var e := ChunkEnd(i, duration, chunkSize);
    var windows := seq(|channels|, c requires 0 <= c < |channels| => Window(channels[c], s, e - s));
    AudioChunk(Interleaved(windows, e - s), s, e, i)
  }

  /** Every chunk `chunkAudioFile` returns, in emission order. */
  function ChunkPlan(channels: seq<seq<real>>, duration: nat, chunkSize: nat, overlap: nat): (plan: seq<AudioChunk>)
    requires chunkSize > 0
    ensures |plan| == ChunkCount(duration, chunkSize)
  {
    seq(ChunkCount(duration, chunkSize),
        i requires 0 <= i < ChunkCount(duration, chunkSize) => ChunkAt(channels, duration, chunkSize, overlap, i))
  }

  /** One turn of the planner: copy each channel's window, then interleave the chunk buffer. */
  method EmitChunk(channels: seq<seq<real>>, duration: nat, chunkSize: nat, overlap: nat, currentTime: nat, chunkIndex: nat)
    returns (chunk: AudioChunk)
    requires chunkSize > 0 && currentTime == chunkIndex * chunkSize && currentTime < duration
    ensures chunkIndex < ChunkCount(duration, chunkSize)
    ensures chunk == ChunkAt(channels, duration, chunkSize, overlap, chunkIndex)
  {
    ChunkCountBound(duration, chunkSize, chunkIndex);
    var startTime := MaxInt(0, currentTime - overlap);
    var endTime := MinInt(duration, currentTime + chunkSize);
    var chunkLength := endTime - startTime;
    ghost var windows := seq(|channels|, c requires 0 <= c < |channels| => Window(channels[c], startTime, chunkLength));
    var chunkChannels: seq<seq<real>> := [];
    var channel := 0;
    while channel < |channels|
      invariant 0 <= channel <= |channels|
      invariant chunkChannels == windows[..channel]
    {
      var w := CopyWindow(channels[channel], startTime, chunkLength);
      assert windows[..channel + 1] == windows[..channel] + [w];
      chunkChannels := chunkChannels + [w];
      channel := channel + 1;
    }
    assert chunkChannels == windows;
    var data := AudioBufferToArrayBuffer(chunkChannels, chunkLength);
    chunk := AudioChunk(data, startTime, endTime, chunkIndex);
  }

  /** `chunkAudioFile`: the `while` loop over the decoded channels, one window per turn. */
  method ChunkAudioFile(channels: seq<seq<real>>, duration: nat, chunkSize: nat, overlap: nat)
    returns (chunks: seq<AudioChunk>)
    requires chunkSize > 0
    ensures chunks == ChunkPlan(channels, duration, chunkSize, overlap)
  {
    chunks := [];
    var currentTime := 0;
    var chunkIndex := 0;
    ghost var plan := ChunkPlan(channels, duration, chunkSize, overlap);
    while currentTime < duration
      invariant currentTime == chunkIndex * chunkSize
      invariant chunkIndex <= |plan|
      invariant chunks == plan[..chunkIndex]
      decreases duration - currentTime
    {
      var chunk := EmitChunk(channels, duration, chunkSize, overlap, currentTime, chunkIndex);
      assert plan[..chunkIndex + 1] == plan[..chunkIndex] + [chunk];
      chunks := chunks + [chunk];
      currentTime := currentTime + chunkSize;
      chunkIndex := chunkIndex + 1;
    }
    ChunkCountBound(duration, chunkSize, chunkIndex);
    assert plan[..chunkIndex] == plan;
  }

  /** Chunk indices count up from 0 in emission order, and there is no chunk exactly when the duration is 0. */
  lemma ChunkPlanIndices(channels: seq<seq<real>>, duration: nat, chunkSize: nat, overlap: nat)
    requires chunkSize > 0
    ensures var plan := ChunkPlan(channels, duration, chunkSize, overlap);
      && (duration == 0 <==> |plan| == 0)
      && (forall i :: 0 <= i < |plan| ==> plan[i].index == i)
  {
    ChunkCountBound(duration, chunkSize, 0);
  }

  /** Every window is non-empty and lies inside [0, duration]. */
  lemma ChunkWithinDuration(channels: seq<seq<real>>, duration: nat, chunkSize: nat, overlap: nat, i: nat)
    requires chunkSize > 0 && i < ChunkCount(duration, chunkSize)
    ensures var chunk := ChunkAt(channels, duration, chunkSize, overlap, i);
      0 <= chunk.startTime < chunk.endTime <= duration
  {
    ChunkCountBound(duration, chunkSize, i);
  }

  /** The first window starts at 0 and the last ends exactly at the duration. */
  lemma ChunkPlanEnds(channels: seq<seq<real>>, duration: nat, chunkSize: nat, overlap: nat)
    requires chunkSize > 0 && duration > 0
    ensures var q := ChunkCount(duration, chunkSize);
      && q > 0
      && ChunkAt(channels, duration, chunkSize, overlap, 0).startTime == 0
      && ChunkAt(channels, duration, chunkSize, overlap, q - 1).endTime == duration
  {
    var q := ChunkCount(duration, chunkSize);
    ChunkCountBound(duration, chunkSize, 0);
    ChunkCountBound(duration, chunkSize, q);
    assert q * chunkSize == (q - 1) * chunkSize + chunkSize;
  }

  /**
   * Consecutive windows overlap by exactly `overlap` frames, or by everything before turn `i`
   * where that is shorter (the start is clamped at 0): in particular there is no gap.
   */
  lemma ChunkPlanNoGap(channels: seq<seq<real>>, duration: nat, chunkSize: nat, overlap: nat, i: nat)
    requires chunkSize > 0 && 0 < i < ChunkCount(duration, chunkSize)
    ensures ChunkAt(channels, duration, chunkSize, overlap, i).startTime
         <= ChunkAt(channels, duration, chunkSize, overlap, i - 1).endTime
    ensures ChunkAt(channels, duration, chunkSize, overlap, i - 1).endTime
          - ChunkAt(channels, duration, chunkSize, overlap, i).startTime == MinInt(overlap, i * chunkSize)
  {
    ChunkCountBound(duration, chunkSize, i);
    StartNotAfterPreviousEnd(i, duration, chunkSize, overlap);
    assert ChunkAt(channels, duration, chunkSize, overlap, i).startTime == ChunkStart(i, chunkSize, overlap);
    assert ChunkAt(channels, duration, chunkSize, overlap, i - 1).endTime == ChunkEnd(i - 1, duration, chunkSize);
  }

  /** The arithmetic of `ChunkPlanNoGap`: turn `i - 1` ends at turn `i`'s time, which turn `i` starts `overlap` frames (at most) before. */
  lemma StartNotAfterPreviousEnd(i: nat, duration: nat, chunkSize: nat, overlap: nat)
    requires 0 < i && i * chunkSize < duration
    ensures ChunkStart(i, chunkSize, overlap) <= ChunkEnd(i - 1, duration, chunkSize)
    ensures ChunkEnd(i - 1, duration, chunkSize) - ChunkStart(i, chunkSize, overlap) == MinInt(overlap, i * chunkSize)
  {
    var previous := (i - 1) * chunkSize;
    assert previous + chunkSize == i * chunkSize;
  }

  /**
   * Sample `k` of channel `c` inside chunk `i` sits at `k * channels + c` of the chunk's data,
   * and is the source sample at frame `start + k`, or 0 past the end of that channel.
   */
  lemma ChunkSampleAt(channels: seq<seq<real>>, duration: nat, chunkSize: nat, overlap: nat, i: nat, k: nat, c: nat)
    requires chunkSize > 0 && i < ChunkCount(duration, chunkSize)
    requires c < |channels|
    requires k < ChunkAt(channels, duration, chunkSize, overlap, i).endTime - ChunkAt(channels, duration, chunkSize, overlap, i).startTime
    ensures var chunk := ChunkAt(channels, duration, chunkSize, overlap, i);
      && k * |channels| + c < |chunk.data|
      && chunk.data[k * |channels| + c] == SampleAt(channels[c], chunk.startTime + k)
  {
    var chunk := ChunkAt(channels, duration, chunkSize, overlap, i);
    var len := chunk.endTime - chunk.startTime;
    var windows := seq(|channels|, c requires 0 <= c < |channels| => Window(channels[c], chunk.startTime, len));
    InterleavedAt(windows, len, k, c);
  }

  // ---------------------------------------------------------------------------------------
  // Index-preserving executor

  function CountSome<T>(s: seq<Option<T>>): (n: nat)
    ensures n <= |s|
  {
    if |s| == 0 then 0 else CountSome(s[..|s| - 1]) + (if s[|s| - 1].Some? then 1 else 0)
  }

  /** Filling one empty slot raises the number of defined results by exactly one. */
  lemma {:induction false} CountSomeFill<T>(s: seq<Option<T>>, i: nat, v: T)
    requires i < |s| && s[i].None?
    ensures CountSome(s[i := Some(v)]) == CountSome(s) + 1
  {
    var t := s[i := Some(v)];
    assert t[..|t| - 1] == if i == |s| - 1 then s[..|s| - 1] else s[..|s| - 1][i := Some(v)];
    if i < |s| - 1 {
      CountSomeFill(s[..|s| - 1], i, v);
    }
  }

  lemma {:induction false} CountSomeNone<T>(s: seq<Option<T>>)
    requires forall k :: 0 <= k < |s| ==> s[k].None?
    ensures CountSome(s) == 0
  {
    if |s| > 0 {
      CountSomeNone(s[..|s| - 1]);
    }
  }

  /** Each chunk's `index` is its position, as the planner produces them. */
  ghost predicate IndexedInOrder(chunks: seq<AudioChunk>)
  {
    forall k :: 0 <= k < |chunks| ==> chunks[k].index == k
  }

  /** `completionOrder` lists every chunk position exactly once. */
  ghost predicate IsCompletionOrder(completionOrder: seq<nat>, n: nat)
  {
    && |completionOrder| == n
    && (forall j :: 0 <= j < n ==> completionOrder[j] < n)
    && (forall j, j' :: 0 <= j < j' < n ==> completionOrder[j] != completionOrder[j'])
    && (forall k :: 0 <= k < n ==> k in completionOrder)
  }

  /** The slot a chunk's outcome leaves behind: its output, or nothing when the processing failed. */
  function Filled<T>(outcome: Result<T, string>): Option<T>
  {
    if outcome.Ok? then Some(outcome.value) else None
  }

  /** The `j`-th completion is the first one whose processing failed. */
  ghost predicate FirstFailure<T>(outcomes: seq<Result<T, string>>, completionOrder: seq<nat>, j: int)
  {
    && 0 <= j < |completionOrder|
    && completionOrder[j] < |outcomes|
    && outcomes[completionOrder[j]].Err?
    && forall j' :: 0 <= j' < j ==> completionOrder[j'] < |outcomes| && outcomes[completionOrder[j']].Ok?
  }

  /** The error of the first failed completion among the first `j`, if any. */
  ghost function FirstError<T>(outcomes: seq<Result<T, string>>, completionOrder: seq<nat>, j: nat): Option<string>
    requires j <= |completionOrder|
    requires forall j' :: 0 <= j' < |completionOrder| ==> completionOrder[j'] < |outcomes|
  {
    if j == 0 then None
    else if FirstError(outcomes, completionOrder, j - 1).Some? then FirstError(outcomes, completionOrder, j - 1)
    else if outcomes[completionOrder[j - 1]].Err? then Some(outcomes[completionOrder[j - 1]].error)
    else None
  }

  /** No error among the first `j` completions means all of them succeeded; an error is the first failure's. */
  lemma {:induction false} FirstErrorMeaning<T>(outcomes: seq<Result<T, string>>, completionOrder: seq<nat>, j: nat)
    requires j <= |completionOrder|
    requires forall j' :: 0 <= j' < |completionOrder| ==> completionOrder[j'] < |outcomes|
    ensures FirstError(outcomes, completionOrder, j).None? <==> forall j' :: 0 <= j' < j ==> outcomes[completionOrder[j']].Ok?
    ensures FirstError(outcomes, completionOrder, j).Some? ==>
      exists f :: FirstFailure(outcomes, completionOrder, f) && outcomes[completionOrder[f]] == Err(FirstError(outcomes, completionOrder, j).value)
  {
    if j > 0 {
      FirstErrorMeaning(outcomes, completionOrder, j - 1);
      if FirstError(outcomes, completionOrder, j - 1).None? && outcomes[completionOrder[j - 1]].Err? {
        assert FirstFailure(outcomes, completionOrder, j - 1);
      }
    }
  }

  /** The outputs of a fully defined result array, in slot order. */
  function {:induction false} Values<T>(s: seq<Option<T>>): (r: seq<T>)
    requires forall k :: 0 <= k < |s| ==> s[k].Some?
    ensures |r| == |s|
    ensures forall k :: 0 <= k < |s| ==> s[k] == Some(r[k])
  {
    if |s| == 0 then [] else Values(s[..|s| - 1]) + [s[|s| - 1].value]
  }

  /**
   * `processChunk` once its permit is granted: the chunk's outcome fills its empty slot; an output
   * is followed by a progress report, the share of defined slots as a percentage, and a rejection
   * reports nothing.
   */
  method ProcessChunk<T>(slots: array<Option<T>>, index: nat, outcome: Result<T, string>) returns (report: Option<real>)
    requires index < slots.Length && slots[index].None?
    modifies slots
    ensures slots[..] == old(slots[..])[index := Filled(outcome)]
    ensures outcome.Ok? ==> CountSome(slots[..]) == CountSome(old(slots[..])) + 1
    ensures outcome.Ok? ==> report == Some(Percent(CountSome(slots[..]), slots.Length))
    ensures outcome.Err? ==> report.None? && CountSome(slots[..]) == CountSome(old(slots[..]))
  {
    if outcome.Ok? {
      ghost var before := slots[..];
      CountSomeFill(before, index, outcome.value);
      slots[index] := Some(outcome.value);
      assert slots[..] == before[index := Some(outcome.value)];
      report := Some(Percent(CountSome(slots[..]), slots.Length));
    } else {
      report := None;
    }
  }

  /**
   * `processChunksOptimized` run sequentially: chunk `completionOrder[j]` is the `j`-th to finish,
   * and `outcomes[k]` is what the processing function gives chunk `k`, an output or a rejection.
   * Each output lands in the slot of its chunk's index whatever the order, and each successful
   * completion reports the share of defined slots as a percentage. A rejection still releases
   * its permit, and the other chunks still run, but `Promise.all` then rejects with the first
   * failure to complete instead of returning the slots.
   */
  method ProcessChunksOptimized<T>(chunks: seq<AudioChunk>, outcomes: seq<Result<T, string>>, completionOrder: seq<nat>)
    returns (result: Result<seq<T>, string>, progress: seq<real>)
    requires IndexedInOrder(chunks)
    requires |outcomes| == |chunks|
    requires IsCompletionOrder(completionOrder, |chunks|)
    ensures result.Ok? <==> forall k :: 0 <= k < |chunks| ==> outcomes[k].Ok?
    ensures result.Ok? ==> |result.value| == |chunks| && forall k :: 0 <= k < |chunks| ==> outcomes[k] == Ok(result.value[k])
    ensures result.Err? ==> exists j :: FirstFailure(outcomes, completionOrder, j) && outcomes[completionOrder[j]] == Err(result.error)
    ensures |progress| <= |chunks|
    ensures forall j :: 0 <= j < |progress| ==> progress[j] == Percent(j + 1, |chunks|)
    ensures result.Ok? ==> |progress| == |chunks| && (|chunks| > 0 ==> progress[|chunks| - 1] == 100.0)
  {
    var n := |chunks|;
    var slots := new Option<T>[n](_ => None);
    CountSomeNone(slots[..]);
    progress := [];
    var failure: Option<string> := None;
    var j := 0;
    while j < n
      invariant 0 <= j <= n
      invariant slots.Length == n
      invariant Completed(slots[..], outcomes, completionOrder, j, progress, failure)
    {
      progress, failure := CompleteNext(chunks, outcomes, completionOrder, slots, j, progress, failure);
      j := j + 1;
    }
    AllCompleted(slots[..], outcomes, completionOrder, progress, failure);
    if failure.Some? {
      result := Err(failure.value);
    } else {
      result := Ok(Values(slots[..]));
    }
  }

  /**
   * Once every chunk has completed, the run failed exactly when some chunk failed, with the first
   * failure's error; otherwise every slot holds its chunk's output and every completion reported.
   */
  lemma AllCompleted<T>(slots: seq<Option<T>>, outcomes: seq<Result<T, string>>, completionOrder: seq<nat>,
                        progress: seq<real>, failure: Option<string>)
    requires IsCompletionOrder(completionOrder, |outcomes|)
    requires Completed(slots, outcomes, completionOrder, |outcomes|, progress, failure)
    ensures failure.None? <==> forall k :: 0 <= k < |outcomes| ==> outcomes[k].Ok?
    ensures failure.None? ==> |progress| == |outcomes| && forall k :: 0 <= k < |outcomes| ==> slots[k] == Some(outcomes[k].value)
    ensures failure.Some? ==> exists j :: FirstFailure(outcomes, completionOrder, j) && outcomes[completionOrder[j]] == Err(failure.value)
  {
    AllCompletedOk(outcomes, completionOrder);
    FirstErrorMeaning(outcomes, completionOrder, |outcomes|);
    EveryChunkFilled(slots, outcomes, completionOrder);
  }

  /**
   * The executor's state after `j` completions: the slots of those chunks hold their outcomes,
   * one report per success gives the share of defined slots, and `failure` is the first error.
   */
  ghost predicate Completed<T>(slots: seq<Option<T>>, outcomes: seq<Result<T, string>>, completionOrder: seq<nat>, j: nat,
                               progress: seq<real>, failure: Option<string>)
  {
    && j <= |completionOrder|
    && StoredUpTo(slots, outcomes, completionOrder, j)
    && CountSome(slots) == |progress| <= j
    && (failure.None? ==> |progress| == j)
    && (forall p :: 0 <= p < |progress| ==> progress[p] == Percent(p + 1, |slots|))
    && failure == FirstError(outcomes, completionOrder, j)
  }

  /**
   * The `j`-th completion: its chunk's outcome fills the chunk's slot, a success adds its progress
   * report, and a failure is kept when it is the first.
   */
  method CompleteNext<T>(chunks: seq<AudioChunk>, outcomes: seq<Result<T, string>>, completionOrder: seq<nat>,
                         slots: array<Option<T>>, j: nat, progress: seq<real>, failure: Option<string>)
    returns (progress': seq<real>, failure': Option<string>)
    requires IndexedInOrder(chunks) && |outcomes| == |chunks| && IsCompletionOrder(completionOrder, |chunks|)
    requires j < |chunks| && slots.Length == |chunks|
    requires Completed(slots[..], outcomes, completionOrder, j, progress, failure)
    modifies slots
    ensures Completed(slots[..], outcomes, completionOrder, j + 1, progress', failure')
  {
    var k := completionOrder[j];
    ghost var before := slots[..];
    var report := ProcessChunk(slots, chunks[k].index, outcomes[k]);
    StoreStep(before, slots[..], outcomes, completionOrder, j);
    progress', failure' := progress, failure;
    if report.Some? {
      progress' := progress + [report.value];
    } else if failure.None? {
      failure' := Some(outcomes[k].error);
    }
  }

  /** After `j` completions, the slots of those chunks hold their outcomes and the others are still empty. */
  ghost predicate StoredUpTo<T>(slots: seq<Option<T>>, outcomes: seq<Result<T, string>>, completionOrder: seq<nat>, j: nat)
  {
    && |slots| == |outcomes| == |completionOrder|
    && (forall j' :: 0 <= j' < |completionOrder| ==> completionOrder[j'] < |slots|)
    && (forall j' :: 0 <= j' < j && j' < |completionOrder| ==> slots[completionOrder[j']] == Filled(outcomes[completionOrder[j']]))
    && (forall j' :: j <= j' < |completionOrder| ==> slots[completionOrder[j']] == None)
  }

  /** Storing the `j`-th completion's outcome in its slot extends the stored prefix by one. */
  lemma StoreStep<T>(before: seq<Option<T>>, after: seq<Option<T>>, outcomes: seq<Result<T, string>>, completionOrder: seq<nat>, j: nat)
    requires IsCompletionOrder(completionOrder, |outcomes|) && j < |outcomes|
    requires StoredUpTo(before, outcomes, completionOrder, j)
    requires after == before[completionOrder[j] := Filled(outcomes[completionOrder[j]])]
    ensures StoredUpTo(after, outcomes, completionOrder, j + 1)
  {
    forall j' | 0 <= j' < |completionOrder| && j' != j
      ensures after[completionOrder[j']] == before[completionOrder[j']]
    {
      assert completionOrder[j'] != completionOrder[j];
    }
  }

  /** Every completion succeeded exactly when every chunk succeeded, the order listing each chunk once. */
  lemma AllCompletedOk<T>(outcomes: seq<Result<T, string>>, completionOrder: seq<nat>)
    requires IsCompletionOrder(completionOrder, |outcomes|)
    ensures (forall j :: 0 <= j < |outcomes| ==> outcomes[completionOrder[j]].Ok?) <==>
            (forall k :: 0 <= k < |outcomes| ==> outcomes[k].Ok?)
  {
    if forall j :: 0 <= j < |outcomes| ==> outcomes[completionOrder[j]].Ok? {
      forall k | 0 <= k < |outcomes|
        ensures outcomes[k].Ok?
      {
        assert k in completionOrder;
        var j :| 0 <= j < |outcomes| && completionOrder[j] == k;
      }
    }
  }

  /**
   * Once every chunk in the completion order has finished, each slot holds its own chunk's
   * output, or nothing when that chunk's processing failed.
   */
  lemma EveryChunkFilled<T>(results: seq<Option<T>>, outcomes: seq<Result<T, string>>, completionOrder: seq<nat>)
    requires |results| == |outcomes| && IsCompletionOrder(completionOrder, |outcomes|)
    requires forall j :: 0 <= j < |outcomes| ==> results[completionOrder[j]] == Filled(outcomes[completionOrder[j]])
    ensures forall k :: 0 <= k < |outcomes| ==> results[k] == Filled(outcomes[k])
  {
    forall k | 0 <= k < |outcomes|
      ensures results[k] == Filled(outcomes[k])
    {
      assert k in completionOrder;
      var j :| 0 <= j < |outcomes| && completionOrder[j] == k;
    }
  }

  // ---------------------------------------------------------------------------------------
  // Counting semaphore

  /**
   * The FIFO counting semaphore. Waiters are identified by number; `holders` counts the callers
   * that hold a permit (it is ghost bookkeeping, the source does not store it).
   */
  class Semaphore {
    var permits: int
    var waitQueue: seq<nat>
    ghost var holders: nat
    ghost const capacity: nat

    ghost predicate Valid()
      reads this
    {
      && permits >= 0
      && holders + permits == capacity
      && (|waitQueue| > 0 ==> permits == 0)
    }

    constructor(initialPermits: nat)
      ensures Valid()
      ensures permits == initialPermits && waitQueue == [] && holders == 0 && capacity == initialPermits
    {
      permits := initialPermits;
      waitQueue := [];
      holders := 0;
      capacity := initialPermits;
    }

    /** `acquire`: take a permit when one is free, otherwise join the back of the queue. */
    method Acquire(waiter: nat) returns (granted: bool)
      requires Valid()
      modifies this
      ensures Valid() && holders <= capacity
      ensures granted <==> old(permits) > 0
      ensures granted ==> permits == old(permits) - 1 && waitQueue == old(waitQueue) && holders == old(holders) + 1
      ensures !granted ==> permits == 0 && waitQueue == old(waitQueue) + [waiter] && holders == old(holders)
    {
      if permits > 0 {
        permits := permits - 1;
        holders := holders + 1;
        granted := true;
      } else {
        waitQueue := waitQueue + [waiter];
        granted := false;
      }
    }

    /** `release`: return the permit, or hand it straight to the oldest waiter. */
    method Release() returns (woken: Option<nat>)
      requires Valid() && holders > 0
      modifies this
      ensures Valid() && holders <= capacity
      ensures old(waitQueue) == [] ==> woken == None && permits == old(permits) + 1 && waitQueue == [] && holders == old(holders) - 1
      ensures old(waitQueue) != [] ==> woken == Some(old(waitQueue)[0]) && permits == old(permits) && waitQueue == old(waitQueue)[1..] && holders == old(holders)
    {
      permits := permits + 1;
      woken := None;
      if |waitQueue| > 0 {
        var next := waitQueue[0];
        waitQueue := waitQueue[1..];
        permits := permits - 1;
        woken := Some(next);
      } else {
        holders := holders - 1;
      }
    }
  }

  // ---------------------------------------------------------------------------------------
  // Step functions

  datatype Complexity = Low | Medium | High | Extreme

  function ComplexityRank(c: Complexity): nat
  {
    match c
    case Low => 0
    case Medium => 1
    case High => 2
    case Extreme => 3
  }

  datatype ComplexityEstimate = ComplexityEstimate(complexity: Complexity, estimatedTime: nat, recommendedChunkSize: nat)

  /** `estimateProcessingComplexity`: a step function of the size in MiB, thresholds 10, 50, 100. */
  function EstimateProcessingComplexity(fileSize: nat): (r: ComplexityEstimate)
    ensures r.complexity == Low <==> fileSize < 10 * MiB
    ensures r.complexity == Medium <==> 10 * MiB <= fileSize < 50 * MiB
    ensures r.complexity == High <==> 50 * MiB <= fileSize < 100 * MiB
    ensures r.complexity == Extreme <==> 100 * MiB <= fileSize
    ensures r.complexity == Low ==> r.estimatedTime == 5 && r.recommendedChunkSize == 60
    ensures r.complexity == Medium ==> r.estimatedTime == 15 && r.recommendedChunkSize == 30
    ensures r.complexity == High ==> r.estimatedTime == 30 && r.recommendedChunkSize == 15
    ensures r.complexity == Extreme ==> r.estimatedTime == 60 && r.recommendedChunkSize == 10
  {
    var fileSizeMB := fileSize as real / MiB as real;
    if fileSizeMB < 10.0 then ComplexityEstimate(Low, 5, 60)
    else if fileSizeMB < 50.0 then ComplexityEstimate(Medium, 15, 30)
    else if fileSizeMB < 100.0 then ComplexityEstimate(High, 30, 15)
    else ComplexityEstimate(Extreme, 60, 10)
  }

  /** A larger file never gets a lower complexity, a shorter estimate or a larger chunk size. */
  lemma ComplexityMonotone(smaller: nat, larger: nat)
    requires smaller <= larger
    ensures ComplexityRank(EstimateProcessingComplexity(smaller).complexity) <= ComplexityRank(EstimateProcessingComplexity(larger).complexity)
    ensures EstimateProcessingComplexity(smaller).estimatedTime <= EstimateProcessingComplexity(larger).estimatedTime
    ensures EstimateProcessingComplexity(larger).recommendedChunkSize <= EstimateProcessingComplexity(smaller).recommendedChunkSize
  {
    var a := EstimateProcessingComplexity(smaller);
    var b := EstimateProcessingComplexity(larger);
    assert ComplexityRank(a.complexity) <= ComplexityRank(b.complexity);
  }

  /** `performance.memory` when the browser exposes it. */
  datatype HeapReading = HeapReading(usedJSHeapSize: nat, jsHeapSizeLimit: nat)

  datatype MemoryReport = MemoryReport(available: bool, usagePercentage: real, recommendation: string)

  const MAX_MEMORY_USAGE: real := 0.8
  const OptimizeAdvice: string := "Considérez optimiser la mémoire avant de continuer"
  const EnoughMemory: string := "Mémoire suffisante disponible"
  const UnknownMemory: string := "Impossible de déterminer l'usage mémoire"

  /** `MemoryManager.checkMemoryAvailability`. */
  function CheckMemoryAvailability(memory: Option<HeapReading>): (r: MemoryReport)
    requires memory.Some? ==> memory.value.jsHeapSizeLimit > 0
    ensures r.available <==> r.usagePercentage < 80.0
    ensures !r.available ==> r.recommendation == OptimizeAdvice
    ensures memory.None? ==> r.available && r.usagePercentage == 0.0 && r.recommendation == UnknownMemory
    ensures memory.Some? ==> r.usagePercentage * memory.value.jsHeapSizeLimit as real == memory.value.usedJSHeapSize as real * 100.0
    ensures memory.Some? ==> (r.recommendation == OptimizeAdvice <==> r.usagePercentage > 70.0)
  {
    match memory
    case Some(m) =>
      var usage := m.usedJSHeapSize as real / m.jsHeapSizeLimit as real;
      MemoryReport(usage < MAX_MEMORY_USAGE, usage * 100.0, if usage > 0.7 then OptimizeAdvice else EnoughMemory)
    case None => MemoryReport(true, 0.0, UnknownMemory)
  }
}

=== FILE: audio_preview.dfy ===
/**
 * The preview player (`AudioPreview`): it keeps its own volume (0-1) and mute flag, writes the
 * level into its `<audio>` element, and mirrors the element's time and play state.
 */
module AudioPreview {
  import opened Common

  class AudioPreview {
    var isPlaying: bool
    var currentTime: real
    var volume: real
    var isMuted: bool
    var isLoading: bool
    var elementPlaying: bool
    var elementTime: real
    var elementVolume: real

    /**
     * The element is silent exactly when muted and otherwise plays at the stored volume, so the
     * stored volume is what unmuting gives back.
     */
    ghost predicate Valid()
      reads this
    {
      && (isMuted ==> elementVolume == 0.0)
      && (!isMuted ==> elementVolume == volume)
      && isPlaying == elementPlaying
    }

    /** Mounted with a file: the load effect has given the element the initial volume 0.7. */
    constructor()
      ensures !isPlaying && currentTime == 0.0 && volume == 0.7 && !isMuted && !isLoading && Valid()
    {
      isPlaying := false;
      currentTime := 0.0;
      volume := 0.7;
      isMuted := false;
      isLoading := false;
      elementPlaying := false;
      elementTime := 0.0;
      elementVolume := 0.7;
    }

    /** `handleVolumeChange`: 0 mutes, any other value unmutes; the element follows the value. */
    method HandleVolumeChange(value: real)
      requires Valid()
      modifies this
      ensures volume == value && elementVolume == value
      ensures isMuted <==> value == 0.0
      ensures isPlaying == old(isPlaying) && currentTime == old(currentTime) && isLoading == old(isLoading)
      ensures elementPlaying == old(elementPlaying) && elementTime == old(elementTime)
      ensures Valid()
    {
      volume := value;
      elementVolume := value;
      if value == 0.0 {
        isMuted := true;
      } else if isMuted {
        isMuted := false;
      }
    }

    /** `toggleMute`: the element goes silent, or back to the stored volume, which itself never changes. */
    method ToggleMute()
      requires Valid()
      modifies this
      ensures isMuted == !old(isMuted)
      ensures elementVolume == (if old(isMuted) then volume else 0.0)
      ensures volume == old(volume)
      ensures isPlaying == old(isPlaying) && currentTime == old(currentTime) && isLoading == old(isLoading)
      ensures elementPlaying == old(elementPlaying) && elementTime == old(elementTime)
      ensures Valid()
    {
      if isMuted {
        elementVolume := volume;
        isMuted := false;
      } else {
        elementVolume := 0.0;
        isMuted := true;
      }
    }

    /** `handleSeek`: the slider value is the time in seconds. */
    method HandleSeek(value: real)
      requires Valid()
      modifies this
      ensures elementTime == value && currentTime == value
      ensures isPlaying == old(isPlaying) && volume == old(volume) && isMuted == old(isMuted)
      ensures isLoading == old(isLoading) && elementPlaying == old(elementPlaying) && elementVolume == old(elementVolume)
      ensures Valid()
    {
      elementTime := value;
      currentTime := value;
    }

    /** `togglePlay`; `playSucceeds` is whether the element's `play()` promise resolves. */
    method TogglePlay(playSucceeds: bool)
      requires Valid()
      modifies this
      ensures old(isPlaying) ==> !isPlaying
      ensures !old(isPlaying) ==> isPlaying == playSucceeds
      ensures currentTime == old(currentTime) && volume == old(volume) && isMuted == old(isMuted)
      ensures isLoading == old(isLoading) && elementTime == old(elementTime) && elementVolume == old(elementVolume)
      ensures Valid()
    {
      if isPlaying {
        elementPlaying := false;
        isPlaying := false;
      } else if playSucceeds {
        elementPlaying := true;
        isPlaying := true;
      }
    }

    /** The element's `timeupdate` at `t`. */
    method HandleTimeUpdate(t: real)
      requires Valid()
      modifies this
      ensures elementTime == t && currentTime == t
      ensures isPlaying == old(isPlaying) && volume == old(volume) && isMuted == old(isMuted)
      ensures isLoading == old(isLoading) && elementPlaying == old(elementPlaying) && elementVolume == old(elementVolume)
      ensures Valid()
    {
      elementTime := t;
      currentTime := t;
    }

    /** `loadstart` and `canplay` toggle the loading flag. */
    method HandleLoading(loading: bool)
      requires Valid()
      modifies this
      ensures isLoading == loading
      ensures isPlaying == old(isPlaying) && currentTime == old(currentTime) && volume == old(volume)
      ensures isMuted == old(isMuted) && elementPlaying == old(elementPlaying)
      ensures elementTime == old(elementTime) && elementVolume == old(elementVolume)
      ensures Valid()
    {
      isLoading := loading;
    }

    /** `ended`: the element has paused itself. */
    method HandleEnded()
      requires Valid()
      modifies this
      ensures !isPlaying && !elementPlaying
      ensures currentTime == old(currentTime) && volume == old(volume) && isMuted == old(isMuted)
      ensures isLoading == old(isLoading) && elementTime == old(elementTime) && elementVolume == old(elementVolume)
      ensures Valid()
    {
      elementPlaying := false;
      isPlaying := false;
    }

    /** `progress` against the file record's duration: 0 when that is 0. */
    function Progress(fileDuration: real): (p: real)
      reads this
      ensures fileDuration <= 0.0 ==> p == 0.0
      ensures fileDuration > 0.0 && 0.0 <= currentTime <= fileDuration ==> 0.0 <= p <= 100.0
    {
      PlaybackProgress(currentTime, fileDuration)
    }
  }
}

=== FILE: audio_processor.dfy ===
/**
 * The transformation screen (`AudioProcessor`): the detailed progress steps derived from the
 * processing status, the remaining-time estimate, the start of a server transformation and the
 * reaction to each status poll, the original/transformed player switch and the settings updaters.
 */
module AudioProcessor {
  import opened Common
  import opened Types
  import D = DetailedProgressBar

  /* ---------------------------------------------------------------- progress steps */

  /**
   * One transformation stage: active with `activeProgress` while processing once `started`,
   * complete at 100 when the whole transformation is complete, pending at 0 otherwise.
   */
  function Stage(id: string, caption: string, status: ProcessingStatus, started: bool, activeProgress: real): D.ProgressStep
  {
    if status.status == Processing && started then D.ProgressStep(id, caption, D.Active, Some(activeProgress), false)
    else if status.status == Completed then D.ProgressStep(id, caption, D.Completed, Some(100.0), false)
    else D.ProgressStep(id, caption, D.Pending, Some(0.0), false)
  }

  /** `createProgressSteps`: the fixed stages, with the binaural stage only when binaural beats are enabled. */
  function CreateProgressSteps(settings: TransformationSettings, status: ProcessingStatus): (steps: seq<D.ProgressStep>)
    ensures |steps| == if settings.binauralBeat.enabled then 7 else 6
    ensures steps[0].id == "analyze" && steps[1].id == "prepare" && steps[2].id == "frequency"
    ensures steps[3].id == "tuning" && steps[4].id == "tempo" && steps[|steps| - 1].id == "finalize"
    ensures settings.binauralBeat.enabled ==> steps[5].id == "binaural"
    ensures steps[0].status == D.Completed && steps[1].status == D.Completed
    ensures status.status == Completed ==>
      forall i :: 2 <= i < |steps| ==> steps[i].status == D.Completed && steps[i].progress == Some(100.0)
    ensures status.status != Processing && status.status != Completed ==>
      forall i :: 2 <= i < |steps| ==> steps[i].status == D.Pending && steps[i].progress == Some(0.0)
  {
    var p := status.progress;
    [ D.ProgressStep("analyze", "Analyse Audio", D.Completed, None, false),
      D.ProgressStep("prepare", "Préparation", D.Completed, None, false),
      Stage("frequency", "Ajustement Fréquentiel", status, true, MinReal(p * 0.4, 40.0)),
      Stage("tuning", "Accordage", status, p > 25.0, MinReal((p - 25.0) * 1.33, 100.0)),
      Stage("tempo", "Ajustement Tempo", status, p > 50.0, MinReal((p - 50.0) * 2.0, 100.0)) ]
    + (if settings.binauralBeat.enabled
       then [Stage("binaural", "Battements Binauraux", status, p > 75.0, MinReal((p - 75.0) * 4.0, 100.0))]
       else [])
    + [Stage("finalize", "Finalisation", status, p > 90.0, MinReal((p - 90.0) * 10.0, 100.0))]
  }

  /** The index of the binaural stage when present, and of the finalize stage. */
  function FinalizeIndex(settings: TransformationSettings): nat
  {
    if settings.binauralBeat.enabled then 6 else 5
  }

  /**
   * While processing at p: frequency is always active; tuning, tempo, binaural and finalize
   * become active once p passes 25, 50, 75 and 90, with their scaled progress capped at 100.
   */
  lemma ProcessingStages(settings: TransformationSettings, status: ProcessingStatus)
    requires status.status == Processing
    ensures var steps := CreateProgressSteps(settings, status);
      var p := status.progress;
      var f := FinalizeIndex(settings);
      && steps[2].status == D.Active && steps[2].progress == Some(MinReal(p * 0.4, 40.0))
      && (steps[3].status == D.Active <==> p > 25.0)
      && (steps[4].status == D.Active <==> p > 50.0)
      && (settings.binauralBeat.enabled ==> (steps[5].status == D.Active <==> p > 75.0))
      && (steps[f].status == D.Active <==> p > 90.0)
      && (p > 25.0 ==> steps[3].progress == Some(MinReal((p - 25.0) * 1.33, 100.0)))
      && (p > 50.0 ==> steps[4].progress == Some(MinReal((p - 50.0) * 2.0, 100.0)))
      && (settings.binauralBeat.enabled && p > 75.0 ==> steps[5].progress == Some(MinReal((p - 75.0) * 4.0, 100.0)))
      && (p > 90.0 ==> steps[f].progress == Some(MinReal((p - 90.0) * 10.0, 100.0)))
      && forall i :: 2 <= i < |steps| && steps[i].status != D.Active ==>
           steps[i].status == D.Pending && steps[i].progress == Some(0.0)
  {
  }

  /** While processing with a non-negative percentage, every stage's progress lies in [0, 100]. */
  lemma ProcessingProgressInRange(settings: TransformationSettings, status: ProcessingStatus)
    requires status.status == Processing && status.progress >= 0.0
    ensures var steps := CreateProgressSteps(settings, status);
      forall i :: 2 <= i < |steps| ==> steps[i].progress.Some? && 0.0 <= steps[i].progress.value <= 100.0
  {
  }

  /** Stages activate in order: an active stage has every earlier stage active too. */
  lemma StagesActivateInOrder(settings: TransformationSettings, status: ProcessingStatus)
    requires status.status == Processing
    ensures var steps := CreateProgressSteps(settings, status);
      forall i, j :: 2 <= i < j < |steps| && steps[j].status == D.Active ==> steps[i].status == D.Active
  {
  }

  /** A higher percentage never shows less progress on any stage. */
  lemma StageProgressMonotone(settings: TransformationSettings, before: ProcessingStatus, after: ProcessingStatus)
    requires before.status == Processing && after.status == Processing
    requires 0.0 <= before.progress <= after.progress
    ensures var s1 := CreateProgressSteps(settings, before);
      var s2 := CreateProgressSteps(settings, after);
      forall i :: 2 <= i < |s1| ==> s1[i].progress.value <= s2[i].progress.value
  {
  }

  /* ---------------------------------------------------------------- remaining time */

  /** The estimate handed to the progress bar: half a second per missing percent, rounded, never negative. */
  function RemainingTime(progress: real): (seconds: int)
    ensures seconds >= 0
    ensures progress >= 100.0 ==> seconds == 0
    ensures 0.0 <= progress ==> seconds <= 50
    ensures progress <= 100.0 ==> -0.5 < seconds as real - (100.0 - progress) * 0.5 <= 0.5
  {
    MaxInt(0, Round((100.0 - progress) * 0.5))
  }

  /** The estimate never grows as the percentage grows. */
  lemma RemainingTimeNonIncreasing(p1: real, p2: real)
    requires p1 <= p2
    ensures RemainingTime(p2) <= RemainingTime(p1)
  {
    var x1 := (100.0 - p1) * 0.5 + 0.5;
    var x2 := (100.0 - p2) * 0.5 + 0.5;
    assert x2 <= x1;
    assert Floor(x2) <= Floor(x1) by {
      assert Floor(x2) as real <= x2 < Floor(x1) as real + 1.0;
    }
  }

  /* ---------------------------------------------------------------- status polling */

  /** One answer to `GET /api/status/{task}`: the processing task's status, or a failed request. */
  datatype PollReply = Reply(status: Phase, progress: real, message: Option<string>) | RequestFailed

  /** The reports one poll makes through `onProcessingStatusChange`, and whether it polls again. */
  datatype PollOutcome = PollOutcome(reports: seq<ProcessingStatus>, pollAgain: bool)

  const DEFAULT_POLL_MESSAGE: string := "Traitement en cours..."
  const DEFAULT_ERROR_MESSAGE: string := "Erreur lors du traitement"
  const DONE_MESSAGE: string := "Transformation terminée avec succès ! Vous pouvez maintenant écouter le résultat."
  const LOAD_ERROR_MESSAGE: string := "Erreur lors du chargement de l'audio traité"
  const COMMUNICATION_ERROR_MESSAGE: string := "Erreur de communication avec le serveur"

  function Report(phase: Phase, progress: real, message: string): ProcessingStatus
  {
    ProcessingStatus(phase, progress, Some(message), None)
  }

  /** `message || fallback`: an absent or empty message is replaced. */
  function MessageOr(message: Option<string>, fallback: string): (m: string)
    ensures message.Some? && message.value != "" ==> m == message.value
    ensures message.None? || message.value == "" ==> m == fallback
  {
    if message.Some? && message.value != "" then message.value else fallback
  }

  /** A reply that makes the poller try again one second later. */
  predicate Continues(reply: PollReply)
  {
    reply.Reply? && reply.status == Processing
  }

  /**
   * The reaction to one poll. `loadOutcome` is whether loading the transformed audio into the
   * second waveform succeeds, or `None` when that waveform does not exist.
   */
  function PollReaction(reply: PollReply, loadOutcome: Option<bool>): (o: PollOutcome)
    ensures o.pollAgain <==> Continues(reply)
    ensures reply.RequestFailed? ==> o.reports == [Report(Error, 0.0, COMMUNICATION_ERROR_MESSAGE)]
    ensures reply.Reply? ==>
      && 1 <= |o.reports| <= 2
      && o.reports[0] == Report(reply.status, reply.progress, MessageOr(reply.message, DEFAULT_POLL_MESSAGE))
      && (|o.reports| == 2 <==> reply.status == Error || (reply.status == Completed && loadOutcome.Some?))
    ensures reply.Reply? && reply.status == Completed && loadOutcome == Some(true) ==>
      o.reports[1] == Report(Completed, 100.0, DONE_MESSAGE)
    ensures reply.Reply? && reply.status == Completed && loadOutcome == Some(false) ==>
      o.reports[1] == Report(Error, 0.0, LOAD_ERROR_MESSAGE)
    ensures reply.Reply? && reply.status == Error ==>
      o.reports[1] == Report(Error, 0.0, MessageOr(reply.message, DEFAULT_ERROR_MESSAGE))
  {
    match reply
    case RequestFailed => PollOutcome([Report(Error, 0.0, COMMUNICATION_ERROR_MESSAGE)], false)
    case Reply(phase, progress, message) =>
      var echo := Report(phase, progress, MessageOr(message, DEFAULT_POLL_MESSAGE));
      if phase == Processing then PollOutcome([echo], true)
      else if phase == Completed then
        match loadOutcome
        case None => PollOutcome([echo], false)
        case Some(true) => PollOutcome([echo, Report(Completed, 100.0, DONE_MESSAGE)], false)
        case Some(false) => PollOutcome([echo, Report(Error, 0.0, LOAD_ERROR_MESSAGE)], false)
      else if phase == Error then PollOutcome([echo, Report(Error, 0.0, MessageOr(message, DEFAULT_ERROR_MESSAGE))], false)
      else PollOutcome([echo], false)
  }

  /** `pollStatus` re-arming itself: the reports made while consuming `replies` in order. */
  function PollRun(replies: seq<PollReply>, loadOutcome: Option<bool>): (reports: seq<ProcessingStatus>)
    ensures |reports| <= 2 * |replies|
    ensures |replies| > 0 ==> |reports| > 0
    decreases |replies|
  {
    if |replies| == 0 then []
    else
      var o := PollReaction(replies[0], loadOutcome);
      o.reports + (if o.pollAgain then PollRun(replies[1..], loadOutcome) else [])
  }

  /** While the server keeps answering "processing", each poll makes exactly one processing report. */
  lemma {:induction false} PollWhileProcessing(replies: seq<PollReply>, loadOutcome: Option<bool>)
    requires forall i :: 0 <= i < |replies| ==> replies[i].Reply? && replies[i].status == Processing
    ensures var reports := PollRun(replies, loadOutcome);
      && |reports| == |replies|
      && forall i :: 0 <= i < |replies| ==> reports[i].status == Processing && reports[i].progress == replies[i].progress
    decreases |replies|
  {
    if |replies| > 0 {
      PollWhileProcessing(replies[1..], loadOutcome);
      var rest := PollRun(replies[1..], loadOutcome);
      assert PollRun(replies, loadOutcome) == PollReaction(replies[0], loadOutcome).reports + rest;
      forall i | 1 <= i < |replies|
        ensures replies[i] == replies[1..][i - 1]
      {
      }
    }
  }

  /**
   * Polling stops at the first reply that is not "processing": the reports are those of the
   * replies before it followed by its own, and later replies are never consumed.
   */
  lemma {:induction false} PollStopsAtFirstFinalReply(replies: seq<PollReply>, loadOutcome: Option<bool>, k: nat)
    requires k < |replies| && !Continues(replies[k])
    requires forall i :: 0 <= i < k ==> Continues(replies[i])
    ensures PollRun(replies, loadOutcome) == PollRun(replies[..k], loadOutcome) + PollReaction(replies[k], loadOutcome).reports
    decreases k
  {
    if k == 0 {
      PollRunStops(replies, loadOutcome);
    } else {
      var tail := replies[1..];
      TailContinues(replies, k);
      PollStopsAtFirstFinalReply(tail, loadOutcome, k - 1);
      var head := PollReaction(replies[0], loadOutcome).reports;
      var rest := PollRun(tail[..k - 1], loadOutcome);
      var last := PollReaction(replies[k], loadOutcome).reports;
      assert tail[k - 1] == replies[k];
      PollRunContinues(replies, loadOutcome);
      assert PollRun(replies, loadOutcome) == head + (rest + last);
      PollRunContinues(replies[..k], loadOutcome);
      assert replies[..k][1..] == tail[..k - 1];
      assert PollRun(replies[..k], loadOutcome) == head + rest;
      assert head + (rest + last) == (head + rest) + last;
    }
  }

  /** A reply that is not "processing" ends the poll with its own reports. */
  lemma PollRunStops(replies: seq<PollReply>, loadOutcome: Option<bool>)
    requires |replies| > 0 && !Continues(replies[0])
    ensures PollRun(replies, loadOutcome) == PollRun(replies[..0], loadOutcome) + PollReaction(replies[0], loadOutcome).reports
  {
    assert replies[..0] == [];
  }

  /** Dropping the first reply shifts the first final reply one place earlier. */
  lemma TailContinues(replies: seq<PollReply>, k: nat)
    requires 0 < k < |replies| && !Continues(replies[k])
    requires forall i :: 0 <= i < k ==> Continues(replies[i])
    ensures !Continues(replies[1..][k - 1]) && Continues(replies[0])
    ensures forall i :: 0 <= i < k - 1 ==> Continues(replies[1..][i])
  {
    forall i | 0 <= i < k - 1
      ensures Continues(replies[1..][i])
    {
      assert replies[1..][i] == replies[i + 1];
    }
  }

  /** A "processing" reply reports, then the poll goes on with the replies after it. */
  lemma PollRunContinues(replies: seq<PollReply>, loadOutcome: Option<bool>)
    requires |replies| > 0 && Continues(replies[0])
    ensures PollRun(replies, loadOutcome) == PollReaction(replies[0], loadOutcome).reports + PollRun(replies[1..], loadOutcome)
  {
  }

  /** The outcome of `handleProcessTransformation`: its reports and the processing task id it stores for export. */
  datatype TransformationRun = TransformationRun(reports: seq<ProcessingStatus>, storedTaskId: Option<string>)

  const UPLOAD_MESSAGE: string := "Upload du fichier vers le serveur..."
  const START_MESSAGE: string := "Démarrage du traitement audio..."
  /** The messages of the errors thrown on a response that is not ok, and the catch's fallback. */
  const UPLOAD_FAILURE: string := "Erreur lors de l'upload du fichier"
  const START_FAILURE: string := "Erreur lors du démarrage du traitement"
  const UNKNOWN_FAILURE: string := "Erreur inconnue"

  /**
   * How one request of the transformation ends: the fetch rejects, the response is not ok, its
   * JSON body cannot be read, or the body gives the id (`file_id` or `task_id`). A rejection
   * carries the error's `message`, `None` when the thrown value has none.
   */
  datatype RequestOutcome = FetchRejected(reason: Option<string>) | NotOk | UnreadableBody(reason: Option<string>) | Body(id: string)

  /** The message of the error a failed request throws: its own, or the one thrown on a response that is not ok. */
  function ThrownReason(outcome: RequestOutcome, notOkMessage: string): Option<string>
    requires !outcome.Body?
  {
    if outcome.NotOk? then Some(notOkMessage) else outcome.reason
  }

  /** The outer catch's report: an error at 0 with "Erreur: " and the thrown message, or "Erreur inconnue" without one. */
  function CaughtReport(reason: Option<string>): (r: ProcessingStatus)
    ensures r.status == Error && r.progress == 0.0 && r.message.Some? && r.error.None?
    ensures |r.message.value| > |"Erreur: "| && r.message.value[..|"Erreur: "|] == "Erreur: "
    ensures reason.Some? && reason.value != "" ==> r.message.value[|"Erreur: "|..] == reason.value
    ensures reason.None? || reason.value == "" ==> r.message.value[|"Erreur: "|..] == UNKNOWN_FAILURE
  {
    Report(Error, 0.0, "Erreur: " + MessageOr(reason, UNKNOWN_FAILURE))
  }

  /**
   * `handleProcessTransformation`: without a file nothing happens; otherwise it reports the
   * upload, then (once the upload's body is read) the start at 20 %, and then (once the process
   * request's body is read) polls. A request that fails in any way goes to the outer catch,
   * which ends the run with `CaughtReport` of the thrown message.
   */
  function ProcessTransformation(hasFile: bool, upload: RequestOutcome, process: RequestOutcome,
                                 replies: seq<PollReply>, loadOutcome: Option<bool>): (run: TransformationRun)
    ensures !hasFile <==> run.reports == []
    ensures hasFile ==> run.reports[0] == Report(Processing, 0.0, UPLOAD_MESSAGE)
    ensures run.storedTaskId.Some? <==> hasFile && upload.Body? && process.Body?
    ensures run.storedTaskId.Some? ==> run.storedTaskId == Some(process.id)
    ensures hasFile && upload.NotOk? ==>
      run.reports == [Report(Processing, 0.0, UPLOAD_MESSAGE), CaughtReport(Some(UPLOAD_FAILURE))]
    ensures hasFile && (upload.FetchRejected? || upload.UnreadableBody?) ==>
      run.reports == [Report(Processing, 0.0, UPLOAD_MESSAGE), CaughtReport(upload.reason)]
    ensures hasFile && upload.Body? ==> |run.reports| >= 2 && run.reports[1] == Report(Processing, 20.0, START_MESSAGE)
    ensures hasFile && upload.Body? && process.NotOk? ==>
      |run.reports| == 3 && run.reports[2] == CaughtReport(Some(START_FAILURE))
    ensures hasFile && upload.Body? && (process.FetchRejected? || process.UnreadableBody?) ==>
      |run.reports| == 3 && run.reports[2] == CaughtReport(process.reason)
    ensures hasFile && upload.Body? && process.Body? ==> run.reports[2..] == PollRun(replies, loadOutcome)
  {
    if !hasFile then TransformationRun([], None)
    else if !upload.Body? then
      TransformationRun([Report(Processing, 0.0, UPLOAD_MESSAGE), CaughtReport(ThrownReason(upload, UPLOAD_FAILURE))], None)
    else
      var started := [Report(Processing, 0.0, UPLOAD_MESSAGE), Report(Processing, 20.0, START_MESSAGE)];
      match process
      case Body(id) => TransformationRun(started + PollRun(replies, loadOutcome), Some(id))
      case _ => TransformationRun(started + [CaughtReport(ThrownReason(process, START_FAILURE))], None)
  }

  /* ---------------------------------------------------------------- players and settings */

  datatype Player = Original | Transformed

  /** The component's transport state over its two waveform players. */
  class AudioProcessorPanel {
    var currentPlayer: Player
    var isPlaying: bool
    var volume: real
    /** Whether each waveform player was created (its container was mounted). */
    const originalReady: bool
    const transformedReady: bool
    /** The volume last given to each player, if any. */
    var originalVolume: Option<real>
    var transformedVolume: Option<real>
    /** The players paused and stopped, in order. */
    var pauseCalls: seq<Player>
    var stopCalls: seq<Player>

    predicate Ready(p: Player)
      reads this
    {
      if p == Original then originalReady else transformedReady
    }

    /** The stop and pause calls only ever reach players that exist. */
    predicate Valid()
      reads this
    {
      && (forall i :: 0 <= i < |pauseCalls| ==> Ready(pauseCalls[i]))
      && (forall i :: 0 <= i < |stopCalls| ==> Ready(stopCalls[i]))
    }

    constructor(originalReady: bool, transformedReady: bool)
      ensures this.originalReady == originalReady && this.transformedReady == transformedReady
      ensures currentPlayer == Original && !isPlaying && volume == 0.7
      ensures originalVolume == None && transformedVolume == None
      ensures pauseCalls == [] && stopCalls == []
      ensures Valid()
    {
      this.originalReady := originalReady;
      this.transformedReady := transformedReady;
      currentPlayer := Original;
      isPlaying := false;
      volume := 0.7;
      originalVolume := None;
      transformedVolume := None;
      pauseCalls := [];
      stopCalls := [];
    }

    /** `handlePlayerSwitch`: the previously selected player is paused only when the target differs. */
    method HandlePlayerSwitch(player: Player)
      requires Valid()
      modifies this
      ensures Valid()
      ensures currentPlayer == player
      ensures pauseCalls == old(pauseCalls) + (if old(currentPlayer) != player && Ready(old(currentPlayer)) then [old(currentPlayer)] else [])
      ensures forall i :: |old(pauseCalls)| <= i < |pauseCalls| ==> pauseCalls[i] != player
      ensures isPlaying == old(isPlaying) && volume == old(volume) && stopCalls == old(stopCalls)
      ensures originalVolume == old(originalVolume) && transformedVolume == old(transformedVolume)
    {
      if currentPlayer != player && Ready(currentPlayer) {
        pauseCalls := pauseCalls + [currentPlayer];
      }
      currentPlayer := player;
    }

    /** `handleStop`: stops the selected player when it exists; otherwise nothing changes. */
    method HandleStop()
      requires Valid()
      modifies this
      ensures Valid()
      ensures Ready(currentPlayer) ==> stopCalls == old(stopCalls) + [currentPlayer] && !isPlaying
      ensures !Ready(currentPlayer) ==> stopCalls == old(stopCalls) && isPlaying == old(isPlaying)
      ensures currentPlayer == old(currentPlayer) && volume == old(volume) && pauseCalls == old(pauseCalls)
      ensures originalVolume == old(originalVolume) && transformedVolume == old(transformedVolume)
    {
      if Ready(currentPlayer) {
        stopCalls := stopCalls + [currentPlayer];
        isPlaying := false;
      }
    }

    /** `handleVolumeChange`: stores the volume and gives it to both players that exist. */
    method HandleVolumeChange(vol: real)
      requires Valid()
      modifies this
      ensures Valid()
      ensures volume == vol
      ensures originalVolume == if originalReady then Some(vol) else old(originalVolume)
      ensures transformedVolume == if transformedReady then Some(vol) else old(transformedVolume)
      ensures currentPlayer == old(currentPlayer) && isPlaying == old(isPlaying)
      ensures pauseCalls == old(pauseCalls) && stopCalls == old(stopCalls)
    {
      volume := vol;
      if originalReady {
        originalVolume := Some(vol);
      }
      if transformedReady {
        transformedVolume := Some(vol);
      }
    }
  }

  /** A value written through `handleSettingChange`, one per settings key. */
  datatype SettingChange =
    | SetTuning(tuning: real)
    | SetBpmAdjustment(bpmAdjustment: real)
    | SetBinauralBeat(binauralBeat: BinauralSettings)
    | SetTherapeuticFrequency(frequency: real)
    | SetIntention(intention: string)

  /** A value written through `handleBinauralBeatChange`, one per binaural key. */
  datatype BinauralChange = SetEnabled(enabled: bool) | SetKind(kind: Brainwave) | SetBeatVolume(volume: real)

  /** `handleSettingChange`: the new settings differ from the old in the changed key only. */
  function HandleSettingChange(s: TransformationSettings, c: SettingChange): (r: TransformationSettings)
    ensures r.tuning == (if c.SetTuning? then c.tuning else s.tuning)
    ensures r.bpmAdjustment == (if c.SetBpmAdjustment? then c.bpmAdjustment else s.bpmAdjustment)
    ensures r.binauralBeat == (if c.SetBinauralBeat? then c.binauralBeat else s.binauralBeat)
    ensures r.therapeuticFrequency == (if c.SetTherapeuticFrequency? then c.frequency else s.therapeuticFrequency)
    ensures r.intention == (if c.SetIntention? then c.intention else s.intention)
  {
    match c
    case SetTuning(v) => s.(tuning := v)
    case SetBpmAdjustment(v) => s.(bpmAdjustment := v)
    case SetBinauralBeat(v) => s.(binauralBeat := v)
    case SetTherapeuticFrequency(v) => s.(therapeuticFrequency := v)
    case SetIntention(v) => s.(intention := v)
  }

  /** `handleBinauralBeatChange`: only the changed key of the binaural settings differs; nothing outside them changes. */
  function HandleBinauralBeatChange(s: TransformationSettings, c: BinauralChange): (r: TransformationSettings)
    ensures r.(binauralBeat := s.binauralBeat) == s
    ensures r.binauralBeat.enabled == (if c.SetEnabled? then c.enabled else s.binauralBeat.enabled)
    ensures r.binauralBeat.kind == (if c.SetKind? then c.kind else s.binauralBeat.kind)
    ensures r.binauralBeat.volume == (if c.SetBeatVolume? then c.volume else s.binauralBeat.volume)
  {
    match c
    case SetEnabled(v) => s.(binauralBeat := s.binauralBeat.(enabled := v))
    case SetKind(v) => s.(binauralBeat := s.binauralBeat.(kind := v))
    case SetBeatVolume(v) => s.(binauralBeat := s.binauralBeat.(volume := v))
  }

  /** Whether two changes write the same settings key. */
  predicate SameKey(c1: SettingChange, c2: SettingChange)
  {
    && c1.SetTuning? == c2.SetTuning?
    && c1.SetBpmAdjustment? == c2.SetBpmAdjustment?
    && c1.SetBinauralBeat? == c2.SetBinauralBeat?
    && c1.SetTherapeuticFrequency? == c2.SetTherapeuticFrequency?
  }

  /** Repeating a change has no further effect, and changes to two different keys commute. */
  lemma SettingChangesCommute(s: TransformationSettings, c1: SettingChange, c2: SettingChange)
    ensures HandleSettingChange(HandleSettingChange(s, c1), c1) == HandleSettingChange(s, c1)
    ensures !SameKey(c1, c2) ==>
      HandleSettingChange(HandleSettingChange(s, c1), c2) == HandleSettingChange(HandleSettingChange(s, c2), c1)
    ensures SameKey(c1, c2) ==>
      HandleSettingChange(HandleSettingChange(s, c1), c2) == HandleSettingChange(s, c2)
  {
  }

  /** A binaural change leaves the settings the top-level updater manages in place, and vice versa. */
  lemma BinauralChangeIsSettingChange(s: TransformationSettings, c: BinauralChange)
    ensures HandleBinauralBeatChange(s, c) == HandleSettingChange(s, SetBinauralBeat(HandleBinauralBeatChange(s, c).binauralBeat))
  {
  }
}

=== FILE: audio_upload.dfy ===
/**
 * The upload screen (`AudioUpload`): the size gate on a dropped file, the duration gate of the
 * metadata analysis, the record handed on for an accepted file and the size label.
 */
module AudioUpload {
  import opened Common
  import opened Types

  /** The MIME types the drop zone accepts, each with its extensions. */
  const ACCEPTED_FORMATS: map<string, seq<string>> := map[
    "audio/mpeg" := [".mp3"],
    "audio/wav" := [".wav"],
    "audio/flac" := [".flac"],
    "audio/aac" := [".aac"],
    "audio/x-m4a" := [".m4a"]
  ]

  const MAX_FILE_SIZE: nat := 100 * MiB
  const MAX_DURATION: real := 600.0

  /** A dropped `File`: name, size in bytes and MIME type. */
  datatype DroppedFile = DroppedFile(name: string, size: nat, mimeType: string)

  /** What the browser reports when it reads the file's metadata. */
  datatype MetadataOutcome = LoadedMetadata(duration: real) | ReadFailed

  const READ_ERROR: string := "Impossible de lire le fichier audio"

  /** The simulated tempo, from a `Math.random()` draw in [0, 1). */
  function EstimatedBpm(random: real): (bpm: int)
    requires 0.0 <= random < 1.0
    ensures 60 <= bpm <= 139
  {
    Floor(random * (140.0 - 60.0) + 60.0)
  }

  function DurationError(duration: real): string
  {
    "La durée du fichier (" + IntToString(Round(duration / 60.0)) + " min) dépasse la limite de 10 minutes"
  }

  /** `analyzeAudioFile`: rejects unreadable files and those over ten minutes; otherwise builds the record. */
  function AnalyzeAudioFile(file: DroppedFile, metadata: MetadataOutcome, random: real): (r: Result<AudioFile, string>)
    requires 0.0 <= random < 1.0
    ensures r.Ok? <==> metadata.LoadedMetadata? && metadata.duration <= MAX_DURATION
    ensures metadata.ReadFailed? ==> r == Err(READ_ERROR)
    ensures metadata.LoadedMetadata? && metadata.duration > MAX_DURATION ==> r == Err(DurationError(metadata.duration))
    ensures r.Ok? ==>
      && r.value.name == file.name && r.value.size == file.size && r.value.format == file.mimeType
      && r.value.duration == metadata.duration
      && r.value.key == Some("C")
      && r.value.bpm.Some? && 60 <= r.value.bpm.value <= 139
  {
    match metadata
    case ReadFailed => Err(READ_ERROR)
    case LoadedMetadata(duration) =>
      if duration > MAX_DURATION then Err(DurationError(duration))
      else Ok(AudioFile(file.name, duration, file.size, file.mimeType, Some(EstimatedBpm(random)), Some("C")))
  }

  function SizeError(size: nat): string
  {
    "Le fichier est trop volumineux (" + IntToString(Round(size as real / 1024.0 / 1024.0)) + " MB). Limite : 100 MB"
  }

  /** The upload area's state and the files it has handed to `onFileUpload`. */
  class AudioUploadPanel {
    var uploadError: Option<string>
    var isAnalyzing: bool
    var uploaded: seq<AudioFile>

    /** No analysis is running between drops, and every file handed on passed both gates. */
    predicate Valid()
      reads this
    {
      && !isAnalyzing
      && forall i :: 0 <= i < |uploaded| ==> uploaded[i].size <= MAX_FILE_SIZE && uploaded[i].duration <= MAX_DURATION
    }

    constructor()
      ensures uploadError == None && !isAnalyzing && uploaded == [] && Valid()
    {
      uploadError := None;
      isAnalyzing := false;
      uploaded := [];
    }

    /**
     * `onDrop`: clears the error; ignores an empty drop; considers only the first file; rejects
     * it above 100 MiB before any analysis; otherwise analyses it and hands the record on, or
     * shows the analysis error. Analysis is never left running.
     */
    method OnDrop(files: seq<DroppedFile>, metadata: MetadataOutcome, random: real)
      requires Valid() && 0.0 <= random < 1.0
      modifies this
      ensures Valid() && !isAnalyzing
      ensures |files| == 0 ==> uploadError == None && uploaded == old(uploaded)
      ensures |files| > 0 && files[0].size > MAX_FILE_SIZE ==>
        uploadError == Some(SizeError(files[0].size)) && uploaded == old(uploaded)
      ensures |files| > 0 && files[0].size <= MAX_FILE_SIZE ==>
        var r := AnalyzeAudioFile(files[0], metadata, random);
        && (r.Ok? ==> uploaded == old(uploaded) + [r.value] && uploadError == None)
        && (r.Err? ==> uploaded == old(uploaded) && uploadError == Some(r.error))
    {
      uploadError := None;
      if |files| == 0 {
        return;
      }
      var file := files[0];
      if file.size > MAX_FILE_SIZE {
        uploadError := Some(SizeError(file.size));
        return;
      }
      isAnalyzing := true;
      var r := AnalyzeAudioFile(file, metadata, random);
      match r {
        case Ok(audioFile) =>
          uploaded := uploaded + [audioFile];
        case Err(message) =>
          uploadError := Some(message);
      }
      isAnalyzing := false;
    }
  }

  /** A file of exactly 100 MiB passes the size gate and one byte more does not. */
  lemma SizeGateBoundary()
    ensures !(MAX_FILE_SIZE > MAX_FILE_SIZE) && MAX_FILE_SIZE + 1 > MAX_FILE_SIZE
    ensures MAX_FILE_SIZE == 104857600
  {
  }

  function Pow1024(i: nat): (p: nat)
    ensures p >= 1
  {
    if i == 0 then 1 else 1024 * Pow1024(i - 1)
  }

  /** `Math.floor(Math.log(bytes) / Math.log(1024))` for a positive whole number of bytes. */
  function UnitIndex(bytes: nat): (i: nat)
    requires bytes >= 1
    ensures Pow1024(i) <= bytes < Pow1024(i + 1)
    decreases bytes
  {
    if bytes < 1024 then 0 else 1 + UnitIndex(bytes / 1024)
  }

  const SIZE_UNITS: seq<string> := ["Bytes", "KB", "MB", "GB"]

  /** The size label's parts: "0 Bytes", or the size scaled into [1, 1024) with its unit. */
  datatype SizeLabel = ZeroBytes | Scaled(value: real, unit: string)

  /** `formatFileSize`; beyond the GB range the unit lookup gives "undefined". */
  function FormatFileSize(bytes: nat): (shown: SizeLabel)
    ensures bytes == 0 <==> shown == ZeroBytes
    ensures shown.Scaled? ==> 1.0 <= shown.value < 1024.0
    ensures bytes >= 1 && UnitIndex(bytes) < 4 ==> shown.Scaled? && shown.unit == SIZE_UNITS[UnitIndex(bytes)]
  {
    if bytes == 0 then ZeroBytes
    else
      var i := UnitIndex(bytes);
      var p := Pow1024(i) as real;
      ScaledBounds(bytes as real, p);
      Scaled(bytes as real / p, if i < 4 then SIZE_UNITS[i] else "undefined")
  }

  lemma {:induction false} Pow1024Monotone(i: nat, j: nat)
    requires i <= j
    ensures Pow1024(i) <= Pow1024(j)
    decreases j
  {
    if i < j {
      Pow1024Monotone(i, j - 1);
    }
  }

  /** Sizes below 1024 GB get a named unit. */
  lemma UnitIndexBelowTerabyte(bytes: nat)
    requires 1 <= bytes < Pow1024(4)
    ensures UnitIndex(bytes) < 4
  {
    if UnitIndex(bytes) >= 4 {
      Pow1024Monotone(4, UnitIndex(bytes));
    }
  }

  lemma ScaledBounds(x: real, p: real)
    requires 1.0 <= p <= x < 1024.0 * p
    ensures 1.0 <= x / p < 1024.0
  {
  }
}

=== FILE: common.dfy ===
/** Small value types and JavaScript/Python number and text helpers shared by the modules. */
module Common {

  /** Bytes in the megabyte the client divides sizes by (1024 * 1024). */
  const MiB: nat := 1024 * 1024

  datatype Option<T> = None | Some(value: T)

  datatype Result<T, E> = Ok(value: T) | Err(error: E)

  function MinReal(a: real, b: real): (r: real)
    ensures r <= a && r <= b && (r == a || r == b)
  {
    if a <= b then a else b
  }

  function MaxReal(a: real, b: real): (r: real)
    ensures r >= a && r >= b && (r == a || r == b)
  {
    if a >= b then a else b
  }

  function MinInt(a: int, b: int): (r: int)
    ensures r <= a && r <= b && (r == a || r == b)
  {
    if a <= b then a else b
  }

  function MaxInt(a: int, b: int): (r: int)
    ensures r >= a && r >= b && (r == a || r == b)
  {
    if a >= b then a else b
  }

  /** `Math.max(lo, Math.min(x, hi))`, the clamp written throughout the sources. */
  function Clamp(x: real, lo: real, hi: real): (r: real)
    requires lo <= hi
    ensures lo <= r <= hi
    ensures lo <= x <= hi ==> r == x
    ensures x < lo ==> r == lo
    ensures x > hi ==> r == hi
  {
    MaxReal(lo, MinReal(x, hi))
  }

  function AbsReal(x: real): (r: real)
    ensures r >= 0.0 && (r == x || r == -x)
  {
    if x >= 0.0 then x else -x
  }

  /** `done / total * 100`, the progress percentage reported by the chunked loops. */
  function Percent(done: nat, total: nat): (r: real)
    requires total > 0
    ensures r >= 0.0
    ensures done <= total ==> r <= 100.0
    ensures done == total ==> r == 100.0
  {
    PercentBound(done, total);
    done as real / total as real * 100.0
  }

  lemma PercentBound(done: nat, total: nat)
    requires total > 0
    ensures done as real / total as real >= 0.0
    ensures done <= total ==> done as real / total as real <= 1.0
  {
  }

  /** The players' `duration > 0 ? (currentTime / duration) * 100 : 0`. */
  function PlaybackProgress(currentTime: real, duration: real): (p: real)
    ensures duration <= 0.0 ==> p == 0.0
    ensures duration > 0.0 ==> p * duration == currentTime * 100.0
    ensures duration > 0.0 && 0.0 <= currentTime <= duration ==> 0.0 <= p <= 100.0
    ensures duration > 0.0 && currentTime == duration ==> p == 100.0
  {
    if duration > 0.0 then
      RatioBound(currentTime, duration);
      currentTime / duration * 100.0
    else 0.0
  }

  lemma RatioBound(x: real, d: real)
    requires d > 0.0
    ensures x / d * d == x
    ensures 0.0 <= x <= d ==> 0.0 <= x / d <= 1.0
  {
  }

  /** JavaScript `Math.floor`. */
  function Floor(x: real): (r: int)
    ensures r as real <= x < r as real + 1.0
  {
    x.Floor
  }

  /** JavaScript `Math.round`: halves are rounded up, towards +infinity. */
  function Round(x: real): (r: int)
    ensures x - 0.5 < r as real <= x + 0.5
  {
    (x + 0.5).Floor
  }

  /** Truncation towards zero, as JavaScript's `%` uses for its quotient. */
  function Trunc(x: real): (r: int)
    ensures x >= 0.0 ==> r as real <= x < r as real + 1.0
    ensures x < 0.0 ==> r as real - 1.0 < x <= r as real
  {
    if x >= 0.0 then x.Floor else -((-x).Floor)
  }

  /** JavaScript's `a % 60` on numbers: the remainder has the sign of `a`. */
  function Rem60(a: real): (r: real)
    ensures a >= 0.0 ==> 0.0 <= r < 60.0
    ensures a < 0.0 ==> -60.0 < r <= 0.0
  {
    a - 60.0 * Trunc(a / 60.0) as real
  }

  function DigitChar(d: nat): (c: char)
    requires d < 10
    ensures '0' <= c <= '9' && c as int == '0' as int + d
  {
    "0123456789"[d]
  }

  /** Decimal rendering of a natural number, as `Number.prototype.toString` gives it. */
  function NatToString(n: nat): (s: string)
    ensures |s| >= 1
    ensures forall i :: 0 <= i < |s| ==> '0' <= s[i] <= '9'
    decreases n
  {
    if n < 10 then [DigitChar(n)] else NatToString(n / 10) + [DigitChar(n % 10)]
  }

  /** Decimal rendering of an integer, with a leading '-' when negative. */
  function IntToString(n: int): (s: string)
    ensures |s| >= 1
    ensures n >= 0 ==> s == NatToString(n)
    ensures n < 0 ==> s == "-" + NatToString(-n)
  {
    if n >= 0 then NatToString(n) else "-" + NatToString(-n)
  }

  /** A number renders as one digit exactly when it is below ten, and as two when it is below a hundred. */
  lemma {:induction false} NatToStringLength(n: nat)
    ensures |NatToString(n)| == 1 <==> n < 10
    ensures 10 <= n < 100 ==> |NatToString(n)| == 2
  {
    if n >= 10 {
      NatToStringLength(n / 10);
    }
  }

  /** `x.toFixed(0)`: the magnitude rounded half up, with a '-' kept for negative numbers. */
  function ToFixed0(x: real): (s: string)
    ensures |s| >= 1 && (x >= 0.0 <==> s[0] != '-')
  {
    if x >= 0.0 then NatToString(Round(x)) else "-" + NatToString(Round(-x))
  }

  /** `x.toFixed(1)`: the magnitude rounded half up to tenths, written with one decimal digit. */
  function ToFixed1(x: real): (s: string)
    ensures |s| >= 3 && s[|s| - 2] == '.' && '0' <= s[|s| - 1] <= '9'
    ensures x >= 0.0 <==> s[0] != '-'
    ensures forall i :: 0 <= i < |s| ==> s[i] == '-' || s[i] == '.' || '0' <= s[i] <= '9'
  {
    var n := Round(AbsReal(x) * 10.0);
    (if x < 0.0 then "-" else "") + NatToString(n / 10) + "." + [DigitChar(n % 10)]
  }

  /** Whole seconds written as minutes and seconds, "Mm Ss". */
  function MinutesSeconds(total: nat): (s: string)
  {
    NatToString(total / 60) + "m " + NatToString(total % 60) + "s"
  }

  /** The two parts recombine to the total, and the seconds part has at most two digits and is below 60. */
  lemma MinutesSecondsParts(total: nat)
    ensures (total / 60) * 60 + total % 60 == total
    ensures total % 60 < 60 && |NatToString(total % 60)| <= 2
    ensures MinutesSeconds(total) == NatToString(total / 60) + "m " + NatToString(total % 60) + "s"
  {
    NatToStringLength(total % 60);
  }

  /** `s.includes(sub)`: `sub` occurs somewhere in `s`. */
  function Contains(s: string, sub: string): (b: bool)
    decreases |s|
  {
    if |sub| > |s| then false
    else if s[..|sub|] == sub then true
    else |s| > 0 && Contains(s[1..], sub)
  }

  ghost predicate OccursAt(s: string, sub: string, i: int)
  {
    0 <= i && i + |sub| <= |s| && s[i..i + |sub|] == sub
  }

  /** A slice of `s` from position `i >= 1` is the same slice of `s[1..]`, one position earlier. */
  lemma TailSlice(s: string, i: int, n: nat)
    requires 1 <= i && i + n <= |s|
    ensures s[1..][i - 1..i - 1 + n] == s[i..i + n]
  {
  }

  /** The recursive search finds `sub` exactly when it occurs at some position of `s`. */
  lemma {:induction false} ContainsIffOccurs(s: string, sub: string)
    ensures Contains(s, sub) <==> exists i :: OccursAt(s, sub, i)
    decreases |s|
  {
    if |sub| > |s| {
      assert forall i :: !OccursAt(s, sub, i);
    } else if s[..|sub|] == sub {
      assert OccursAt(s, sub, 0);
    } else {
      ContainsIffOccurs(s[1..], sub);
      if Contains(s[1..], sub) {
        var i :| OccursAt(s[1..], sub, i);
        TailSlice(s, i + 1, |sub|);
        assert OccursAt(s, sub, i + 1);
      } else {
        forall i | OccursAt(s, sub, i) && i > 0 ensures false {
          TailSlice(s, i, |sub|);
          assert OccursAt(s[1..], sub, i - 1);
        }
      }
    }
  }

  function LowerChar(c: char): (r: char)
    ensures 'A' <= c <= 'Z' ==> 'a' <= r <= 'z'
    ensures !('A' <= c <= 'Z') ==> r == c
  {
    if 'A' <= c <= 'Z' then (c as int - 'A' as int + 'a' as int) as char else c
  }

  /** Python's `str.lower()` restricted to ASCII letters. */
  function Lower(s: string): (r: string)
    ensures |r| == |s|
    ensures forall i :: 0 <= i < |s| ==> r[i] == LowerChar(s[i])
  {
    seq(|s|, i requires 0 <= i < |s| => LowerChar(s[i]))
  }
}

=== FILE: detailed_progress_bar.dfy ===
/**
 * The step-by-step progress display (`DetailedProgressBar`): step icons and colours, the
 * remaining-time label, the lookup of the current step and the connectors between steps.
 */
module DetailedProgressBar {
  import opened Common

  datatype StepStatus = Pending | Active | Completed | Failed

  /** A `ProgressStep`; `hasIcon` says whether the caller supplied its own icon. Descriptions are display text. */
  datatype ProgressStep = ProgressStep(id: string, caption: string, status: StepStatus, progress: Option<real>, hasIcon: bool)

  datatype StepIcon = CustomIcon | UploadIcon | AnalyzeIcon | ProcessIcon | ExportIcon | PendingIcon

  /** `getStepIcon`: the step's own icon wins; otherwise chosen by id, with the pending icon for unknown ids. */
  function GetStepIcon(step: ProgressStep): (icon: StepIcon)
    ensures step.hasIcon <==> icon == CustomIcon
    ensures !step.hasIcon && step.id !in {"upload", "analyze", "process", "export"} ==> icon == PendingIcon
    ensures !step.hasIcon && step.id == "analyze" ==> icon == AnalyzeIcon
  {
    if step.hasIcon then CustomIcon
    else if step.id == "upload" then UploadIcon
    else if step.id == "analyze" then AnalyzeIcon
    else if step.id == "process" then ProcessIcon
    else if step.id == "export" then ExportIcon
    else PendingIcon
  }

  /** `getStatusColor`: green, blue and red for completed, active and error; grey otherwise. */
  function GetStatusColor(status: StepStatus): (color: string)
    ensures color == "#666" <==> status == Pending
    ensures status == Completed <==> color == "#4CAF50"
  {
    match status
    case Completed => "#4CAF50"
    case Active => "#4CA7D8"
    case Failed => "#F44336"
    case Pending => "#666"
  }

  /** `steps.findIndex(step => step.id === id)`: the first matching position, or -1. */
  function FindStepIndex(steps: seq<ProgressStep>, id: string): (r: int)
    ensures -1 <= r < |steps|
    ensures r == -1 <==> forall j :: 0 <= j < |steps| ==> steps[j].id != id
    ensures r >= 0 ==> steps[r].id == id && forall j :: 0 <= j < r ==> steps[j].id != id
    decreases |steps|
  {
    if |steps| == 0 then -1
    else if steps[0].id == id then 0
    else
      var rest := FindStepIndex(steps[1..], id);
      if rest == -1 then -1 else rest + 1
  }

  /** The colour of each connector drawn between consecutive steps: green exactly after a completed step. */
  function Connectors(steps: seq<ProgressStep>): (green: seq<bool>)
    ensures |green| == if |steps| == 0 then 0 else |steps| - 1
    ensures forall i :: 0 <= i < |green| ==> (green[i] <==> steps[i].status == Completed)
  {
    if |steps| == 0 then []
    else seq(|steps| - 1, i requires 0 <= i < |steps| - 1 => steps[i].status == Completed)
  }

  /** The time chip appears when estimates are shown and the estimate is given and non-zero. */
  function ShowTimeChip(showTimeEstimate: bool, estimatedTimeRemaining: Option<real>): (show: bool)
    ensures show <==> showTimeEstimate && estimatedTimeRemaining.Some? && estimatedTimeRemaining.value != 0.0
  {
    showTimeEstimate && estimatedTimeRemaining.Some? && estimatedTimeRemaining.value != 0.0
  }

  /** `formatTime` as written: whole seconds below a minute, else minutes and `Math.round(seconds % 60)`. */
  function FormatTime(seconds: real): (text: string)
    ensures |text| >= 2 && text[|text| - 1] == 's'
    ensures seconds >= 60.0 <==> 'm' in text
  {
    if seconds < 60.0 then
      var text := IntToString(Round(seconds)) + "s";
      assert forall i :: 0 <= i < |text| ==> text[i] != 'm';
      text
    else
      var minutes := IntToString(Floor(seconds / 60.0));
      var text := minutes + "m " + IntToString(Round(Rem60(seconds))) + "s";
      assert text[|minutes|] == 'm';
      text
  }

  /**
   * From one minute on, the label is minutes then seconds, with the minutes the whole minutes
   * elapsed; the seconds part can reach 60, because it is rounded after the minutes are taken.
   */
  lemma FormatTimeMinutes(seconds: real)
    requires seconds >= 60.0
    ensures var minutes := Floor(seconds / 60.0);
      var secs := Round(Rem60(seconds));
      && minutes >= 1 && minutes as real * 60.0 <= seconds < minutes as real * 60.0 + 60.0
      && 0 <= secs <= 60
      && FormatTime(seconds) == NatToString(minutes) + "m " + NatToString(secs) + "s"
  {
    var minutes := Floor(seconds / 60.0);
    assert minutes == Trunc(seconds / 60.0);
  }

  /** 119.6 s is shown as "1m 60s". */
  lemma FormatTimeShowsSixtySeconds()
    ensures FormatTime(119.6) == "1m 60s"
  {
    assert Floor(119.6 / 60.0) == 1;
    assert Trunc(119.6 / 60.0) == 1;
    assert Rem60(119.6) == 59.6;
    assert Round(59.6) == 60;
    assert NatToString(60) == NatToString(6) + [DigitChar(0)];
  }

  /** The intended label: round once, then split the whole seconds into minutes and 0-59 seconds. */
  function FormatTimeIntended(seconds: real): (text: string)
  {
    var total := Round(seconds);
    if total < 60 then IntToString(total) + "s" else MinutesSeconds(total)
  }

  /** From a rounded minute on, the intended label's parts recombine to the rounded time, with 0-59 seconds. */
  lemma FormatTimeIntendedParts(seconds: real)
    requires seconds >= 59.5
    ensures var total := Round(seconds);
      && total >= 60
      && 0 <= total % 60 < 60
      && (total / 60) * 60 + total % 60 == total
      && FormatTimeIntended(seconds) == NatToString(total / 60) + "m " + NatToString(total % 60) + "s"
  {
    MinutesSecondsParts(Round(seconds));
  }

  /** Where the written label is right (seconds part below 60) the intended one agrees with it. */
  lemma FormatTimeIntendedAgrees(seconds: real)
    requires seconds >= 60.0 && Round(Rem60(seconds)) < 60
    ensures FormatTimeIntended(seconds) == FormatTime(seconds)
  {
    var m := Floor(seconds / 60.0);
    assert m == Trunc(seconds / 60.0);
    var r := Rem60(seconds);
    assert seconds == m as real * 60.0 + r;
    var k := Round(r);
    assert Round(seconds) == m * 60 + k by {
      assert seconds + 0.5 == (m * 60) as real + (r + 0.5);
    }
    assert (m * 60 + k) / 60 == m && (m * 60 + k) % 60 == k;
  }

  /** On whole seconds, as the transformation screen passes them, the written and intended labels agree. */
  lemma FormatTimeAgreesOnWholeSeconds(n: nat)
    ensures FormatTimeIntended(n as real) == FormatTime(n as real)
  {
    var x := n as real;
    assert Round(x) == n;
    if n >= 60 {
      var m := Floor(x / 60.0);
      assert m == n / 60 by {
        assert (n / 60) as real * 60.0 <= x < (n / 60) as real * 60.0 + 60.0;
      }
      assert Trunc(x / 60.0) == m;
      assert Rem60(x) == (n % 60) as real;
      assert Round((n % 60) as real) == n % 60;
    }
  }

  /** The text on the time chip: a fixed prefix followed by the formatted estimate. */
  function TimeChipLabel(estimatedTimeRemaining: real): (text: string)
    ensures |text| > |TIME_CHIP_PREFIX| && text[..|TIME_CHIP_PREFIX|] == TIME_CHIP_PREFIX
    ensures text[|TIME_CHIP_PREFIX|..] == FormatTimeIntended(estimatedTimeRemaining)
  {
    TIME_CHIP_PREFIX + FormatTimeIntended(estimatedTimeRemaining)
  }

  const TIME_CHIP_PREFIX: string := "Temps restant estimé: "

  /** The detail panel shows the first step whose id is the current one, when that step is active. */
  function ShowsActiveDetail(steps: seq<ProgressStep>, currentStep: string): (show: bool)
    ensures show <==> exists i :: 0 <= i < |steps| && steps[i].id == currentStep && steps[i].status == Active
                                   && forall j :: 0 <= j < i ==> steps[j].id != currentStep
  {
    var i := FindStepIndex(steps, currentStep);
    i >= 0 && steps[i].status == Active
  }
}

=== FILE: emotional_questionnaire.dfy ===
/**
 * The intention questionnaire (`EmotionalQuestionnaire`): a main intention, then one of its
 * sub-options, turned into the partial transformation settings handed to the app.
 */
module EmotionalQuestionnaire {
  import opened Common
  import opened Types

  datatype SubOption = SubOption(id: string, frequency: real)

  /** A main intention and its sub-options (an empty list when it has none). */
  datatype IntentionOption = IntentionOption(id: string, subOptions: seq<SubOption>)

  const MAIN_INTENTIONS: seq<IntentionOption> := [
    IntentionOption("healing", [SubOption("pain_relief", 174.0), SubOption("regeneration", 285.0), SubOption("deep_sleep", 174.0)]),
    IntentionOption("wellbeing", [SubOption("fear_release", 396.0), SubOption("stress_relief", 528.0), SubOption("relationships", 639.0)]),
    IntentionOption("energy", [SubOption("concentration", 417.0), SubOption("creativity", 417.0), SubOption("motivation", 417.0)]),
    IntentionOption("spirituality", [SubOption("intuition", 741.0), SubOption("spiritual_awakening", 852.0), SubOption("cosmic_consciousness", 963.0)])
  ]

  /** `mainIntentions.find(i => i.id === id)`: the first intention with the id, if any. */
  function FindIntention(options: seq<IntentionOption>, id: string): (r: Option<IntentionOption>)
    ensures r.None? <==> forall i :: 0 <= i < |options| ==> options[i].id != id
    ensures r.Some? ==> exists i :: 0 <= i < |options| && options[i] == r.value && r.value.id == id
                          && forall j :: 0 <= j < i ==> options[j].id != id
  {
    if |options| == 0 then None
    else if options[0].id == id then Some(options[0])
    else
      var rest := FindIntention(options[1..], id);
      if rest.Some? then
        ghost var k :| 0 <= k < |options[1..]| && options[1..][k] == rest.value && rest.value.id == id
                       && forall j :: 0 <= j < k ==> options[1..][j].id != id;
        assert options[k + 1] == rest.value;
        rest
      else rest
  }

  /** `subOptions.find(s => s.id === id)`: the first sub-option with the id, if any. */
  function FindSubOption(subs: seq<SubOption>, id: string): (r: Option<SubOption>)
    ensures r.None? <==> forall i :: 0 <= i < |subs| ==> subs[i].id != id
    ensures r.Some? ==> exists i :: 0 <= i < |subs| && subs[i] == r.value && r.value.id == id
                          && forall j :: 0 <= j < i ==> subs[j].id != id
  {
    if |subs| == 0 then None
    else if subs[0].id == id then Some(subs[0])
    else
      var rest := FindSubOption(subs[1..], id);
      if rest.Some? then
        ghost var k :| 0 <= k < |subs[1..]| && subs[1..][k] == rest.value && rest.value.id == id
                       && forall j :: 0 <= j < k ==> subs[1..][j].id != id;
        assert subs[k + 1] == rest.value;
        rest
      else rest
  }

  /** `emotionalIntention.tuning || 432`: an absent or zero tuning falls back to 432 Hz. */
  function TuningOrDefault(tuning: Option<real>): (t: real)
    ensures tuning.Some? && tuning.value != 0.0 ==> t == tuning.value
    ensures tuning.None? || tuning.value == 0.0 ==> t == 432.0
  {
    if tuning.Some? && tuning.value != 0.0 then tuning.value else 432.0
  }

  /** The settings emitted for an intention: its tuning, tempo and band, binaural on at 0.3, and the given frequency. */
  function IntentionSettings(intentionId: string, frequency: real, e: EmotionalIntention): (p: PartialSettings)
    ensures p.intention == Some(intentionId) && p.therapeuticFrequency == Some(frequency)
    ensures p.tuning == Some(TuningOrDefault(e.tuning)) && p.bpmAdjustment == Some(e.bpmAdjustment)
    ensures p.binauralBeat == Some(BinauralSettings(true, e.binauralBeat, 0.3))
  {
    PartialSettings(Some(TuningOrDefault(e.tuning)), Some(e.bpmAdjustment),
                    Some(BinauralSettings(true, e.binauralBeat, 0.3)), Some(frequency), Some(intentionId))
  }

  datatype QuestionStep = MainStep | SubStep

  /** The questionnaire's selections and the settings it has emitted through `onIntentionSelect`. */
  class Questionnaire {
    var selectedIntention: Option<string>
    var selectedSubOption: Option<string>
    var step: QuestionStep
    var emitted: seq<PartialSettings>

    constructor()
      ensures selectedIntention == None && selectedSubOption == None && step == MainStep && emitted == []
    {
      selectedIntention := None;
      selectedSubOption := None;
      step := MainStep;
      emitted := [];
    }

    /**
     * `handleMainIntentionSelect`: an intention with sub-options opens the sub step and emits
     * nothing; one without emits its own settings with its first frequency.
     */
    method HandleMainIntentionSelect(intentionId: string)
      modifies this
      ensures selectedIntention == Some(intentionId) && selectedSubOption == old(selectedSubOption)
      ensures var found := FindIntention(MAIN_INTENTIONS, intentionId);
        if found.Some? && |found.value.subOptions| > 0 then step == SubStep && emitted == old(emitted)
        else
          && step == old(step)
          && (intentionId in EMOTIONAL_INTENTIONS ==>
                emitted == old(emitted) + [IntentionSettings(intentionId, EMOTIONAL_INTENTIONS[intentionId].frequencies[0], EMOTIONAL_INTENTIONS[intentionId])])
          && (intentionId !in EMOTIONAL_INTENTIONS ==> emitted == old(emitted))
    {
      selectedIntention := Some(intentionId);
      var found := FindIntention(MAIN_INTENTIONS, intentionId);
      if found.Some? && |found.value.subOptions| > 0 {
        step := SubStep;
      } else if intentionId in EMOTIONAL_INTENTIONS {
        IntentionFrequenciesAreSolfege();
        var e := EMOTIONAL_INTENTIONS[intentionId];
        emitted := emitted + [IntentionSettings(intentionId, e.frequencies[0], e)];
      }
    }

    /**
     * `handleSubOptionSelect`: with a main intention selected and a matching sub-option, emits
     * `main_sub` with the sub-option's frequency and the main intention's other settings.
     */
    method HandleSubOptionSelect(subOptionId: string)
      modifies this
      ensures selectedSubOption == Some(subOptionId)
      ensures selectedIntention == old(selectedIntention) && step == old(step)
      ensures old(selectedIntention).None? ==> emitted == old(emitted)
      ensures old(selectedIntention).Some? ==>
        var main := old(selectedIntention).value;
        var found := FindIntention(MAIN_INTENTIONS, main);
        var sub := if found.Some? then FindSubOption(found.value.subOptions, subOptionId) else None;
        if sub.Some? && main in EMOTIONAL_INTENTIONS
        then emitted == old(emitted) + [IntentionSettings(main + "_" + subOptionId, sub.value.frequency, EMOTIONAL_INTENTIONS[main])]
        else emitted == old(emitted)
    {
      selectedSubOption := Some(subOptionId);
      if selectedIntention.None? {
        return;
      }
      var main := selectedIntention.value;
      var found := FindIntention(MAIN_INTENTIONS, main);
      var sub := if found.Some? then FindSubOption(found.value.subOptions, subOptionId) else None;
      if sub.Some? && main in EMOTIONAL_INTENTIONS {
        emitted := emitted + [IntentionSettings(main + "_" + subOptionId, sub.value.frequency, EMOTIONAL_INTENTIONS[main])];
      }
    }

    /** `handleBackToMain`: back to the main step with both selections cleared. */
    method HandleBackToMain()
      modifies this
      ensures step == MainStep && selectedIntention == None && selectedSubOption == None
      ensures emitted == old(emitted)
    {
      step := MainStep;
      selectedIntention := None;
      selectedSubOption := None;
    }
  }

  /**
   * Every listed main intention has three sub-options, each with a solfège frequency, and is
   * also a key of the intention table, so that picking a sub-option after it always emits.
   */
  lemma MainIntentionsComplete()
    ensures forall i :: 0 <= i < |MAIN_INTENTIONS| ==>
      && |MAIN_INTENTIONS[i].subOptions| == 3
      && MAIN_INTENTIONS[i].id in EMOTIONAL_INTENTIONS
      && forall j :: 0 <= j < 3 ==> IsSolfege(MAIN_INTENTIONS[i].subOptions[j].frequency)
    ensures forall key :: key in EMOTIONAL_INTENTIONS ==> FindIntention(MAIN_INTENTIONS, key).Some?
  {
    forall i, j | 0 <= i < |MAIN_INTENTIONS| && 0 <= j < 3
      ensures IsSolfege(MAIN_INTENTIONS[i].subOptions[j].frequency)
    {
      SolfegeWitness(MAIN_INTENTIONS[i].subOptions[j].frequency);
    }
    forall key | key in EMOTIONAL_INTENTIONS
      ensures FindIntention(MAIN_INTENTIONS, key).Some?
    {
      assert key in {"healing", "wellbeing", "energy", "spirituality"};
      var i := if key == "healing" then 0 else if key == "wellbeing" then 1 else if key == "energy" then 2 else 3;
      assert MAIN_INTENTIONS[i].id == key;
    }
  }

  /** `getFrequencyInfo`: the first solfège entry with exactly this frequency, if any. */
  function GetFrequencyInfo(table: seq<TherapeuticFrequency>, frequency: real): (r: Option<TherapeuticFrequency>)
    ensures r.None? <==> forall i :: 0 <= i < |table| ==> table[i].frequency != frequency
    ensures r.Some? ==> exists i :: 0 <= i < |table| && table[i] == r.value && r.value.frequency == frequency
                          && forall j :: 0 <= j < i ==> table[j].frequency != frequency
  {
    if |table| == 0 then None
    else if table[0].frequency == frequency then Some(table[0])
    else
      var rest := GetFrequencyInfo(table[1..], frequency);
      if rest.Some? then
        ghost var k :| 0 <= k < |table[1..]| && table[1..][k] == rest.value && rest.value.frequency == frequency
                       && forall j :: 0 <= j < k ==> table[1..][j].frequency != frequency;
        assert table[k + 1] == rest.value;
        rest
      else rest
  }

  /** Every frequency the questionnaire can emit has its solfège description. */
  lemma EmittedFrequenciesDescribed()
    ensures forall i, j :: 0 <= i < |MAIN_INTENTIONS| && 0 <= j < |MAIN_INTENTIONS[i].subOptions| ==>
      GetFrequencyInfo(SOLFEGE_FREQUENCIES, MAIN_INTENTIONS[i].subOptions[j].frequency).Some?
  {
    MainIntentionsComplete();
    forall i, j | 0 <= i < |MAIN_INTENTIONS| && 0 <= j < |MAIN_INTENTIONS[i].subOptions|
      ensures GetFrequencyInfo(SOLFEGE_FREQUENCIES, MAIN_INTENTIONS[i].subOptions[j].frequency).Some?
    {
      var f := MAIN_INTENTIONS[i].subOptions[j].frequency;
      assert IsSolfege(f);
      var k :| 0 <= k < |SOLFEGE_FREQUENCIES| && SOLFEGE_FREQUENCIES[k].frequency == f;
    }
  }
}

=== FILE: enhanced_audio_player.dfy ===
/**
 * The advanced player (`EnhancedAudioPlayer`): it drives a graph engine, pushes its volume, mute
 * and equalizer props into it when they differ, and asks its parent for volume and mute changes.
 */
module EnhancedAudioPlayer {
  import opened Common
  import opened Types
  import opened AudioGraph
  import AudioEqualizer

  /** The bands handed to the engine: as given when enabled, with every gain 0 when disabled. */
  function BandsToApply(bands: seq<AudioEqualizer.Band>, enabled: bool): (r: seq<AudioEqualizer.Band>)
    ensures AudioEqualizer.SameLayout(r, bands)
    ensures enabled ==> r == bands
    ensures !enabled ==> forall i :: 0 <= i < |r| ==> r[i].gain == 0.0
  {
    if enabled then bands else AudioEqualizer.ResetEqualizer(bands)
  }

  /** Whether the volume effect calls `setVolume`: the engine is more than 0.01 away from `volume / 100`. */
  predicate VolumeNeedsSync(engineVolume: real, volumeProp: real)
  {
    AbsReal(engineVolume - volumeProp / 100.0) > 0.01
  }

  /** After the volume effect the engine is within 0.01 of any prop in [0, 100]; a second run changes nothing. */
  lemma VolumeSyncSettles(s: EngineState, volumeProp: real)
    requires Inv(s) && 0.0 <= volumeProp <= 100.0
    ensures var t := if VolumeNeedsSync(s.state.volume, volumeProp) then VolumeSet(s, volumeProp / 100.0) else s;
      !VolumeNeedsSync(t.state.volume, volumeProp)
  {
  }

  class EnhancedAudioPlayer {
    const engine: AudioEngine
    var hasUserInteracted: bool
    var requests: seq<PropCallback>

    ghost predicate Valid()
      reads this, engine
    {
      engine.Valid()
    }

    constructor()
      ensures fresh(engine) && engine.Snapshot() == InitialState() && !hasUserInteracted && requests == [] && Valid()
    {
      engine := new AudioEngine();
      hasUserInteracted := false;
      requests := [];
    }

    /** The load effect: the engine loads the file; `decoded` is its decoded duration or `None` on failure. */
    method Load(decoded: Option<real>)
      requires Valid() && (decoded.Some? ==> decoded.value >= 0.0)
      modifies engine
      ensures engine.Snapshot() == Loaded(old(engine.Snapshot()), decoded)
      ensures Valid()
    {
      engine.LoadAudioFile(decoded);
    }

    /** The volume effect for the 0-100 `volume` prop. */
    method SyncVolume(volumeProp: real)
      requires Valid()
      modifies engine
      ensures VolumeNeedsSync(old(engine.state.volume), volumeProp) ==>
        engine.Snapshot() == VolumeSet(old(engine.Snapshot()), volumeProp / 100.0)
      ensures !VolumeNeedsSync(old(engine.state.volume), volumeProp) ==> engine.Snapshot() == old(engine.Snapshot())
      ensures 0.0 <= volumeProp <= 100.0 ==> !VolumeNeedsSync(engine.state.volume, volumeProp)
      ensures Valid()
    {
      if 0.0 <= volumeProp <= 100.0 {
        VolumeSyncSettles(engine.Snapshot(), volumeProp);
      }
      var targetVolume := volumeProp / 100.0;
      if AbsReal(engine.state.volume - targetVolume) > 0.01 {
        engine.SetVolume(targetVolume);
      }
    }

    /** The mute effect: pushes the prop only when the engine differs, so afterwards they agree. */
    method SyncMuted(muted: bool)
      requires Valid()
      modifies engine
      ensures old(engine.state.muted) != muted ==> engine.Snapshot() == MutedSet(old(engine.Snapshot()), muted)
      ensures old(engine.state.muted) == muted ==> engine.Snapshot() == old(engine.Snapshot())
      ensures engine.state.muted == muted
      ensures Valid()
    {
      if engine.state.muted != muted {
        engine.SetMuted(muted);
      }
    }

    /** The equalizer effect. */
    method SyncEqualizer(bands: seq<AudioEqualizer.Band>, enabled: bool)
      requires Valid()
      modifies engine
      ensures engine.Snapshot() == EqualizerApplied(old(engine.Snapshot()), BandsToApply(bands, enabled))
      ensures Valid()
    {
      if enabled {
        engine.ApplyEqualizer(bands);
      } else {
        var resetBands := AudioEqualizer.ResetEqualizer(bands);
        engine.ApplyEqualizer(resetBands);
      }
    }

    /** `togglePlay` at audio clock `now`: records the interaction, then pauses or plays. */
    method TogglePlay(now: real)
      requires Valid() && now >= engine.clock
      modifies this, engine
      ensures hasUserInteracted && requests == old(requests)
      ensures old(engine.state.isPlaying) ==> engine.Snapshot() == Paused(old(engine.Snapshot()))
      ensures !old(engine.state.isPlaying) ==> engine.Snapshot() == Started(old(engine.Snapshot()), now)
      ensures Valid()
    {
      if !hasUserInteracted {
        hasUserInteracted := true;
      }
      if engine.state.isPlaying {
        engine.Pause();
      } else {
        engine.Play(now);
      }
    }

    method HandleSeek(value: real)
      requires Valid()
      modifies engine
      ensures engine.Snapshot() == Sought(old(engine.Snapshot()), value)
      ensures Valid()
    {
      engine.Seek(value);
    }

    /** `handleVolumeChange`: the 0-1 slider value goes to the parent as 0-100. */
    method HandleVolumeChange(value: real)
      requires Valid()
      modifies this
      ensures requests == old(requests) + [OnVolumeChange(value * 100.0)]
      ensures hasUserInteracted == old(hasUserInteracted)
      ensures Valid()
    {
      requests := requests + [OnVolumeChange(value * 100.0)];
    }

    /** `toggleMute`: asks the parent for the opposite of the `muted` prop. */
    method ToggleMute(muted: bool)
      requires Valid()
      modifies this
      ensures requests == old(requests) + [OnMutedChange(!muted)]
      ensures hasUserInteracted == old(hasUserInteracted)
      ensures Valid()
    {
      requests := requests + [OnMutedChange(!muted)];
    }

    /** `progress` from the engine's state. */
    function Progress(): (p: real)
      reads this, engine
      ensures engine.state.duration <= 0.0 ==> p == 0.0
      ensures Valid() && engine.state.duration > 0.0 && engine.state.currentTime <= engine.state.duration ==> 0.0 <= p <= 100.0
    {
      PlaybackProgress(engine.state.currentTime, engine.state.duration)
    }
  }
}

=== FILE: performance_monitor.dfy ===
/**
 * The performance panel (`PerformanceMonitor`): how file size, times and memory usage are shown,
 * and how the optimisation hook's warning tags are worded and ranked.
 */
module PerformanceMonitor {
  import opened Common
  import PO = PerformanceOptimization

  /** `formatFileSize`: below one MB the size is shown in KB, otherwise in MB, to one decimal. */
  function FormatFileSize(sizeMB: real): (text: string)
    ensures |text| >= 3 && (sizeMB < 1.0 <==> text[|text| - 3..] == " KB")
    ensures sizeMB < 1.0 ==> text == ToFixed1(sizeMB * 1024.0) + " KB"
    ensures sizeMB >= 1.0 ==> text == ToFixed1(sizeMB) + " MB"
  {
    if sizeMB < 1.0 then ToFixed1(sizeMB * 1024.0) + " KB" else ToFixed1(sizeMB) + " MB"
  }

  /** `formatTime` as written: tenths of seconds below a minute, else minutes and `(seconds % 60).toFixed(0)`. */
  function FormatTime(seconds: real): (text: string)
    ensures |text| >= 2 && text[|text| - 1] == 's'
    ensures seconds < 60.0 <==> '.' in text
    ensures seconds >= 60.0 <==> 'm' in text
  {
    if seconds < 60.0 then
      var fixed := ToFixed1(seconds);
      var text := fixed + "s";
      assert forall i :: 0 <= i < |text| ==> text[i] != 'm';
      assert text[|fixed| - 2] == '.';
      text
    else
      var minutes := IntToString(Floor(seconds / 60.0));
      var text := minutes + "m " + ToFixed0(Rem60(seconds)) + "s";
      assert text[|minutes|] == 'm';
      assert forall i :: 0 <= i < |text| ==> text[i] != '.';
      text
  }

  /** From one minute on, the seconds shown can reach 60, since they are rounded after the minutes are taken. */
  lemma FormatTimeMinutes(seconds: real)
    requires seconds >= 60.0
    ensures var minutes := Floor(seconds / 60.0);
      var secs := Round(Rem60(seconds));
      && minutes >= 1 && minutes as real * 60.0 <= seconds < minutes as real * 60.0 + 60.0
      && 0 <= secs <= 60
      && FormatTime(seconds) == NatToString(minutes) + "m " + NatToString(secs) + "s"
  {
    assert Floor(seconds / 60.0) == Trunc(seconds / 60.0);
  }

  /** An elapsed time of 119.6 s is shown as "1m 60s". */
  lemma FormatTimeShowsSixtySeconds()
    ensures FormatTime(119.6) == "1m 60s"
  {
    assert Floor(119.6 / 60.0) == 1;
    assert Trunc(119.6 / 60.0) == 1;
    assert Rem60(119.6) == 59.6;
    assert Round(59.6) == 60;
    assert NatToString(60) == NatToString(6) + [DigitChar(0)];
  }

  /** The intended display: tenths below a minute; otherwise round to whole seconds first, then split. */
  function FormatTimeIntended(seconds: real): (text: string)
  {
    if seconds < 60.0 then ToFixed1(seconds) + "s" else MinutesSeconds(Round(seconds))
  }

  /** From one minute on, the intended display recombines to the rounded time, with 0-59 seconds. */
  lemma FormatTimeIntendedParts(seconds: real)
    requires seconds >= 60.0
    ensures var total := Round(seconds);
      && total >= 60
      && (total / 60) * 60 + total % 60 == total
      && 0 <= total % 60 < 60
      && FormatTimeIntended(seconds) == NatToString(total / 60) + "m " + NatToString(total % 60) + "s"
  {
    MinutesSecondsParts(Round(seconds));
  }

  /** Wherever the written label's seconds stay below 60, the intended label is the same text. */
  lemma FormatTimeIntendedAgrees(seconds: real)
    requires seconds < 60.0 || Round(Rem60(seconds)) < 60
    ensures FormatTimeIntended(seconds) == FormatTime(seconds)
  {
    if seconds >= 60.0 {
      var m := Floor(seconds / 60.0);
      var k := Round(Rem60(seconds));
      FormatTimeMinutes(seconds);
      RoundSplits(seconds);
      DivModUnique(m, k);
      var total := Round(seconds);
      assert total == m * 60 + k;
      assert total / 60 == m && total % 60 == k;
      var text := NatToString(m) + "m " + NatToString(k) + "s";
      assert MinutesSeconds(total) == text;
      assert FormatTime(seconds) == text;
      assert FormatTimeIntended(seconds) == MinutesSeconds(total);
    }
  }

  /** From one minute on, rounding the whole time is rounding the remainder after the whole minutes. */
  lemma RoundSplits(seconds: real)
    requires seconds >= 60.0
    ensures Floor(seconds / 60.0) >= 1 && Round(Rem60(seconds)) >= 0
    ensures Round(seconds) == Floor(seconds / 60.0) * 60 + Round(Rem60(seconds))
  {
    var m := Floor(seconds / 60.0);
    assert m == Trunc(seconds / 60.0);
    var r := Rem60(seconds);
    assert seconds + 0.5 == (m * 60) as real + (r + 0.5);
  }

  lemma DivModUnique(m: nat, k: nat)
    requires k < 60
    ensures (m * 60 + k) / 60 == m && (m * 60 + k) % 60 == k
  {
  }

  datatype MemoryStatus = Optimal | Moderate | High

  /** `getMemoryStatus`: below 100 MB optimal, below 300 MB moderate, otherwise high. */
  function GetMemoryStatus(memoryUsage: real): (status: MemoryStatus)
    ensures status == Optimal <==> memoryUsage < 100.0
    ensures status == Moderate <==> 100.0 <= memoryUsage < 300.0
    ensures status == High <==> memoryUsage >= 300.0
  {
    if memoryUsage < 100.0 then Optimal else if memoryUsage < 300.0 then Moderate else High
  }

  function StatusColor(status: MemoryStatus): (color: string)
    ensures |color| == 7 && color[0] == '#'
  {
    match status
    case Optimal => "#4caf50"
    case Moderate => "#ff9800"
    case High => "#f44336"
  }

  function StatusLabel(status: MemoryStatus): (text: string)
    ensures |text| >= 5
  {
    match status
    case Optimal => "Optimal"
    case Moderate => "Modéré"
    case High => "Élevé"
  }

  /** Each status has its own colour and its own label. */
  lemma StatusPresentationDistinct(a: MemoryStatus, b: MemoryStatus)
    requires a != b
    ensures StatusColor(a) != StatusColor(b) && StatusLabel(a) != StatusLabel(b)
  {
  }

  function Rank(status: MemoryStatus): nat
  {
    match status
    case Optimal => 0
    case Moderate => 1
    case High => 2
  }

  /** More memory in use never shows a better status. */
  lemma MemoryStatusMonotone(m1: real, m2: real)
    requires m1 <= m2
    ensures Rank(GetMemoryStatus(m1)) <= Rank(GetMemoryStatus(m2))
  {
  }

  const LARGE_FILE_MESSAGE: string := "Fichier volumineux détecté - Le traitement peut être plus lent"
  const VERY_LARGE_FILE_MESSAGE: string := "Fichier très volumineux - Risque de problèmes de performance"
  const HIGH_MEMORY_MESSAGE: string := "Utilisation mémoire élevée - Considérez optimiser"

  /** `getWarningMessage`: the three known tags have fixed wordings; any other tag is shown as it is. */
  function GetWarningMessage(tag: string): (message: string)
    ensures tag == PO.LARGE_FILE ==> message == LARGE_FILE_MESSAGE
    ensures tag == PO.VERY_LARGE_FILE ==> message == VERY_LARGE_FILE_MESSAGE
    ensures tag == PO.HIGH_MEMORY ==> message == HIGH_MEMORY_MESSAGE
    ensures tag !in {PO.LARGE_FILE, PO.VERY_LARGE_FILE, PO.HIGH_MEMORY} ==> message == tag
  {
    if tag == PO.LARGE_FILE then LARGE_FILE_MESSAGE
    else if tag == PO.VERY_LARGE_FILE then VERY_LARGE_FILE_MESSAGE
    else if tag == PO.HIGH_MEMORY then HIGH_MEMORY_MESSAGE
    else tag
  }

  datatype Severity = ErrorSeverity | WarningSeverity

  /** An alert is an error exactly when its tag contains "very-large". */
  function AlertSeverity(tag: string): (severity: Severity)
    ensures severity == ErrorSeverity <==> exists i :: OccursAt(tag, "very-large", i)
  {
    ContainsIffOccurs(tag, "very-large");
    if Contains(tag, "very-large") then ErrorSeverity else WarningSeverity
  }

  /** Of the tags the optimisation hook raises, only the very-large-file tag is shown as an error, and each has its own wording. */
  lemma KnownTagsSeverity()
    ensures AlertSeverity(PO.VERY_LARGE_FILE) == ErrorSeverity
    ensures AlertSeverity(PO.LARGE_FILE) == WarningSeverity
    ensures AlertSeverity(PO.HIGH_MEMORY) == WarningSeverity
    ensures forall t :: t in [PO.LARGE_FILE, PO.VERY_LARGE_FILE, PO.HIGH_MEMORY] ==> GetWarningMessage(t) != t
  {
    assert OccursAt(PO.VERY_LARGE_FILE, "very-large", 0);
    forall i | 0 <= i <= |PO.LARGE_FILE| - 10
      ensures !OccursAt(PO.LARGE_FILE, "very-large", i)
    {
      assert PO.LARGE_FILE[i..i + 10][0] == PO.LARGE_FILE[i];
    }
    forall i | 0 <= i <= |PO.HIGH_MEMORY| - 10
      ensures !OccursAt(PO.HIGH_MEMORY, "very-large", i)
    {
      assert PO.HIGH_MEMORY[i..i + 10][0] == PO.HIGH_MEMORY[i];
    }
  }

  /** The memory bar: the share of 500 MB in use, as a percentage capped at 100. */
  function MemoryBar(memoryUsage: real): (value: real)
    ensures value <= 100.0
    ensures memoryUsage >= 0.0 ==> value >= 0.0
    ensures memoryUsage <= 500.0 ==> value * 5.0 == memoryUsage
    ensures memoryUsage >= 500.0 ==> value == 100.0
  {
    MinReal(memoryUsage / 500.0 * 100.0, 100.0)
  }

  /** The time tile: the elapsed time once there is one, otherwise the estimate, with the matching caption. */
  function TimeShown(metrics: PO.Metrics): (shown: (string, string))
    ensures metrics.processingTime > 0.0 ==> shown == (FormatTimeIntended(metrics.processingTime), "Temps écoulé")
    ensures metrics.processingTime <= 0.0 ==> shown == (FormatTimeIntended(metrics.estimatedProcessingTime), "Temps estimé")
  {
    if metrics.processingTime > 0.0 then (FormatTimeIntended(metrics.processingTime), "Temps écoulé")
    else (FormatTimeIntended(metrics.estimatedProcessingTime), "Temps estimé")
  }

  /** The file tile's chip. */
  function FileChip(metrics: PO.Metrics): (caption: string)
    ensures caption == "Gros fichier" <==> metrics.isLargeFile
  {
    if metrics.isLargeFile then "Gros fichier" else "Taille normale"
  }
}

=== FILE: performance_optimization.dfy ===
/**
 * The resource monitor (`usePerformanceOptimization`): file analysis into metrics and warning
 * tags, recommendations derived from the metrics, a memory sampler that adds the high-memory tag
 * at most once, timing of an optimisation run, and sequential processing of a byte buffer in
 * fixed-size slices. Sizes are in MB of 1024 * 1024 bytes, times in seconds unless stated.
 */
module PerformanceOptimization {
  import opened Common

  datatype Options = Options(maxFileSize: real, chunkSize: nat, enableMemoryMonitoring: bool, enableProgressiveLoading: bool)

  function DefaultOptions(): Options
  {
    Options(100.0, 10, true, true)
  }

  datatype Metrics = Metrics(
    memoryUsage: real,
    processingTime: real,
    fileSize: real,
    isLargeFile: bool,
    recommendedChunkSize: nat,
    estimatedProcessingTime: real)

  const LARGE_FILE: string := "large-file"
  const VERY_LARGE_FILE: string := "very-large-file"
  const HIGH_MEMORY: string := "high-memory"

  /** MB above which a memory sample raises the high-memory tag, and a file the very-large-file tag. */
  const MEMORY_WARNING_MB: real := 500.0
  const VERY_LARGE_FILE_MB: real := 500.0

  ghost predicate NoDuplicates(tags: seq<string>)
  {
    forall i, j :: 0 <= i < j < |tags| ==> tags[i] != tags[j]
  }

  /** Recommended slice size (MB): 5 above 200 MB, 8 above 100 MB, else the configured size. */
  function RecommendedChunkSize(fileSizeMB: real, configured: nat): (r: nat)
    ensures r == 5 || r == 8 || r == configured
    ensures fileSizeMB > 200.0 ==> r == 5
    ensures 100.0 < fileSizeMB <= 200.0 ==> r == 8
    ensures fileSizeMB <= 100.0 ==> r == configured
  {
    if fileSizeMB > 200.0 then 5 else if fileSizeMB > 100.0 then 8 else configured
  }

  /** With the default slice size (or any of at least 8 MB), a bigger file never gets bigger slices. */
  lemma RecommendedChunkSizeNonIncreasing(mb1: real, mb2: real, configured: nat)
    requires mb1 <= mb2 && configured >= 8
    ensures RecommendedChunkSize(mb2, configured) <= RecommendedChunkSize(mb1, configured)
  {
  }

  /** The warnings `analyzeFile` sets, replacing the old list. */
  function FileWarnings(isLargeFile: bool, fileSizeMB: real): (tags: seq<string>)
    ensures LARGE_FILE in tags <==> isLargeFile
    ensures VERY_LARGE_FILE in tags <==> fileSizeMB > VERY_LARGE_FILE_MB
    ensures HIGH_MEMORY !in tags
    ensures NoDuplicates(tags)
    ensures |tags| == 2 ==> tags == [LARGE_FILE, VERY_LARGE_FILE]
  {
    (if isLargeFile then [LARGE_FILE] else []) + (if fileSizeMB > VERY_LARGE_FILE_MB then [VERY_LARGE_FILE] else [])
  }

  /**
   * `analyzeFile(file)` for a file of `sizeBytes` bytes, with the memory usage last sampled.
   * Returns the new metrics and the new warning list.
   */
  function AnalyzeFile(opts: Options, memoryUsage: real, sizeBytes: nat): (r: (Metrics, seq<string>))
    ensures var (m, tags) := r;
      && m.fileSize == sizeBytes as real / MiB as real
      && (m.isLargeFile <==> m.fileSize > opts.maxFileSize)
      && m.recommendedChunkSize == RecommendedChunkSize(m.fileSize, opts.chunkSize)
      && m.estimatedProcessingTime >= 5.0
      && m.estimatedProcessingTime >= m.fileSize * 0.5
      && (m.estimatedProcessingTime == 5.0 || m.estimatedProcessingTime == m.fileSize * 0.5)
      && m.processingTime == 0.0
      && m.memoryUsage == memoryUsage
      && tags == FileWarnings(m.isLargeFile, m.fileSize)
  {
    var fileSizeMB := sizeBytes as real / MiB as real;
    var isLargeFile := fileSizeMB > opts.maxFileSize;
    var recommended := RecommendedChunkSize(fileSizeMB, opts.chunkSize);
    var estimated := MaxReal(5.0, fileSizeMB * 0.5);
    (Metrics(memoryUsage, 0.0, fileSizeMB, isLargeFile, recommended, estimated), FileWarnings(isLargeFile, fileSizeMB))
  }

  /** With the default options, a file is large exactly when it has more than 100 MB. */
  lemma DefaultLargeFileThreshold(memoryUsage: real, sizeBytes: nat)
    ensures AnalyzeFile(DefaultOptions(), memoryUsage, sizeBytes).0.isLargeFile <==> sizeBytes > 100 * MiB
    ensures sizeBytes <= 100 * MiB ==> AnalyzeFile(DefaultOptions(), memoryUsage, sizeBytes).0.recommendedChunkSize == 10
  {
    var mb := sizeBytes as real / MiB as real;
    assert mb * MiB as real == sizeBytes as real;
    if sizeBytes > 100 * MiB {
      assert sizeBytes as real > 100.0 * MiB as real;
    }
  }

  const ADVICE_CHUNKS: string := "Utilisez le traitement par chunks pour éviter les problèmes de mémoire"
  const ADVICE_TABS: string := "Considérez fermer d'autres onglets pour libérer de la mémoire"
  const ADVICE_DURATION: string := "Le traitement peut prendre plusieurs minutes"
  const ADVICE_STAY: string := "Évitez de naviguer vers d'autres pages pendant le traitement"

  /** `getRecommendations`: one message per condition that holds, in a fixed order. */
  function Recommendations(m: Metrics): (r: seq<string>)
    ensures |r| == (if m.isLargeFile then 1 else 0) + (if m.memoryUsage > 300.0 then 1 else 0) + (if m.fileSize > 200.0 then 2 else 0)
    ensures ADVICE_CHUNKS in r <==> m.isLargeFile
    ensures ADVICE_TABS in r <==> m.memoryUsage > 300.0
    ensures ADVICE_DURATION in r <==> m.fileSize > 200.0
    ensures m.fileSize > 200.0 ==> r[|r| - 2..] == [ADVICE_DURATION, ADVICE_STAY]
    ensures m.isLargeFile ==> r[0] == ADVICE_CHUNKS
  {
    (if m.isLargeFile then [ADVICE_CHUNKS] else [])
    + (if m.memoryUsage > 300.0 then [ADVICE_TABS] else [])
    + (if m.fileSize > 200.0 then [ADVICE_DURATION, ADVICE_STAY] else [])
  }

  // ---------------------------------------------------------------------------------------
  // Slicing a buffer

  /** `data.slice(i, i + size)` for i = 0, size, 2 size, ... while i < length. */
  function Slices(data: seq<bv8>, size: nat): (r: seq<seq<bv8>>)
    requires size > 0
    decreases |data|
  {
    if |data| == 0 then []
    else if |data| <= size then [data]
    else [data[..size]] + Slices(data[size..], size)
  }

  function Flatten(chunks: seq<seq<bv8>>): seq<bv8>
  {
    if |chunks| == 0 then [] else chunks[0] + Flatten(chunks[1..])
  }

  /** The slices put back together are the buffer. */
  lemma {:induction false} SlicesConcatenate(data: seq<bv8>, size: nat)
    requires size > 0
    ensures Flatten(Slices(data, size)) == data
    decreases |data|
  {
    if |data| > size {
      SlicesConcatenate(data[size..], size);
      assert Slices(data, size)[1..] == Slices(data[size..], size);
      assert data == data[..size] + data[size..];
    }
  }

  /** Every slice but the last has exactly `size` bytes; the last has between 1 and `size`. */
  lemma {:induction false} SliceSizes(data: seq<bv8>, size: nat)
    requires size > 0
    ensures var s := Slices(data, size);
      && (|data| == 0 <==> |s| == 0)
      && (forall k :: 0 <= k < |s| - 1 ==> |s[k]| == size)
      && (|s| > 0 ==> 0 < |s[|s| - 1]| <= size)
    decreases |data|
  {
    if |data| > size {
      SliceSizes(data[size..], size);
      var s := Slices(data, size);
      var rest := Slices(data[size..], size);
      assert s == [data[..size]] + rest;
      forall k | 0 <= k < |s| - 1
        ensures |s[k]| == size
      {
        if k > 0 {
          assert s[k] == rest[k - 1];
        }
      }
    }
  }

  /** One step of the slicing loop at byte offset `i`. */
  lemma SlicesStep(data: seq<bv8>, size: nat, i: nat)
    requires size > 0 && i < |data|
    ensures Slices(data[i..], size) == [data[i..MinInt(i + size, |data|)]] + Slices(data[MinInt(i + size, |data|)..], size)
  {
    var d := data[i..];
    if |d| > size {
      assert d[..size] == data[i..i + size];
      assert d[size..] == data[i + size..];
    } else {
      assert MinInt(i + size, |data|) == |data|;
      assert data[i..|data|] == d;
      assert data[|data|..] == [];
      assert Slices(d, size) == [d];
    }
  }

  /** The slicing `for` loop of `processInChunks`. */
  method SliceBuffer(data: seq<bv8>, chunkSizeBytes: nat) returns (chunks: seq<seq<bv8>>)
    requires chunkSizeBytes > 0
    ensures chunks == Slices(data, chunkSizeBytes)
  {
    chunks := [];
    var i := 0;
    while i < |data|
      invariant chunks + Slices(data[MinInt(i, |data|)..], chunkSizeBytes) == Slices(data, chunkSizeBytes)
      decreases |data| - i
    {
      SlicesStep(data, chunkSizeBytes, i);
      var chunk := data[i..MinInt(i + chunkSizeBytes, |data|)];
      chunks := chunks + [chunk];
      i := i + chunkSizeBytes;
    }
  }

  /**
   * `processInChunks(data, processor, onProgress)` with slices of `recommendedChunkSize` MB, run
   * one after the other. `processor` gives each slice's settled promise: a value or a rejection.
   * Progress report `i` is (i + 1) / n * 100 and follows slice `i`'s value. The first rejection
   * ends the loop: the call rejects with it, after the reports of the slices before it. Without
   * one, result `i` is slice `i`'s value.
   */
  method ProcessInChunks<R>(data: seq<bv8>, recommendedChunkSize: nat, processor: (seq<bv8>, nat) -> Result<R, string>)
    returns (outcome: Result<seq<R>, string>, progress: seq<real>)
    requires recommendedChunkSize > 0
    ensures var chunks := Slices(data, recommendedChunkSize * MiB);
      && |progress| <= |chunks|
      && (forall i :: 0 <= i < |progress| ==> processor(chunks[i], i).Ok? && progress[i] == Percent(i + 1, |chunks|))
      && (outcome.Ok? <==> forall i :: 0 <= i < |chunks| ==> processor(chunks[i], i).Ok?)
      && (outcome.Ok? ==> |outcome.value| == |progress| == |chunks|)
      && (outcome.Ok? ==> forall i :: 0 <= i < |chunks| ==> outcome.value[i] == processor(chunks[i], i).value)
      && (outcome.Ok? && |chunks| > 0 ==> progress[|chunks| - 1] == 100.0)
      && (outcome.Err? ==> |progress| < |chunks| && processor(chunks[|progress|], |progress|) == Err(outcome.error))
  {
    var chunkSizeBytes := recommendedChunkSize * MiB;
    var chunks := SliceBuffer(data, chunkSizeBytes);
    var results := [];
    progress := [];
    var i := 0;
    while i < |chunks|
      invariant 0 <= i <= |chunks|
      invariant |results| == |progress| == i
      invariant forall k :: 0 <= k < i ==> processor(chunks[k], k).Ok? && results[k] == processor(chunks[k], k).value
      invariant forall k :: 0 <= k < i ==> progress[k] == Percent(k + 1, |chunks|)
    {
      var result := processor(chunks[i], i);
      if result.Err? {
        outcome := Err(result.error);
        return;
      }
      results := results + [result.value];
      progress := progress + [Percent(i + 1, |chunks|)];
      i := i + 1;
    }
    outcome := Ok(results);
  }

  // ---------------------------------------------------------------------------------------
  // The hook's state

  class PerformanceOptimizer {
    const opts: Options
    var metrics: Metrics
    var isOptimizing: bool
    var warnings: seq<string>
    /** `processingStartTime`, in milliseconds of `Date.now()`. */
    var processingStartTime: real
    var memoryMonitorInterval: Option<nat>
    var nextIntervalId: nat
    /** Interval handles passed to `clearInterval`, in order. */
    var clearedIntervals: seq<nat>

    /** Warning tags are never repeated. */
    ghost predicate Valid()
      reads this
    {
      NoDuplicates(warnings)
    }

    constructor(options: Options)
      ensures opts == options && Valid()
      ensures metrics == Metrics(0.0, 0.0, 0.0, false, options.chunkSize, 0.0)
      ensures !isOptimizing && warnings == [] && memoryMonitorInterval == None && clearedIntervals == []
    {
      opts := options;
      metrics := Metrics(0.0, 0.0, 0.0, false, options.chunkSize, 0.0);
      isOptimizing := false;
      warnings := [];
      processingStartTime := 0.0;
      memoryMonitorInterval := None;
      nextIntervalId := 1;
      clearedIntervals := [];
    }

    /** `startMemoryMonitoring`: arms the 1 s sampler when monitoring is enabled (an earlier handle is overwritten, not cleared). */
    method StartMemoryMonitoring()
      requires Valid()
      modifies this
      ensures opts.enableMemoryMonitoring ==> memoryMonitorInterval == Some(old(nextIntervalId)) && nextIntervalId == old(nextIntervalId) + 1
      ensures !opts.enableMemoryMonitoring ==> memoryMonitorInterval == old(memoryMonitorInterval) && nextIntervalId == old(nextIntervalId)
      ensures metrics == old(metrics) && warnings == old(warnings) && clearedIntervals == old(clearedIntervals)
      ensures isOptimizing == old(isOptimizing) && processingStartTime == old(processingStartTime)
      ensures Valid()
    {
      if !opts.enableMemoryMonitoring {
        return;
      }
      memoryMonitorInterval := Some(nextIntervalId);
      nextIntervalId := nextIntervalId + 1;
    }

    /** One firing of the sampler; `heapMB` is the used heap in MB, or `None` where `performance.memory` is missing. */
    method SampleMemory(heapMB: Option<real>)
      requires Valid()
      modifies this
      ensures heapMB.None? ==> metrics == old(metrics) && warnings == old(warnings)
      ensures heapMB.Some? ==> metrics == old(metrics).(memoryUsage := heapMB.value)
      ensures heapMB.Some? && heapMB.value > MEMORY_WARNING_MB && HIGH_MEMORY !in old(warnings) ==>
        warnings == old(warnings) + [HIGH_MEMORY]
      ensures heapMB.None? || heapMB.value <= MEMORY_WARNING_MB || HIGH_MEMORY in old(warnings) ==>
        warnings == old(warnings)
      ensures isOptimizing == old(isOptimizing) && memoryMonitorInterval == old(memoryMonitorInterval)
      ensures nextIntervalId == old(nextIntervalId) && clearedIntervals == old(clearedIntervals)
      ensures processingStartTime == old(processingStartTime)
      ensures Valid()
    {
      if heapMB.Some? {
        var memoryUsage := heapMB.value;
        metrics := metrics.(memoryUsage := memoryUsage);
        if memoryUsage > MEMORY_WARNING_MB && HIGH_MEMORY !in warnings {
          warnings := warnings + [HIGH_MEMORY];
        }
      }
    }

    /** `stopMemoryMonitoring`: clears the sampler only when one is armed, so a second call does nothing. */
    method StopMemoryMonitoring()
      requires Valid()
      modifies this
      ensures memoryMonitorInterval == None
      ensures old(memoryMonitorInterval).Some? ==> clearedIntervals == old(clearedIntervals) + [old(memoryMonitorInterval).value]
      ensures old(memoryMonitorInterval).None? ==> clearedIntervals == old(clearedIntervals)
      ensures metrics == old(metrics) && warnings == old(warnings) && isOptimizing == old(isOptimizing)
      ensures nextIntervalId == old(nextIntervalId) && processingStartTime == old(processingStartTime)
      ensures Valid()
    {
      if memoryMonitorInterval.Some? {
        clearedIntervals := clearedIntervals + [memoryMonitorInterval.value];
        memoryMonitorInterval := None;
      }
    }

    /** `analyzeFile(file)`: replaces the metrics and the warning list, and returns the new metrics. */
    method AnalyzeFileOf(sizeBytes: nat) returns (newMetrics: Metrics)
      requires Valid()
      modifies this
      ensures (newMetrics, warnings) == AnalyzeFile(opts, old(metrics.memoryUsage), sizeBytes)
      ensures metrics == newMetrics
      ensures isOptimizing == old(isOptimizing) && memoryMonitorInterval == old(memoryMonitorInterval)
      ensures nextIntervalId == old(nextIntervalId) && clearedIntervals == old(clearedIntervals)
      ensures processingStartTime == old(processingStartTime)
      ensures Valid()
    {
      var r := AnalyzeFile(opts, metrics.memoryUsage, sizeBytes);
      newMetrics := r.0;
      metrics := newMetrics;
      warnings := r.1;
    }

    /** `startOptimization` at `now` milliseconds. */
    method StartOptimization(now: real)
      requires Valid()
      modifies this
      ensures isOptimizing && processingStartTime == now
      ensures opts.enableMemoryMonitoring ==> memoryMonitorInterval == Some(old(nextIntervalId))
      ensures metrics == old(metrics) && warnings == old(warnings) && clearedIntervals == old(clearedIntervals)
      ensures Valid()
    {
      isOptimizing := true;
      processingStartTime := now;
      StartMemoryMonitoring();
    }

    /** `stopOptimization` at `now` milliseconds: records the elapsed seconds and stops the sampler. */
    method StopOptimization(now: real)
      requires Valid()
      modifies this
      ensures !isOptimizing
      ensures metrics == old(metrics).(processingTime := (now - old(processingStartTime)) / 1000.0)
      ensures memoryMonitorInterval == None && warnings == old(warnings)
      ensures Valid()
    {
      isOptimizing := false;
      var processingTime := (now - processingStartTime) / 1000.0;
      metrics := metrics.(processingTime := processingTime);
      StopMemoryMonitoring();
    }
  }
}

=== FILE: polyfills.dfy ===
/**
 * The compatibility helpers (`polyfills`): the `String.prototype.padStart` replacement, the
 * `mm:ss` time formatter and `Object.values` / `getObjectValues`.
 */
module Polyfills {
  import opened Common

  /** `s.repeat(n)`: `n` copies of `s` one after the other. */
  function Repeat(s: string, n: nat): (r: string)
    ensures |r| == n * |s|
  {
    if n == 0 then [] else s + Repeat(s, n - 1)
  }

  lemma MulMonotone(a: nat, b: nat, c: nat)
    requires a <= b
    ensures a * c <= b * c
  {
  }

  /** Position `k * |s| + r` of a repetition holds the pattern's character `r`. */
  lemma {:induction false} RepeatAt(s: string, n: nat, k: nat, r: nat)
    requires r < |s| && k < n
    ensures k * |s| + r < |Repeat(s, n)| && Repeat(s, n)[k * |s| + r] == s[r]
  {
    MulMonotone(k + 1, n, |s|);
    if k > 0 {
      RepeatAt(s, n - 1, k - 1, r);
      assert k * |s| + r - |s| == (k - 1) * |s| + r;
    }
  }

  /** Each character of a repetition is the pattern's character at the same position modulo its length. */
  lemma RepeatIndex(s: string, n: nat, j: nat)
    requires j < n * |s|
    ensures Repeat(s, n)[j] == s[j % |s|]
  {
    var q := j / |s|;
    var r := j % |s|;
    assert j == q * |s| + r;
    if q >= n {
      MulMonotone(n, q, |s|);
    }
    RepeatAt(s, n, q, r);
  }

  /** `k = m / p` copies plus one more are longer than `m`. */
  lemma OneMoreCopyCovers(m: nat, p: nat)
    requires p > 0
    ensures (m / p + 1) * p > m
  {
    assert m == (m / p) * p + m % p;
  }

  /**
   * The `padStart` replacement as written, for whole target lengths. With an empty pad string
   * and a string shorter than the target, `targetLength / padString.length` is Infinity and
   * `repeat` throws a RangeError.
   */
  function PadStart(s: string, targetLength: int, padString: string): (r: Result<string, string>)
    ensures |s| >= targetLength ==> r == Ok(s)
    ensures r.Err? <==> |s| < targetLength && padString == []
  {
    if |s| >= targetLength then Ok(s)
    else
      var missing := targetLength - |s|;
      if missing > |padString| then
        if |padString| == 0 then Err("RangeError")
        else Ok((padString + Repeat(padString, missing / |padString|))[..missing] + s)
      else Ok(padString[..missing] + s)
  }

  /** The pad repeated from its first character, cut to `missing` characters, when one copy is too short. */
  lemma LongPad(padString: string, missing: nat)
    requires 0 < |padString| < missing
    ensures var long := padString + Repeat(padString, missing / |padString|);
      && |long| > missing
      && forall i :: 0 <= i < missing ==> long[i] == padString[i % |padString|]
  {
    var k := missing / |padString|;
    var long := padString + Repeat(padString, k);
    assert long == Repeat(padString, k + 1);
    OneMoreCopyCovers(missing, |padString|);
    forall i | 0 <= i < missing
      ensures long[i] == padString[i % |padString|]
    {
      RepeatIndex(padString, k + 1, i);
    }
  }

  /**
   * A string shorter than the target, with a non-empty pad, comes back exactly as long as the
   * target, ending with the string and preceded by the pad repeated from its first character.
   */
  lemma PadStartPads(s: string, targetLength: int, padString: string)
    requires |s| < targetLength && padString != []
    ensures var r := PadStart(s, targetLength, padString);
      var missing := targetLength - |s|;
      && r.Ok?
      && |r.value| == targetLength
      && r.value[missing..] == s
      && forall i :: 0 <= i < missing ==> r.value[i] == padString[i % |padString|]
  {
    var missing := targetLength - |s|;
    var prefix := if missing > |padString| then (padString + Repeat(padString, missing / |padString|))[..missing]
                  else padString[..missing];
    assert PadStart(s, targetLength, padString) == Ok(prefix + s);
    if missing > |padString| {
      LongPad(padString, missing);
    } else {
      forall i | 0 <= i < missing
        ensures prefix[i] == padString[i % |padString|]
      {
        assert i % |padString| == i;
      }
    }
    assert (prefix + s)[missing..] == s;
  }

  /** The intended padding: like the built-in `padStart`, an empty pad leaves the string unchanged. */
  function PadStartIntended(s: string, targetLength: int, padString: string): (r: string)
    ensures padString == [] ==> r == s
    ensures padString != [] ==> PadStart(s, targetLength, padString) == Ok(r)
  {
    if padString == [] then s
    else
      match PadStart(s, targetLength, padString)
      case Ok(padded) => padded
      case Err(_) => assert false; s
  }

  /** `"7".padStart(2, "")` fails with the replacement, where the built-in returns "7". */
  lemma EmptyPadFails()
    ensures PadStart("7", 2, "").Err?
    ensures PadStartIntended("7", 2, "") == "7"
  {
  }

  /** Seconds written with two digits, with a leading '0' below ten. */
  function TwoDigits(n: nat): (d: string)
    requires n < 100
    ensures |d| == 2 && (n < 10 <==> d[0] == '0')
  {
    [DigitChar(n / 10), DigitChar(n % 10)]
  }

  /** `formatTime`: "m:ss" from whole minutes and the whole seconds left over. */
  function FormatTime(seconds: real): (text: string)
    ensures seconds >= 0.0 ==>
      |text| >= 4 && text[|text| - 3] == ':' && '0' <= text[|text| - 2] <= '5' && '0' <= text[|text| - 1] <= '9'
  {
    var mins := Floor(seconds / 60.0);
    var secsStr := IntToString(Floor(Rem60(seconds)));
    var padded := if |secsStr| < 2 then "0" + secsStr else secsStr;
    assert seconds >= 0.0 ==> padded == TwoDigits(Floor(Rem60(seconds))) by {
      if seconds >= 0.0 {
        PaddedSeconds(Floor(Rem60(seconds)));
      }
    }
    IntToString(mins) + ":" + padded
  }

  /** Whole seconds below a minute, padded to two characters with a leading '0', are their two digits. */
  lemma PaddedSeconds(secs: int)
    requires 0 <= secs < 60
    ensures var text := IntToString(secs); (if |text| < 2 then "0" + text else text) == TwoDigits(secs)
  {
    NatToStringLength(secs);
    if secs >= 10 {
      assert NatToString(secs) == NatToString(secs / 10) + [DigitChar(secs % 10)];
    }
  }

  /**
   * For a non-negative time, the minutes and the 0-59 seconds shown recombine to the whole
   * seconds elapsed, and the seconds always take two digits.
   */
  lemma FormatTimeParts(seconds: real)
    requires seconds >= 0.0
    ensures var mins := Floor(seconds / 60.0);
      var secs := Floor(Rem60(seconds));
      && 0 <= secs < 60
      && mins >= 0
      && mins * 60 + secs == Floor(seconds)
      && FormatTime(seconds) == NatToString(mins) + ":" + TwoDigits(secs)
  {
    var mins := Floor(seconds / 60.0);
    assert Trunc(seconds / 60.0) == mins;
    var secs := Floor(Rem60(seconds));
    assert Floor(seconds) == mins * 60 + secs by {
      assert seconds == mins as real * 60.0 + Rem60(seconds);
      assert (mins * 60 + secs) as real <= seconds < (mins * 60 + secs) as real + 1.0;
    }
    if secs >= 10 {
      assert NatToString(secs) == NatToString(secs / 10) + [DigitChar(secs % 10)];
    }
  }

  /**
   * An object's own enumerable properties, in the order `Object.keys` lists them. The model
   * takes the keys as distinct.
   */
  type Entries<T> = seq<(string, T)>

  ghost predicate DistinctKeys<T>(obj: Entries<T>)
  {
    forall i, j :: 0 <= i < j < |obj| ==> obj[i].0 != obj[j].0
  }

  /** The object as a key-to-value lookup. */
  function Lookup<T>(obj: Entries<T>): map<string, T>
  {
    if |obj| == 0 then map[] else Lookup(obj[..|obj| - 1])[obj[|obj| - 1].0 := obj[|obj| - 1].1]
  }

  /** `Object.values` (its replacement) and `getObjectValues`: `obj[key]` for each key, in key order. */
  function ObjectValues<T>(obj: Entries<T>): (values: seq<T>)
    ensures |values| == |obj|
  {
    if |obj| == 0 then [] else ObjectValues(obj[..|obj| - 1]) + [Lookup(obj)[obj[|obj| - 1].0]]
  }

  /** One value per key, and the value at each position is the one the object stores under that position's key. */
  lemma {:induction false} ObjectValuesInKeyOrder<T>(obj: Entries<T>)
    requires DistinctKeys(obj)
    ensures |ObjectValues(obj)| == |obj|
    ensures forall i :: 0 <= i < |obj| ==> obj[i].0 in Lookup(obj) && ObjectValues(obj)[i] == Lookup(obj)[obj[i].0] == obj[i].1
  {
    if |obj| > 0 {
      var init := obj[..|obj| - 1];
      ObjectValuesInKeyOrder(init);
      forall i | 0 <= i < |obj|
        ensures obj[i].0 in Lookup(obj) && ObjectValues(obj)[i] == Lookup(obj)[obj[i].0] == obj[i].1
      {
        if i < |obj| - 1 {
          assert init[i] == obj[i];
          assert obj[i].0 != obj[|obj| - 1].0;
        }
      }
    }
  }
}

=== FILE: server.dfy ===
/**
 * The processing API (`main.py`): upload validation, the in-memory task table and its status
 * and progress transitions, and the status, download and export endpoints with their error gates.
 * Audio analysis, synthesis and encoding happen outside the model; their outcomes are inputs.
 */
module Server {
  import opened Common
  import opened Types
  import AudioUpload
  import AudioExport

  /* ---------------------------------------------------------------- upload validation */

  /** Content types the API accepts, each with its allowed extensions. */
  const SUPPORTED_FORMATS: map<string, seq<string>> := map[
    "audio/mpeg" := [".mp3"],
    "audio/wav" := [".wav"],
    "audio/x-wav" := [".wav"],
    "audio/flac" := [".flac"],
    "audio/aac" := [".aac"],
    "audio/mp4" := [".m4a"],
    "audio/ogg" := [".ogg"]
  ]

  /** `s.rfind(c)`: the last position of `c`, or -1. */
  function LastIndexOf(s: string, c: char): (r: int)
    ensures -1 <= r < |s|
    ensures r >= 0 ==> s[r] == c
    ensures forall j :: r < j < |s| ==> s[j] != c
  {
    if |s| == 0 then -1
    else if s[|s| - 1] == c then |s| - 1
    else LastIndexOf(s[..|s| - 1], c)
  }

  /** The last occurrence is the one with none after it; no occurrence gives -1. */
  lemma LastIndexOfIs(s: string, c: char, k: int)
    requires -1 <= k < |s| && (k >= 0 ==> s[k] == c)
    requires forall j :: k < j < |s| ==> s[j] != c
    ensures LastIndexOf(s, c) == k
  {
  }

  /**
   * `Path(filename).suffix`: from the last dot on, when that dot lies in the last path component
   * and neither leads nor ends it; otherwise empty.
   */
  function Suffix(filename: string): (ext: string)
    ensures ext == [] || (2 <= |ext| < |filename| && ext[0] == '.' && filename[|filename| - |ext|..] == ext)
  {
    var slash := LastIndexOf(filename, '/');
    var dot := LastIndexOf(filename, '.');
    if slash + 1 < dot < |filename| - 1 then filename[dot..] else []
  }

  /** A suffix is empty or a dot followed by at least one character, none of them a dot or a slash. */
  lemma SuffixShape(filename: string)
    ensures var ext := Suffix(filename);
      ext == [] || (|ext| >= 2 && ext[0] == '.' && forall j :: 1 <= j < |ext| ==> ext[j] != '.' && ext[j] != '/')
  {
    var slash := LastIndexOf(filename, '/');
    var dot := LastIndexOf(filename, '.');
    if slash + 1 < dot < |filename| - 1 {
      var ext := filename[dot..];
      forall j | 1 <= j < |ext|
        ensures ext[j] != '.' && ext[j] != '/'
      {
        assert ext[j] == filename[dot + j];
      }
    }
  }

  /**
   * `validate_audio_file`: the content type must be given and supported, and a non-empty file
   * name must carry one of that type's extensions, compared in lower case.
   */
  function ValidateAudioFile(contentType: Option<string>, filename: string): (accepted: bool)
    ensures accepted ==> contentType.Some? && contentType.value in SUPPORTED_FORMATS
    ensures contentType.Some? && contentType.value in SUPPORTED_FORMATS && filename == "" ==> accepted
    ensures accepted && filename != "" ==> Suffix(filename) != []
  {
    if contentType.None? || contentType.value == "" then false
    else if contentType.value !in SUPPORTED_FORMATS then false
    else if filename != "" && Lower(Suffix(filename)) !in SUPPORTED_FORMATS[contentType.value] then false
    else true
  }

  /**
   * Extensions are matched without regard to case, the type must agree with the extension, a
   * name whose only dot leads it has no extension, and a missing content type is refused.
   */
  lemma ValidationExamples()
    ensures ValidateAudioFile(Some("audio/mpeg"), "Song.MP3")
    ensures !ValidateAudioFile(Some("audio/wav"), "take.mp3")
    ensures !ValidateAudioFile(Some("audio/mpeg"), ".mp3")
    ensures ValidateAudioFile(Some("audio/ogg"), "")
    ensures !ValidateAudioFile(None, "song.mp3")
  {
    LastIndexOfIs("Song.MP3", '/', -1);
    LastIndexOfIs("Song.MP3", '.', 4);
    assert Lower(".MP3") == ".mp3";
    LastIndexOfIs("take.mp3", '/', -1);
    LastIndexOfIs("take.mp3", '.', 4);
    LastIndexOfIs(".mp3", '/', -1);
    LastIndexOfIs(".mp3", '.', 0);
  }

  /** `s` ends, after lower-casing, with `ext`, and has something before it. */
  predicate EndsWithIgnoringCase(s: string, ext: string)
  {
    |ext| < |s| && Lower(s[|s| - |ext|..]) == ext
  }

  /**
   * An accepted file has a supported content type, and a named one ends, in any case, with one
   * of the extensions listed for that type.
   */
  lemma AcceptedFileCarriesExtension(contentType: Option<string>, filename: string)
    requires ValidateAudioFile(contentType, filename)
    ensures contentType.Some? && contentType.value in SUPPORTED_FORMATS
    ensures filename != "" ==>
      exists k :: 0 <= k < |SUPPORTED_FORMATS[contentType.value]| && EndsWithIgnoringCase(filename, SUPPORTED_FORMATS[contentType.value][k])
  {
    if filename != "" {
      var extensions := SUPPORTED_FORMATS[contentType.value];
      var ext := Suffix(filename);
      var dot := LastIndexOf(filename, '.');
      assert ext != [] by {
        assert Lower(ext) in extensions;
      }
      assert ext == filename[dot..];
      assert filename[|filename| - |ext|..] == ext;
      var k :| 0 <= k < |extensions| && extensions[k] == Lower(ext);
      assert EndsWithIgnoringCase(filename, extensions[k]);
    }
  }

  /**
   * The drop zone and the API agree on every type but one: an M4A file, which the drop zone
   * offers as "audio/x-m4a", is refused by the API, which expects "audio/mp4".
   */
  lemma ClientAndServerFormats()
    ensures forall t :: t in AudioUpload.ACCEPTED_FORMATS && t != "audio/x-m4a" ==>
      t in SUPPORTED_FORMATS && SUPPORTED_FORMATS[t] == AudioUpload.ACCEPTED_FORMATS[t]
    ensures "audio/x-m4a" in AudioUpload.ACCEPTED_FORMATS && "audio/x-m4a" !in SUPPORTED_FORMATS
    ensures !ValidateAudioFile(Some("audio/x-m4a"), "voice.m4a")
    ensures SUPPORTED_FORMATS["audio/mp4"] == AudioUpload.ACCEPTED_FORMATS["audio/x-m4a"]
  {
  }

  /* ---------------------------------------------------------------- errors */

  /** An exception raised inside an endpoint: an `HTTPException`, or any other failure with its text. */
  datatype Failure = Raised(status: nat, detail: string) | Crashed(message: string)

  datatype HttpError = HttpError(status: nat, detail: string)

  /** `str(e)`: an HTTP exception renders as "status: detail". */
  function Render(f: Failure): string
  {
    match f
    case Raised(status, detail) => NatToString(status) + ": " + detail
    case Crashed(message) => message
  }

  /** `except Exception as e: raise HTTPException(500, prefix + str(e))`, as written: every failure becomes a 500. */
  function CatchAllAsWritten(prefix: string, f: Failure): (e: HttpError)
    ensures e.status == 500
  {
    HttpError(500, prefix + Render(f))
  }

  /** The intended handler: an HTTP exception passes through with its own status; other failures become a 500. */
  function CatchAllIntended(prefix: string, f: Failure): (e: HttpError)
    ensures f.Raised? ==> e == HttpError(f.status, f.detail)
    ensures f.Crashed? ==> e == CatchAllAsWritten(prefix, f)
  {
    match f
    case Raised(status, detail) => HttpError(status, detail)
    case Crashed(_) => CatchAllAsWritten(prefix, f)
  }

  const PROCESS_PREFIX: string := "Erreur lors du traitement: "
  const UPLOAD_PREFIX: string := "Erreur lors de l'upload: "
  const EXPORT_PREFIX: string := "Erreur lors de l'export: "
  const NOT_FOUND_FILE: string := "Fichier non trouvé"
  const UNSUPPORTED: string := "Format de fichier non supporté"

  /** The 404 for an unknown upload and the 400 for an unsupported format reach the client as 500s. */
  lemma GatesSwallowed()
    ensures CatchAllAsWritten(PROCESS_PREFIX, Raised(404, NOT_FOUND_FILE)) == HttpError(500, PROCESS_PREFIX + "404: " + NOT_FOUND_FILE)
    ensures CatchAllAsWritten(UPLOAD_PREFIX, Raised(400, UNSUPPORTED)) == HttpError(500, UPLOAD_PREFIX + "400: " + UNSUPPORTED)
    ensures CatchAllIntended(PROCESS_PREFIX, Raised(404, NOT_FOUND_FILE)) == HttpError(404, NOT_FOUND_FILE)
    ensures CatchAllIntended(UPLOAD_PREFIX, Raised(400, UNSUPPORTED)) == HttpError(400, UNSUPPORTED)
  {
  }

  /* ---------------------------------------------------------------- task table */

  datatype TaskStatus = TaskProcessing | TaskCompleted | TaskError

  /** An entry of `processing_tasks`. */
  datatype Task = Task(status: TaskStatus, progress: nat, message: string, fileId: string, outputPath: Option<string>)

  /** What librosa reports for an uploaded file. */
  datatype Analysis = Analysis(duration: real, bpm: real, key: string, channels: nat)

  /** `AudioAnalysisResponse`. */
  datatype AnalysisResponse = AnalysisResponse(fileId: string, filename: string, duration: real, bpm: real,
                                               key: string, sampleRate: nat, channels: nat)

  /** `ProcessingStatusResponse`; the table never stores an `error` key, so it is always absent. */
  datatype StatusResponse = StatusResponse(status: TaskStatus, progress: nat, message: Option<string>, error: Option<string>)

  /** A `FileResponse`: the path served, its media type and the download name. */
  datatype FileReply = FileReply(path: string, mediaType: string, downloadName: string)

  /** The background job's progress checkpoints and their messages. */
  const CHECKPOINTS: seq<nat> := [10, 30, 50, 70, 90]

  function CheckpointMessage(progress: nat): (message: string)
    ensures message != INITIAL_MESSAGE && message != DONE_MESSAGE
    ensures |message| > 3 && message[|message| - 3..] == "..."
  {
    if progress == 10 then "Chargement de l'audio..."
    else if progress == 30 then "Application des transformations..."
    else if progress == 50 then "Ajustement du tuning..."
    else if progress == 70 then "Génération des battements binauraux..."
    else "Application de la fréquence thérapeutique..."
  }

  /** The five checkpoints are distinct, rise, and each reports its own message. */
  lemma CheckpointMessagesDistinct()
    ensures forall i, j :: 0 <= i < j < |CHECKPOINTS| ==>
      CHECKPOINTS[i] < CHECKPOINTS[j] && CheckpointMessage(CHECKPOINTS[i]) != CheckpointMessage(CHECKPOINTS[j])
  {
  }

  const DONE_MESSAGE: string := "Traitement terminé avec succès"
  const INITIAL_MESSAGE: string := "Initialisation du traitement..."
  const TASK_NOT_FOUND: string := "Tâche non trouvée"
  const NOT_FINISHED: string := "Traitement non terminé"
  const OUTPUT_NOT_FOUND: string := "Fichier traité non trouvé"

  function ProcessedPath(taskId: string): string
  {
    "processed/processed_" + taskId + ".wav"
  }

  /** `input_path.parent / f"{input_path.stem}_export.{format}"` for a processed file. */
  function ExportPath(taskId: string, format: ExportFormat): (path: string)
    ensures path != ProcessedPath(taskId)
  {
    var p := "processed/processed_" + taskId + "_export." + FormatName(format);
    assert |p| == |ProcessedPath(taskId)| + 7;
    p
  }

  function FormatName(format: ExportFormat): (name: string)
    ensures |name| == 3
  {
    match format
    case Mp3 => "mp3"
    case Wav => "wav"
  }

  /**
   * The API names each export format as the export screen does, so a file the client saves under
   * its own name carries the extension of the encoding the server produced.
   */
  lemma FormatNamesAgree(format: ExportFormat)
    ensures FormatName(format) == AudioExport.Extension(format)
  {
  }

  /** How an export is produced: MP3 at 320k (high) or 192k, WAV re-encoded as 24-bit PCM (high) or copied. */
  datatype Encoding = Mp3At(bitrate: string) | Wav24 | WavCopy

  function ExportEncoding(format: ExportFormat, quality: ExportQuality): (e: Encoding)
    ensures format == Mp3 <==> e.Mp3At?
    ensures e.Mp3At? ==> (e.bitrate == "320k" <==> quality == High)
    ensures format == Wav ==> (e == Wav24 <==> quality == High)
  {
    match format
    case Mp3 => Mp3At(if quality == High then "320k" else "192k")
    case Wav => if quality == High then Wav24 else WavCopy
  }

  /** `brainwave_frequencies` of the binaural generator (Hz). */
  function BeatFrequency(kind: Brainwave): real
  {
    match kind
    case Delta => 2.0
    case Theta => 6.0
    case Alpha => 10.0
    case Beta => 20.0
    case Gamma => 40.0
  }

  /** The server's beat frequencies are the client table's nominal brainwave frequencies. */
  lemma BeatFrequenciesMatchClientTable()
    ensures forall i :: 0 <= i < |BRAINWAVE_FREQUENCIES| ==>
      BeatFrequency(BRAINWAVE_FREQUENCIES[i].kind) == BRAINWAVE_FREQUENCIES[i].frequency
  {
  }

  /** The first stored upload of `fileId` (the `{file_id}_*` glob), if any. */
  function FindUpload(uploads: seq<string>, fileId: string): (r: Option<string>)
    ensures r.None? <==> forall i :: 0 <= i < |uploads| ==> !(|fileId| + 1 <= |uploads[i]| && uploads[i][..|fileId| + 1] == fileId + "_")
    ensures r.Some? ==> r.value in uploads && |fileId| + 1 <= |r.value| && r.value[..|fileId| + 1] == fileId + "_"
  {
    if |uploads| == 0 then None
    else if |fileId| + 1 <= |uploads[0]| && uploads[0][..|fileId| + 1] == fileId + "_" then Some(uploads[0])
    else FindUpload(uploads[1..], fileId)
  }

  /** The server's state: the upload directory, the processing task table and the processed files on disk. */
  class Backend {
    var uploads: seq<string>
    var tasks: map<string, Task>
    var processedFiles: set<string>

    /** Progress never exceeds 100; a completed task is at 100 with its output file; a running one has none. */
    predicate Valid()
      reads this
    {
      forall t :: t in tasks ==>
        && tasks[t].progress <= 100
        && (tasks[t].status == TaskCompleted ==> tasks[t].progress == 100 && tasks[t].outputPath == Some(ProcessedPath(t)))
        && (tasks[t].status == TaskProcessing ==> tasks[t].outputPath.None?)
    }

    constructor()
      ensures uploads == [] && tasks == map[] && processedFiles == {} && Valid()
    {
      uploads := [];
      tasks := map[];
      processedFiles := {};
    }

    /**
     * `upload_audio` (with the intended status codes): an unsupported file is refused with a 400
     * and nothing stored; otherwise it is stored under `fileId_filename` before analysis, and
     * the analysis either answers with sample rate 44100 or fails with a 500.
     */
    method UploadAudio(contentType: Option<string>, filename: string, fileId: string, analysis: Result<Analysis, string>)
      returns (reply: Result<AnalysisResponse, HttpError>)
      requires Valid()
      modifies this
      ensures Valid() && tasks == old(tasks) && processedFiles == old(processedFiles)
      ensures !ValidateAudioFile(contentType, filename) ==> reply == Err(HttpError(400, UNSUPPORTED)) && uploads == old(uploads)
      ensures ValidateAudioFile(contentType, filename) ==> uploads == old(uploads) + [fileId + "_" + filename]
      ensures ValidateAudioFile(contentType, filename) && analysis.Err? ==>
        reply == Err(HttpError(500, UPLOAD_PREFIX + analysis.error))
      ensures ValidateAudioFile(contentType, filename) && analysis.Ok? ==>
        reply == Ok(AnalysisResponse(fileId, filename, analysis.value.duration, analysis.value.bpm,
                                     analysis.value.key, 44100, analysis.value.channels))
    {
      var accepted := ValidateAudioFile(contentType, filename);
      if !accepted {
        reply := Err(CatchAllIntended(UPLOAD_PREFIX, Raised(400, UNSUPPORTED)));
      } else {
        uploads := uploads + [fileId + "_" + filename];
        match analysis {
          case Err(message) =>
            reply := Err(CatchAllIntended(UPLOAD_PREFIX, Crashed(message)));
          case Ok(a) =>
            reply := Ok(AnalysisResponse(fileId, filename, a.duration, a.bpm, a.key, 44100, a.channels));
        }
      }
    }

    /**
     * `process_audio` (with the intended status code): an unknown upload is a 404; otherwise a
     * new task starts processing at 0 and its id is returned. The background job runs later.
     */
    method ProcessAudio(fileId: string, taskId: string) returns (reply: Result<string, HttpError>)
      requires Valid()
      modifies this
      ensures Valid() && uploads == old(uploads) && processedFiles == old(processedFiles)
      ensures FindUpload(uploads, fileId).None? ==> reply == Err(HttpError(404, NOT_FOUND_FILE)) && tasks == old(tasks)
      ensures FindUpload(uploads, fileId).Some? ==>
        reply == Ok(taskId) && tasks == old(tasks)[taskId := Task(TaskProcessing, 0, INITIAL_MESSAGE, fileId, None)]
    {
      if FindUpload(uploads, fileId).None? {
        reply := Err(CatchAllIntended(PROCESS_PREFIX, Raised(404, NOT_FOUND_FILE)));
        return;
      }
      tasks := tasks[taskId := Task(TaskProcessing, 0, INITIAL_MESSAGE, fileId, None)];
      reply := Ok(taskId);
    }

    /**
     * One checkpoint of the background job: the processing task's message and progress move to `p`; if the
     * work fails there (`failAt`), the processing task ends in error with "Erreur: " and the failure's text,
     * keeping progress `p`. Only this task changes: the table is `base` with this entry replaced.
     */
    method Reach(ghost base: map<string, Task>, ghost fileId: string, taskId: string, p: nat, message: string,
                 failAt: Option<nat>, error: string)
      returns (failed: bool)
      requires Valid() && taskId in tasks && tasks[taskId].status == TaskProcessing && tasks[taskId].fileId == fileId && p <= 100
      requires message == CheckpointMessage(p)
      requires tasks == base[taskId := tasks[taskId]]
      modifies this
      ensures Valid() && uploads == old(uploads) && processedFiles == old(processedFiles)
      ensures failed <==> failAt == Some(p)
      ensures !failed ==> tasks == base[taskId := Task(TaskProcessing, p, message, fileId, None)]
      ensures failed ==> tasks == base[taskId := Task(TaskError, p, "Erreur: " + error, fileId, None)]
    {
      var task := tasks[taskId].(message := message, progress := p);
      failed := failAt == Some(p);
      if failed {
        task := task.(status := TaskError, message := "Erreur: " + error);
      }
      tasks := tasks[taskId := task];
      assert tasks == base[taskId := task];
    }

    /**
     * The checkpoints 10, 30, 50, 70 and 90 of `process_audio_background`, in order. The job
     * stops at the checkpoint `failAt` names, leaving the processing task in error there; otherwise the processing task
     * is still processing at 90.
     */
    method RunCheckpoints(ghost base: map<string, Task>, ghost fileId: string, taskId: string, failAt: Option<nat>, error: string)
      returns (failed: bool)
      requires Valid() && taskId in tasks && tasks[taskId].status == TaskProcessing && tasks[taskId].fileId == fileId
      requires tasks == base[taskId := tasks[taskId]]
      requires failAt.Some? ==> failAt.value in CHECKPOINTS
      modifies this
      ensures Valid() && uploads == old(uploads) && processedFiles == old(processedFiles)
      ensures failed <==> failAt.Some?
      ensures failed ==> tasks == base[taskId := Task(TaskError, failAt.value, "Erreur: " + error, fileId, None)]
      ensures !failed ==> tasks == base[taskId := Task(TaskProcessing, 90, CheckpointMessage(90), fileId, None)]
    {
      failed := Reach(base, fileId, taskId, 10, CheckpointMessage(10), failAt, error);
      if failed { return; }
      failed := Reach(base, fileId, taskId, 30, CheckpointMessage(30), failAt, error);
      if failed { return; }
      failed := Reach(base, fileId, taskId, 50, CheckpointMessage(50), failAt, error);
      if failed { return; }
      failed := Reach(base, fileId, taskId, 70, CheckpointMessage(70), failAt, error);
      if failed { return; }
      failed := Reach(base, fileId, taskId, 90, CheckpointMessage(90), failAt, error);
    }

    /**
     * `process_audio_background`: the processing task passes the checkpoints 10, 30, 50, 70 and 90. `failAt`
     * is the checkpoint after which the work raises `error`, if any: the processing task then ends in error
     * at that progress. Otherwise the processed file is written and the processing task ends completed at
     * 100 with its output path. No other task and no upload changes.
     */
    method ProcessBackground(taskId: string, failAt: Option<nat>, error: string)
      requires Valid() && taskId in tasks && tasks[taskId].status == TaskProcessing
      requires failAt.Some? ==> failAt.value in CHECKPOINTS
      modifies this
      ensures Valid() && uploads == old(uploads)
      ensures failAt.None? ==>
        && tasks == old(tasks)[taskId := Task(TaskCompleted, 100, DONE_MESSAGE, old(tasks)[taskId].fileId, Some(ProcessedPath(taskId)))]
        && processedFiles == old(processedFiles) + {ProcessedPath(taskId)}
      ensures failAt.Some? ==>
        && tasks == old(tasks)[taskId := Task(TaskError, failAt.value, "Erreur: " + error, old(tasks)[taskId].fileId, None)]
        && processedFiles == old(processedFiles)
    {
      ghost var base := tasks;
      ghost var fileId := tasks[taskId].fileId;
      assert tasks == base[taskId := tasks[taskId]];
      var failed := RunCheckpoints(base, fileId, taskId, failAt, error);
      if failed { return; }
      processedFiles := processedFiles + {ProcessedPath(taskId)};
      tasks := tasks[taskId := Task(TaskCompleted, 100, DONE_MESSAGE, tasks[taskId].fileId, Some(ProcessedPath(taskId)))];
      assert tasks == base[taskId := Task(TaskCompleted, 100, DONE_MESSAGE, fileId, Some(ProcessedPath(taskId)))];
    }

    /** `get_processing_status`: 404 for an unknown task; otherwise its status, progress and message. */
    method GetStatus(taskId: string) returns (reply: Result<StatusResponse, HttpError>)
      requires Valid()
      ensures taskId !in tasks ==> reply == Err(HttpError(404, TASK_NOT_FOUND))
      ensures taskId in tasks ==>
        reply == Ok(StatusResponse(tasks[taskId].status, tasks[taskId].progress, Some(tasks[taskId].message), None))
      ensures reply.Ok? ==> reply.value.progress <= 100 && (reply.value.status == TaskCompleted ==> reply.value.progress == 100)
    {
      if taskId !in tasks {
        return Err(HttpError(404, TASK_NOT_FOUND));
      }
      var task := tasks[taskId];
      reply := Ok(StatusResponse(task.status, task.progress, Some(task.message), None));
    }

    /** `download_processed_audio`: 404 unknown task, 400 unfinished, 404 missing file; else the WAV. */
    method Download(taskId: string) returns (reply: Result<FileReply, HttpError>)
      requires Valid()
      ensures taskId !in tasks ==> reply == Err(HttpError(404, TASK_NOT_FOUND))
      ensures taskId in tasks && tasks[taskId].status != TaskCompleted ==> reply == Err(HttpError(400, NOT_FINISHED))
      ensures taskId in tasks && tasks[taskId].status == TaskCompleted && ProcessedPath(taskId) !in processedFiles ==>
        reply == Err(HttpError(404, OUTPUT_NOT_FOUND))
      ensures reply.Ok? <==> taskId in tasks && tasks[taskId].status == TaskCompleted && ProcessedPath(taskId) in processedFiles
      ensures reply.Ok? ==>
        reply.value == FileReply(ProcessedPath(taskId), "audio/wav", "harmonia_transformed_" + taskId + ".wav")
    {
      if taskId !in tasks {
        return Err(HttpError(404, TASK_NOT_FOUND));
      }
      var task := tasks[taskId];
      if task.status != TaskCompleted {
        return Err(HttpError(400, NOT_FINISHED));
      }
      var path := task.outputPath.value;
      if path !in processedFiles {
        return Err(HttpError(404, OUTPUT_NOT_FOUND));
      }
      reply := Ok(FileReply(path, "audio/wav", "harmonia_transformed_" + taskId + ".wav"));
    }

    /**
     * `export_audio`: 404 unknown task, 400 unfinished; otherwise the conversion (whose failure,
     * `conversionError`, gives a 500) writes `<stem>_export.<format>` next to the processed file.
     */
    method Export(taskId: string, format: ExportFormat, quality: ExportQuality, conversionError: Option<string>)
      returns (reply: Result<(FileReply, Encoding), HttpError>)
      requires Valid()
      modifies this
      ensures Valid() && uploads == old(uploads) && tasks == old(tasks)
      ensures taskId !in tasks ==> reply == Err(HttpError(404, TASK_NOT_FOUND)) && processedFiles == old(processedFiles)
      ensures taskId in tasks && tasks[taskId].status != TaskCompleted ==>
        reply == Err(HttpError(400, NOT_FINISHED)) && processedFiles == old(processedFiles)
      ensures taskId in tasks && tasks[taskId].status == TaskCompleted && conversionError.Some? ==>
        reply == Err(HttpError(500, EXPORT_PREFIX + conversionError.value)) && processedFiles == old(processedFiles)
      ensures taskId in tasks && tasks[taskId].status == TaskCompleted && conversionError.None? ==>
        && reply == Ok((FileReply(ExportPath(taskId, format), "audio/" + FormatName(format),
                                  "harmonia_export_" + taskId + "." + FormatName(format)),
                        ExportEncoding(format, quality)))
        && processedFiles == old(processedFiles) + {ExportPath(taskId, format)}
    {
      if taskId !in tasks {
        return Err(HttpError(404, TASK_NOT_FOUND));
      }
      if tasks[taskId].status != TaskCompleted {
        return Err(HttpError(400, NOT_FINISHED));
      }
      if conversionError.Some? {
        return Err(CatchAllIntended(EXPORT_PREFIX, Crashed(conversionError.value)));
      }
      var output := ExportPath(taskId, format);
      processedFiles := processedFiles + {output};
      var name := FormatName(format);
      reply := Ok((FileReply(output, "audio/" + name, "harmonia_export_" + taskId + "." + name), ExportEncoding(format, quality)));
    }
  }

  /** A processed task is downloadable right after its background job completes. */
  method UploadProcessDownload(filename: string, fileId: string, taskId: string, analysis: Analysis)
    returns (download: Result<FileReply, HttpError>)
    requires Lower(Suffix(filename)) == ".wav"
    ensures download.Ok? && download.value.path == ProcessedPath(taskId)
  {
    var backend := new Backend();
    var uploaded := backend.UploadAudio(Some("audio/wav"), filename, fileId, Ok(analysis));
    assert FindUpload(backend.uploads, fileId).Some? by {
      assert backend.uploads[0][..|fileId| + 1] == fileId + "_";
    }
    var started := backend.ProcessAudio(fileId, taskId);
    backend.ProcessBackground(taskId, None, "");
    download := backend.Download(taskId);
  }
}

=== FILE: simple_audio_player.dfy ===
/**
 * The element player (`SimpleAudioPlayer`): its own `isPlaying`, `currentTime`, `duration` and
 * `isLoading`, an `<audio>` element whose volume and time it writes, and the parent's volume and
 * mute props, which it only asks to change.
 */
module SimpleAudioPlayer {
  import opened Common
  import opened Types

  /** The seek slider's percentage `p` as a time: p / 100 of the duration. */
  function SeekTime(percent: real, duration: real): (t: real)
    ensures duration >= 0.0 && 0.0 <= percent <= 100.0 ==> 0.0 <= t <= duration
    ensures percent == 0.0 ==> t == 0.0
    ensures percent == 100.0 ==> t == duration
    ensures duration > 0.0 ==> PlaybackProgress(t, duration) == percent
  {
    var t := percent / 100.0 * duration;
    if duration > 0.0 then
      RatioBound(t, duration);
      t
    else t
  }

  /** The element's volume for the 0-100 volume prop. */
  function ElementVolume(volume: real, muted: bool): (v: real)
    ensures muted ==> v == 0.0
    ensures !muted ==> v * 100.0 == volume
    ensures 0.0 <= volume <= 100.0 ==> 0.0 <= v <= 1.0
  {
    if muted then 0.0 else volume / 100.0
  }

  class SimpleAudioPlayer {
    var isPlaying: bool
    var currentTime: real
    var duration: real
    var isLoading: bool
    var elementPlaying: bool
    var elementTime: real
    var elementVolume: real
    var requests: seq<PropCallback>

    /**
     * The element plays only while the component says it does. The converse can fail: loading a
     * new file pauses the element, but leaves the component's flag as it was.
     */
    ghost predicate Valid()
      reads this
    {
      (elementPlaying ==> isPlaying) && duration >= 0.0
    }

    constructor()
      ensures !isPlaying && currentTime == 0.0 && duration == 0.0 && !isLoading && requests == [] && Valid()
    {
      isPlaying := false;
      currentTime := 0.0;
      duration := 0.0;
      isLoading := false;
      elementPlaying := false;
      elementTime := 0.0;
      elementVolume := 1.0;
      requests := [];
    }

    /**
     * The load effect for a file: the element gets the file and loading starts. Assigning the
     * element's source runs the media load algorithm, which pauses the element and rewinds it
     * to 0; the component's own flag and time are not touched, so a reload during playback
     * leaves the component showing "playing" over a paused element.
     */
    method LoadFile()
      requires Valid()
      modifies this
      ensures isLoading
      ensures !elementPlaying && elementTime == 0.0
      ensures isPlaying == old(isPlaying) && currentTime == old(currentTime) && duration == old(duration)
      ensures elementVolume == old(elementVolume) && requests == old(requests)
      ensures Valid()
    {
      elementPlaying := false;
      elementTime := 0.0;
      isLoading := true;
    }

    /** `loadedmetadata`: the element reports the file's duration. */
    method HandleLoadedMetadata(elementDuration: real)
      requires Valid() && elementDuration >= 0.0
      modifies this
      ensures duration == elementDuration && !isLoading
      ensures isPlaying == old(isPlaying) && currentTime == old(currentTime)
      ensures elementPlaying == old(elementPlaying) && elementTime == old(elementTime)
      ensures elementVolume == old(elementVolume) && requests == old(requests)
      ensures Valid()
    {
      duration := elementDuration;
      isLoading := false;
    }

    /** The volume effect. */
    method SyncVolume(volume: real, muted: bool)
      requires Valid()
      modifies this
      ensures elementVolume == ElementVolume(volume, muted)
      ensures isPlaying == old(isPlaying) && currentTime == old(currentTime) && duration == old(duration)
      ensures isLoading == old(isLoading) && elementPlaying == old(elementPlaying) && elementTime == old(elementTime)
      ensures requests == old(requests)
      ensures Valid()
    {
      elementVolume := if muted then 0.0 else volume / 100.0;
    }

    /** `timeupdate`: the element plays on to `t`. */
    method HandleTimeUpdate(t: real)
      requires Valid()
      modifies this
      ensures elementTime == t && currentTime == t
      ensures isPlaying == old(isPlaying) && duration == old(duration) && isLoading == old(isLoading)
      ensures elementPlaying == old(elementPlaying) && elementVolume == old(elementVolume) && requests == old(requests)
      ensures Valid()
    {
      elementTime := t;
      currentTime := elementTime;
    }

    /** `ended`: the element has paused at its end; the component shows the start again. */
    method HandleEnded()
      requires Valid()
      modifies this
      ensures !isPlaying && !elementPlaying && currentTime == 0.0
      ensures duration == old(duration) && isLoading == old(isLoading) && elementTime == old(elementTime)
      ensures elementVolume == old(elementVolume) && requests == old(requests)
      ensures Valid()
    {
      elementPlaying := false;
      isPlaying := false;
      currentTime := 0.0;
    }

    /** `togglePlay`; `playSucceeds` is whether the element's `play()` promise resolves (a rejection changes nothing). */
    method TogglePlay(playSucceeds: bool)
      requires Valid()
      modifies this
      ensures old(isPlaying) ==> !isPlaying
      ensures !old(isPlaying) ==> isPlaying == playSucceeds
      ensures currentTime == old(currentTime) && duration == old(duration) && isLoading == old(isLoading)
      ensures elementTime == old(elementTime) && elementVolume == old(elementVolume) && requests == old(requests)
      ensures Valid()
    {
      if isPlaying {
        elementPlaying := false;
        isPlaying := false;
      } else if playSucceeds {
        elementPlaying := true;
        isPlaying := true;
      }
    }

    /** `handleStop`: pause and rewind both the element and the component. */
    method HandleStop()
      requires Valid()
      modifies this
      ensures !isPlaying && !elementPlaying && elementTime == 0.0 && currentTime == 0.0
      ensures duration == old(duration) && isLoading == old(isLoading)
      ensures elementVolume == old(elementVolume) && requests == old(requests)
      ensures Valid()
    {
      elementPlaying := false;
      elementTime := 0.0;
      isPlaying := false;
      currentTime := 0.0;
    }

    /** `handleSeek` with the slider at `percent`. */
    method HandleSeek(percent: real)
      requires Valid()
      modifies this
      ensures elementTime == currentTime == SeekTime(percent, duration)
      ensures isPlaying == old(isPlaying) && duration == old(duration) && isLoading == old(isLoading)
      ensures elementPlaying == old(elementPlaying) && elementVolume == old(elementVolume) && requests == old(requests)
      ensures Valid()
    {
      var seekTime := percent / 100.0 * duration;
      elementTime := seekTime;
      currentTime := seekTime;
    }

    /** `handleVolumeChange`: the slider value goes to the parent unchanged. */
    method HandleVolumeChange(value: real)
      requires Valid()
      modifies this
      ensures requests == old(requests) + [OnVolumeChange(value)]
      ensures isPlaying == old(isPlaying) && currentTime == old(currentTime) && duration == old(duration)
      ensures isLoading == old(isLoading) && elementPlaying == old(elementPlaying)
      ensures elementTime == old(elementTime) && elementVolume == old(elementVolume)
      ensures Valid()
    {
      requests := requests + [OnVolumeChange(value)];
    }

    /** `toggleMute`: asks the parent for the opposite of the `muted` prop. */
    method ToggleMute(muted: bool)
      requires Valid()
      modifies this
      ensures requests == old(requests) + [OnMutedChange(!muted)]
      ensures isPlaying == old(isPlaying) && currentTime == old(currentTime) && duration == old(duration)
      ensures isLoading == old(isLoading) && elementPlaying == old(elementPlaying)
      ensures elementTime == old(elementTime) && elementVolume == old(elementVolume)
      ensures Valid()
    {
      requests := requests + [OnMutedChange(!muted)];
    }

    /** `progress`: 0 while the duration is unknown. */
    function Progress(): (p: real)
      reads this
      ensures duration <= 0.0 ==> p == 0.0
      ensures Valid() && 0.0 <= currentTime <= duration ==> 0.0 <= p <= 100.0
    {
      PlaybackProgress(currentTime, duration)
    }
  }
}

=== FILE: simple_audio_processor.dfy ===
/**
 * The element-based engine (`useSimpleAudioProcessor`): one state record with the same six
 * fields as the graph engine's, overwritten by each handler; playback itself is left to the
 * component's `<audio>` element, which reports back through `updateCurrentTime` and `handleEnded`.
 */
module SimpleAudioProcessor {
  import opened Common
  import opened Types
  import opened AudioGraph

  /** Calls made to the `onTimeUpdate`, `onEnded` and `onError` callbacks, in order. */
  datatype Notification = TimeUpdated(time: real) | PlaybackEnded | LoadError

  class SimpleAudioProcessor {
    var state: PlayerState
    var audioFile: Option<AudioFile>
    var notifications: seq<Notification>

    /** Between handlers the volume is in [0, 1], the duration is not negative and no load is pending. */
    ghost predicate Valid()
      reads this
    {
      0.0 <= state.volume <= 1.0 && state.duration >= 0.0 && !state.isLoading
    }

    constructor()
      ensures state == InitialPlayerState() && audioFile == None && notifications == [] && Valid()
    {
      state := InitialPlayerState();
      audioFile := None;
      notifications := [];
    }

    /**
     * `loadAudioFile(audioFile)`: `metadata` is the duration the temporary element reports, or
     * `None` when it fires `error`. Without a file nothing happens.
     */
    method LoadAudioFile(file: Option<AudioFile>, metadata: Option<real>)
      requires Valid() && (metadata.Some? ==> metadata.value >= 0.0)
      modifies this
      ensures file.None? ==> state == old(state) && audioFile == old(audioFile) && notifications == old(notifications)
      ensures file.Some? ==> audioFile == file
      ensures file.Some? && metadata.Some? ==>
        state == old(state).(duration := metadata.value, isLoading := false, currentTime := 0.0, isPlaying := false)
        && notifications == old(notifications)
      ensures file.Some? && metadata.None? ==>
        state == old(state) && notifications == old(notifications) + [LoadError]
      ensures Valid()
    {
      if file.None? {
        return;
      }
      state := state.(isLoading := true);
      audioFile := file;
      match metadata {
        case Some(d) =>
          state := state.(duration := d, isLoading := false, currentTime := 0.0, isPlaying := false);
        case None =>
          notifications := notifications + [LoadError];
          state := state.(isLoading := false);
      }
    }

    method Play()
      requires Valid()
      modifies this
      ensures state == old(state).(isPlaying := true) && audioFile == old(audioFile) && notifications == old(notifications)
      ensures Valid()
    {
      state := state.(isPlaying := true);
    }

    method Pause()
      requires Valid()
      modifies this
      ensures state == old(state).(isPlaying := false) && audioFile == old(audioFile) && notifications == old(notifications)
      ensures Valid()
    {
      state := state.(isPlaying := false);
    }

    method Stop()
      requires Valid()
      modifies this
      ensures state == old(state).(isPlaying := false, currentTime := 0.0)
      ensures audioFile == old(audioFile) && notifications == old(notifications)
      ensures Valid()
    {
      state := state.(isPlaying := false, currentTime := 0.0);
    }

    method SetVolume(volume: real)
      requires Valid()
      modifies this
      ensures state == old(state).(volume := Clamp(volume, 0.0, 1.0))
      ensures 0.0 <= volume <= 1.0 ==> state.volume == volume
      ensures audioFile == old(audioFile) && notifications == old(notifications)
      ensures Valid()
    {
      state := state.(volume := MaxReal(0.0, MinReal(1.0, volume)));
    }

    method SetMuted(muted: bool)
      requires Valid()
      modifies this
      ensures state == old(state).(muted := muted) && state.volume == old(state.volume)
      ensures audioFile == old(audioFile) && notifications == old(notifications)
      ensures Valid()
    {
      state := state.(muted := muted);
    }

    /** `seek`: the position is clamped into [0, duration]; nothing is reported. */
    method Seek(time: real)
      requires Valid()
      modifies this
      ensures state == old(state).(currentTime := Clamp(time, 0.0, old(state.duration)))
      ensures 0.0 <= state.currentTime <= state.duration
      ensures audioFile == old(audioFile) && notifications == old(notifications)
      ensures Valid()
    {
      var clampedTime := MaxReal(0.0, MinReal(time, state.duration));
      state := state.(currentTime := clampedTime);
    }

    /** `updateCurrentTime`: the element's time is stored as given, not clamped, and reported once. */
    method UpdateCurrentTime(time: real)
      requires Valid()
      modifies this
      ensures state == old(state).(currentTime := time)
      ensures audioFile == old(audioFile) && notifications == old(notifications) + [TimeUpdated(time)]
      ensures Valid()
    {
      state := state.(currentTime := time);
      notifications := notifications + [TimeUpdated(time)];
    }

    /** `handleEnded`: back to the start, stopped, and `onEnded` called once. */
    method HandleEnded()
      requires Valid()
      modifies this
      ensures state == old(state).(isPlaying := false, currentTime := 0.0)
      ensures audioFile == old(audioFile) && notifications == old(notifications) + [PlaybackEnded]
      ensures Valid()
    {
      state := state.(isPlaying := false, currentTime := 0.0);
      notifications := notifications + [PlaybackEnded];
    }
  }
}

=== FILE: simple_equalizer.dfy ===
/**
 * The 5-band simplified equalizer: keyed presets, a reset that applies the flat preset, band
 * edits that mark the panel as custom, and a normalised intensity gauge. Its bands have the
 * same shape as the 8-band panel's.
 */
module SimpleEqualizer {
  import opened Common
  import opened AudioEqualizer

  /** `EQUALIZER_PRESETS`, keyed as in the source. */
  const EqualizerPresets: map<string, Preset> := map[
    "flat" := Preset("Plat", [0.0, 0.0, 0.0, 0.0, 0.0]),
    "rock" := Preset("Rock", [5.0, 3.0, -1.0, 2.0, 6.0]),
    "pop" := Preset("Pop", [2.0, 4.0, 3.0, 1.0, 3.0]),
    "jazz" := Preset("Jazz", [1.0, 2.0, 4.0, 2.0, 1.0]),
    "classical" := Preset("Classique", [0.0, 1.0, 2.0, 1.0, 2.0]),
    "bass_boost" := Preset("Basses+", [8.0, 6.0, 2.0, 0.0, 0.0])
  ]

  /** Every preset has one gain per band, within the slider range. */
  lemma SimplePresetsFitSliders()
    ensures forall key :: key in EqualizerPresets ==>
      |EqualizerPresets[key].gains| == 5 && WithinSlider(EqualizerPresets[key].gains)
  {
    forall key | key in EqualizerPresets
      ensures |EqualizerPresets[key].gains| == 5 && WithinSlider(EqualizerPresets[key].gains)
    {
      assert key in {"flat", "rock", "pop", "jazz", "classical", "bass_boost"};
    }
  }

  function SumAbsGains(bands: seq<Band>): (total: real)
    ensures total >= 0.0
    ensures total == 0.0 <==> forall i :: 0 <= i < |bands| ==> bands[i].gain == 0.0
  {
    if |bands| == 0 then 0.0
    else
      var rest := SumAbsGains(bands[..|bands| - 1]);
      assert forall i :: 0 <= i < |bands| - 1 ==> bands[..|bands| - 1][i] == bands[i];
      rest + AbsReal(bands[|bands| - 1].gain)
  }

  /** `getEqualizerIntensity`: min(sum of |gain| / 10, 1). */
  function EqualizerIntensity(bands: seq<Band>): (r: real)
    ensures 0.0 <= r <= 1.0
    ensures r == 0.0 <==> forall i :: 0 <= i < |bands| ==> bands[i].gain == 0.0
    ensures r == 1.0 <==> SumAbsGains(bands) >= 10.0
  {
    MinReal(SumAbsGains(bands) / 10.0, 1.0)
  }

  /** After a reset the gauge reads 0. */
  lemma ResetZeroesIntensity(bands: seq<Band>)
    ensures EqualizerIntensity(ApplyPreset(bands, EqualizerPresets["flat"].gains)) == 0.0
  {
    var r := ApplyPreset(bands, EqualizerPresets["flat"].gains);
    forall i | 0 <= i < |r|
      ensures r[i].gain == 0.0
    {
      assert PresetGain(EqualizerPresets["flat"].gains, i) == 0.0;
    }
  }

  /** The panel's own state, plus the band list its parent stores through `onBandsChange`. */
  class SimpleEqualizerPanel {
    var activePreset: string
    var bands: seq<Band>

    constructor(initialBands: seq<Band>)
      ensures activePreset == "flat" && bands == initialBands
    {
      activePreset := "flat";
      bands := initialBands;
    }

    /** `applyPreset(key)`: an unknown key changes nothing; a known one rewrites every gain and records the key. */
    method ApplyPresetKey(presetKey: string)
      modifies this
      ensures presetKey !in EqualizerPresets ==> activePreset == old(activePreset) && bands == old(bands)
      ensures presetKey in EqualizerPresets ==>
        bands == ApplyPreset(old(bands), EqualizerPresets[presetKey].gains) && activePreset == presetKey
    {
      if presetKey !in EqualizerPresets {
        return;
      }
      var preset := EqualizerPresets[presetKey];
      bands := ApplyPreset(bands, preset.gains);
      activePreset := presetKey;
    }

    /** `resetEqualizer`: applies the flat preset, so every gain becomes 0. */
    method ResetEqualizer()
      modifies this
      ensures activePreset == "flat"
      ensures SameLayout(bands, old(bands))
      ensures forall i :: 0 <= i < |bands| ==> bands[i].gain == 0.0
    {
      ApplyPresetKey("flat");
      forall i | 0 <= i < |bands|
        ensures bands[i].gain == 0.0
      {
        assert PresetGain(EqualizerPresets["flat"].gains, i) == 0.0;
      }
    }

    /** `handleBandChange`: one band's gain changes and the panel shows 'custom'. */
    method HandleBandChange(index: nat, gain: real)
      requires index < |bands|
      modifies this
      ensures bands == AudioEqualizer.HandleBandChange(old(bands), index, gain)
      ensures activePreset == "custom"
    {
      bands := AudioEqualizer.HandleBandChange(bands, index, gain);
      activePreset := "custom";
    }
  }
}

=== FILE: types.dfy ===
/**
 * The shared records of the client and its constant tables: the emotional intentions, the
 * solfège frequencies and the brainwave bands. Descriptions and benefit lists are display text
 * and are not part of the model.
 */
module Types {
  import opened Common

  datatype Brainwave = Delta | Theta | Alpha | Beta | Gamma

  /** An intention: its solfège frequencies (Hz), BPM adjustment (%), binaural band and optional tuning (Hz). */
  datatype EmotionalIntention = EmotionalIntention(
    id: string,
    name: string,
    frequencies: seq<real>,
    bpmAdjustment: real,
    binauralBeat: Brainwave,
    tuning: Option<real>)

  datatype BinauralSettings = BinauralSettings(enabled: bool, kind: Brainwave, volume: real)

  /** `TransformationSettings`: tuning (Hz), BPM adjustment (%), binaural beat, therapeutic frequency (Hz), intention id. */
  datatype TransformationSettings = TransformationSettings(
    tuning: real,
    bpmAdjustment: real,
    binauralBeat: BinauralSettings,
    therapeuticFrequency: real,
    intention: string)

  /** `Partial<TransformationSettings>`: only the keys present are meant to change. */
  datatype PartialSettings = PartialSettings(
    tuning: Option<real>,
    bpmAdjustment: Option<real>,
    binauralBeat: Option<BinauralSettings>,
    therapeuticFrequency: Option<real>,
    intention: Option<string>)

  datatype Phase = Idle | Uploading | Analyzing | Processing | Completed | Error

  datatype ProcessingStatus = ProcessingStatus(status: Phase, progress: real, message: Option<string>, error: Option<string>)

  datatype ExportFormat = Mp3 | Wav

  datatype ExportQuality = Standard | High

  datatype ExportSettings = ExportSettings(format: ExportFormat, quality: ExportQuality, includeOriginal: bool)

  /** `AudioFile` without its blob: name, duration (s), size (bytes), MIME type, and the analysis results. */
  datatype AudioFile = AudioFile(name: string, duration: real, size: nat, format: string, bpm: Option<int>, key: Option<string>)

  /** The `onVolumeChange` / `onMutedChange` props through which the players ask their parent for a change. */
  datatype PropCallback = OnVolumeChange(volume: real) | OnMutedChange(muted: bool)

  datatype TherapeuticFrequency = TherapeuticFrequency(frequency: real, name: string)

  datatype BrainwaveFrequency = BrainwaveFrequency(kind: Brainwave, rangeLow: real, rangeHigh: real, frequency: real)

  const EMOTIONAL_INTENTIONS: map<string, EmotionalIntention> := map[
    "healing" := EmotionalIntention("healing", "Guérison/Récupération", [174.0, 285.0], -20.0, Delta, Some(432.0)),
    "wellbeing" := EmotionalIntention("wellbeing", "Bien-être/Équilibre", [396.0, 528.0, 639.0], -10.0, Alpha, Some(432.0)),
    "energy" := EmotionalIntention("energy", "Énergie/Motivation", [417.0], 10.0, Beta, Some(440.0)),
    "spirituality" := EmotionalIntention("spirituality", "Spiritualité", [741.0, 852.0, 963.0], 0.0, Theta, Some(432.0))
  ]

  const SOLFEGE_FREQUENCIES: seq<TherapeuticFrequency> := [
    TherapeuticFrequency(174.0, "Ut (174 Hz)"),
    TherapeuticFrequency(285.0, "Ré (285 Hz)"),
    TherapeuticFrequency(396.0, "Ut (396 Hz)"),
    TherapeuticFrequency(417.0, "Ré (417 Hz)"),
    TherapeuticFrequency(528.0, "Mi (528 Hz)"),
    TherapeuticFrequency(639.0, "Fa (639 Hz)"),
    TherapeuticFrequency(741.0, "Sol (741 Hz)"),
    TherapeuticFrequency(852.0, "La (852 Hz)"),
    TherapeuticFrequency(963.0, "Si (963 Hz)")
  ]

  const BRAINWAVE_FREQUENCIES: seq<BrainwaveFrequency> := [
    BrainwaveFrequency(Delta, 0.5, 4.0, 2.0),
    BrainwaveFrequency(Theta, 4.0, 8.0, 6.0),
    BrainwaveFrequency(Alpha, 8.0, 13.0, 10.0),
    BrainwaveFrequency(Beta, 13.0, 30.0, 20.0),
    BrainwaveFrequency(Gamma, 30.0, 100.0, 40.0)
  ]

  /** Documented ranges of the settings: tuning 430-450 Hz, BPM adjustment within ±20 %. */
  const TUNING_MIN: real := 430.0
  const TUNING_MAX: real := 450.0
  const BPM_ADJUSTMENT_LIMIT: real := 20.0

  ghost predicate IsSolfege(f: real)
  {
    exists j :: 0 <= j < |SOLFEGE_FREQUENCIES| && SOLFEGE_FREQUENCIES[j].frequency == f
  }

  /** Every intention is filed under its own id. */
  lemma IntentionIdsMatchKeys()
    ensures forall key :: key in EMOTIONAL_INTENTIONS ==> EMOTIONAL_INTENTIONS[key].id == key
  {
  }

  /** The nine table frequencies are solfège frequencies, each with its table position as witness. */
  lemma SolfegeWitness(f: real)
    requires f in {174.0, 285.0, 396.0, 417.0, 528.0, 639.0, 741.0, 852.0, 963.0}
    ensures IsSolfege(f)
  {
    var j := if f == 174.0 then 0 else if f == 285.0 then 1 else if f == 396.0 then 2
      else if f == 417.0 then 3 else if f == 528.0 then 4 else if f == 639.0 then 5
      else if f == 741.0 then 6 else if f == 852.0 then 7 else 8;
    assert SOLFEGE_FREQUENCIES[j].frequency == f;
  }

  /** Every intention names at least one frequency, and each of them is a solfège frequency. */
  lemma IntentionFrequenciesAreSolfege()
    ensures forall key :: key in EMOTIONAL_INTENTIONS ==>
      |EMOTIONAL_INTENTIONS[key].frequencies| > 0 &&
      forall f :: f in EMOTIONAL_INTENTIONS[key].frequencies ==> IsSolfege(f)
  {
    forall key | key in EMOTIONAL_INTENTIONS
      ensures |EMOTIONAL_INTENTIONS[key].frequencies| > 0
      ensures forall f :: f in EMOTIONAL_INTENTIONS[key].frequencies ==> IsSolfege(f)
    {
      forall f | f in EMOTIONAL_INTENTIONS[key].frequencies
        ensures IsSolfege(f)
      {
        SolfegeWitness(f);
      }
    }
  }

  /** Tunings and BPM adjustments of the intentions stay within the documented setting ranges. */
  lemma IntentionSettingsInRange()
    ensures forall key :: key in EMOTIONAL_INTENTIONS ==>
      var intention := EMOTIONAL_INTENTIONS[key];
      && intention.tuning.Some?
      && TUNING_MIN <= intention.tuning.value <= TUNING_MAX
      && -BPM_ADJUSTMENT_LIMIT <= intention.bpmAdjustment <= BPM_ADJUSTMENT_LIMIT
  {
  }

  /** The solfège table is sorted strictly by frequency, from 174 Hz to 963 Hz. */
  lemma SolfegeIncreasing()
    ensures SOLFEGE_FREQUENCIES[0].frequency == 174.0
    ensures SOLFEGE_FREQUENCIES[|SOLFEGE_FREQUENCIES| - 1].frequency == 963.0
    ensures forall i, j :: 0 <= i < j < |SOLFEGE_FREQUENCIES| ==>
      SOLFEGE_FREQUENCIES[i].frequency < SOLFEGE_FREQUENCIES[j].frequency
  {
  }

  /** Each brainwave's nominal frequency lies in its range; the ranges run delta to gamma and abut. */
  lemma BrainwaveBandsTile()
    ensures forall i :: 0 <= i < |BRAINWAVE_FREQUENCIES| ==>
      BRAINWAVE_FREQUENCIES[i].rangeLow <= BRAINWAVE_FREQUENCIES[i].frequency <= BRAINWAVE_FREQUENCIES[i].rangeHigh
    ensures forall i :: 0 <= i < |BRAINWAVE_FREQUENCIES| - 1 ==>
      BRAINWAVE_FREQUENCIES[i].rangeHigh == BRAINWAVE_FREQUENCIES[i + 1].rangeLow
    ensures [BRAINWAVE_FREQUENCIES[0].kind, BRAINWAVE_FREQUENCIES[1].kind, BRAINWAVE_FREQUENCIES[2].kind,
             BRAINWAVE_FREQUENCIES[3].kind, BRAINWAVE_FREQUENCIES[4].kind] == [Delta, Theta, Alpha, Beta, Gamma]
  {
  }
}

=== FILE: web_audio_nodes.dfy ===
/**
 * The Web Audio node parameters the engines write: biquad filter settings and the
 * connections made between nodes. Signal processing itself is not modelled.
 */
module WebAudioNodes {

  datatype FilterKind = Lowshelf | Peaking | Highshelf

  /** A `BiquadFilterNode` as configured: type, frequency (Hz), Q and gain (dB). */
  datatype BiquadFilter = BiquadFilter(kind: FilterKind, frequency: real, q: real, gain: real)

  datatype NodeId = ElementSource | BufferSource | MasterGain | FilterNode(index: nat) | Analyser | Destination

  /** One `from.connect(to)` call. */
  datatype Link = Link(from: NodeId, to: NodeId)

  /** Node visited before filter `k` of a chain that starts at `first`. */
  function ChainNode(first: NodeId, k: nat): NodeId
  {
    if k == 0 then first else FilterNode(k - 1)
  }

  /** `first -> filter 0 -> ... -> filter n-1 -> last`, one link per `connect` call. */
  function FilterChain(first: NodeId, n: nat, last: NodeId): (links: seq<Link>)
    ensures |links| == n + 1
  {
    seq(n + 1, k requires 0 <= k < n + 1 => Link(ChainNode(first, k), if k < n then FilterNode(k) else last))
  }

  /** Consecutive links share a node: the connections form one path. */
  ghost predicate IsPath(links: seq<Link>)
  {
    forall k :: 0 <= k < |links| - 1 ==> links[k].to == links[k + 1].from
  }

  /** The chain is a single path from `first` to `last` through every filter in index order. */
  lemma FilterChainIsPath(first: NodeId, n: nat, last: NodeId)
    ensures var links := FilterChain(first, n, last);
      && IsPath(links)
      && links[0].from == first
      && links[n].to == last
      && (forall i :: 0 <= i < n ==> links[i].to == FilterNode(i) && links[i + 1].from == FilterNode(i))
  {
  }

  /**
   * The `forEach` that connects each filter to the node before it, keeping the last connected
   * node in `previousNode`, and finally connects that node to `last`.
   */
  method ConnectChain(first: NodeId, n: nat, last: NodeId) returns (links: seq<Link>)
    ensures links == FilterChain(first, n, last)
  {
    links := [];
    var previousNode := first;
    var i := 0;
    while i < n
      invariant 0 <= i <= n
      invariant previousNode == ChainNode(first, i)
      invariant links == FilterChain(first, n, last)[..i]
    {
      links := links + [Link(previousNode, FilterNode(i))];
      previousNode := FilterNode(i);
      i := i + 1;
    }
    links := links + [Link(previousNode, last)];
  }
}

=== FILE: web_audio_player.dfy ===
/**
 * The hidden-element player (`WebAudioPlayer`): on first play it wires the `<audio>` element
 * through one biquad filter per band (a shelf at each end, peaking in between) into a gain node,
 * and its effects push the volume, the band gains and large seeks into the nodes and the element.
 */
module WebAudioPlayer {
  import opened Common
  import opened WebAudioNodes
  import AudioEqualizer

  /** Filter type by position: the index-0 test comes first, so a single band is a low shelf. */
  function FilterKindAt(index: nat, count: nat): (kind: FilterKind)
    ensures kind == Lowshelf <==> index == 0
    ensures kind == Highshelf <==> index != 0 && index == count - 1
    ensures kind == Peaking <==> index != 0 && index != count - 1
  {
    if index == 0 then Lowshelf else if index == count - 1 then Highshelf else Peaking
  }

  /** With two bands or more there is exactly one low shelf (first) and one high shelf (last). */
  lemma ShelvesAtTheEnds(count: nat)
    requires count >= 2
    ensures forall i :: 0 <= i < count && FilterKindAt(i, count) == Lowshelf ==> i == 0
    ensures forall i :: 0 <= i < count && FilterKindAt(i, count) == Highshelf ==> i == count - 1
    ensures FilterKindAt(0, count) == Lowshelf && FilterKindAt(count - 1, count) == Highshelf
  {
  }

  /**
   * The filters made from the bands: the band's frequency and gain, Q 1 for the peaking ones
   * (the shelves keep the Web Audio default Q, which is also 1).
   */
  function InitialFilters(bands: seq<AudioEqualizer.Band>): (filters: seq<BiquadFilter>)
    ensures |filters| == |bands|
    ensures forall i :: 0 <= i < |bands| ==>
      filters[i] == BiquadFilter(FilterKindAt(i, |bands|), bands[i].frequency, 1.0, bands[i].gain)
  {
    seq(|bands|, i requires 0 <= i < |bands| => BiquadFilter(FilterKindAt(i, |bands|), bands[i].frequency, 1.0, bands[i].gain))
  }

  /** Connections made at initialisation: through the filters only when the equalizer is enabled then. */
  function Topology(filterCount: nat, equalizerEnabled: bool): (links: seq<Link>)
  {
    FilterChain(ElementSource, if equalizerEnabled then filterCount else 0, MasterGain) + [Link(MasterGain, Destination)]
  }

  /**
   * The connections form one path from the element to the output; with the equalizer enabled it
   * passes through every filter in band order, otherwise the element feeds the gain directly.
   */
  lemma TopologyIsOnePath(filterCount: nat, equalizerEnabled: bool)
    ensures var links := Topology(filterCount, equalizerEnabled);
      && IsPath(links)
      && links[0].from == ElementSource
      && links[|links| - 1] == Link(MasterGain, Destination)
      && (equalizerEnabled ==> forall i :: 0 <= i < filterCount ==> links[i].to == FilterNode(i))
      && (!equalizerEnabled ==> links == [Link(ElementSource, MasterGain), Link(MasterGain, Destination)])
  {
    var n := if equalizerEnabled then filterCount else 0;
    FilterChainIsPath(ElementSource, n, MasterGain);
    var links := Topology(filterCount, equalizerEnabled);
    assert links[..n + 1] == FilterChain(ElementSource, n, MasterGain);
  }

  /** The equalizer effect: filter `i` gets band `i`'s gain when enabled, 0 when not; extra bands or filters are skipped. */
  function SyncedFilters(filters: seq<BiquadFilter>, bands: seq<AudioEqualizer.Band>, enabled: bool): (r: seq<BiquadFilter>)
    ensures |r| == |filters|
    ensures forall i :: 0 <= i < |filters| && i < |bands| ==>
      r[i] == filters[i].(gain := if enabled then bands[i].gain else 0.0)
    ensures forall i :: |bands| <= i < |filters| ==> r[i] == filters[i]
  {
    seq(|filters|, i requires 0 <= i < |filters| =>
      if i < |bands| then filters[i].(gain := if enabled then bands[i].gain else 0.0) else filters[i])
  }

  /** Disabling keeps the bands, so enabling again restores exactly the gains of enabling directly. */
  lemma DisableThenEnable(filters: seq<BiquadFilter>, bands: seq<AudioEqualizer.Band>)
    ensures SyncedFilters(SyncedFilters(filters, bands, false), bands, true) == SyncedFilters(filters, bands, true)
    ensures forall i :: 0 <= i < |filters| && i < |bands| ==> SyncedFilters(filters, bands, false)[i].gain == 0.0
  {
  }

  /** The seek effect moves the element only when it is more than one second away. */
  function SeekTarget(elementTime: real, currentTime: real): (t: real)
    ensures AbsReal(t - currentTime) <= 1.0
    ensures t == elementTime || t == currentTime
    ensures AbsReal(elementTime - currentTime) <= 1.0 ==> t == elementTime
  {
    if AbsReal(elementTime - currentTime) > 1.0 then currentTime else elementTime
  }

  /** The props that `WebAudioPlayerProps` declares. */
  const DECLARED_PROPS: set<string> :=
    {"audioFile", "isPlaying", "volume", "muted", "currentTime", "duration", "loading", "equalizerBands",
     "equalizerEnabled", "onTimeUpdate", "onDurationChange", "onLoadingChange", "onPlay", "onPause", "onSeek"}

  /** The props the component destructures, and so the only ones in scope in its body. */
  const BOUND_PROPS: set<string> :=
    {"audioFile", "isPlaying", "volume", "muted", "equalizerBands", "equalizerEnabled",
     "onTimeUpdate", "onDurationChange", "onLoadingChange", "onPlay", "onPause", "onSeek"}

  /** The value of an expression evaluated while rendering, or the error it throws. */
  datatype Evaluation = Value(time: real) | ReferenceError(name: string)

  /**
   * The seek effect's dependency list `[currentTime]` as written, evaluated on every render in a
   * body where the names `scope` are bound and the caller passed `currentTimeProp`: the prop's
   * value when its name is in scope, a `ReferenceError` otherwise.
   */
  function SeekDependencyAsWritten(scope: set<string>, currentTimeProp: real): (e: Evaluation)
    ensures e.Value? <==> "currentTime" in scope
    ensures e.Value? ==> e.time == currentTimeProp
    ensures e.ReferenceError? ==> e.name == "currentTime"
  {
    if "currentTime" in scope then Value(currentTimeProp) else ReferenceError("currentTime")
  }

  /**
   * As written, `currentTime` is a declared prop that is never destructured, so rendering throws
   * before any effect runs, whatever the caller passes; with the prop bound, the dependency is
   * the prop, as the model's `SyncSeek` takes it.
   */
  lemma SeekEffectReadsUnboundName(currentTimeProp: real)
    ensures "currentTime" in DECLARED_PROPS && "currentTime" !in BOUND_PROPS
    ensures BOUND_PROPS < DECLARED_PROPS
    ensures SeekDependencyAsWritten(BOUND_PROPS, currentTimeProp) == ReferenceError("currentTime")
    ensures SeekDependencyAsWritten(BOUND_PROPS + {"currentTime"}, currentTimeProp) == Value(currentTimeProp)
  {
  }

  /** Calls made to the component's callbacks, in order. */
  datatype Callback = OnPlay | OnPause | OnTimeUpdate(time: real) | OnDurationChange(duration: real) | OnLoadingChange(loading: bool)

  class WebAudioPlayer {
    var isInitialized: bool
    /** The gain node's value, once it exists (a new gain node starts at 1). */
    var gain: Option<real>
    var filters: seq<BiquadFilter>
    var links: seq<Link>
    var elementVolume: real
    var elementTime: real
    var elementPlaying: bool
    var callbacks: seq<Callback>

    /** Before initialisation there are no nodes; after it the filters and connections follow the bands used then. */
    ghost predicate Valid()
      reads this
    {
      && (!isInitialized ==> gain.None? && filters == [] && links == [])
      && (isInitialized ==> gain.Some? && (links == Topology(|filters|, true) || links == Topology(|filters|, false)))
    }

    constructor()
      ensures !isInitialized && callbacks == [] && elementVolume == 1.0 && elementTime == 0.0 && !elementPlaying && Valid()
    {
      isInitialized := false;
      gain := None;
      filters := [];
      links := [];
      elementVolume := 1.0;
      elementTime := 0.0;
      elementPlaying := false;
      callbacks := [];
    }

    /** `initializeAudioContext`: runs once; later calls, whatever the bands, change nothing. */
    method InitializeAudioContext(bands: seq<AudioEqualizer.Band>, equalizerEnabled: bool)
      requires Valid()
      modifies this
      ensures old(isInitialized) ==> gain == old(gain) && filters == old(filters) && links == old(links)
      ensures !old(isInitialized) ==>
        gain == Some(1.0) && filters == InitialFilters(bands) && links == Topology(|bands|, equalizerEnabled)
      ensures isInitialized
      ensures elementVolume == old(elementVolume) && elementTime == old(elementTime)
      ensures elementPlaying == old(elementPlaying) && callbacks == old(callbacks)
      ensures Valid()
    {
      if isInitialized {
        return;
      }
      gain := Some(1.0);
      filters := InitialFilters(bands);
      var n := if equalizerEnabled then |filters| else 0;
      var chain := ConnectChain(ElementSource, n, MasterGain);
      links := chain + [Link(MasterGain, Destination)];
      isInitialized := true;
    }

    /**
     * The play/pause effect for the `isPlaying` prop; playing initialises the graph first.
     * `playSucceeds` is whether the element's `play()` promise resolves: a rejection is caught
     * and logged, so the element stays as it was and `onPlay` is not called.
     */
    method SyncPlayback(isPlaying: bool, playSucceeds: bool, bands: seq<AudioEqualizer.Band>, equalizerEnabled: bool)
      requires Valid()
      modifies this
      ensures isPlaying ==> isInitialized
      ensures isPlaying && playSucceeds ==> elementPlaying && callbacks == old(callbacks) + [OnPlay]
      ensures isPlaying && !playSucceeds ==> elementPlaying == old(elementPlaying) && callbacks == old(callbacks)
      ensures !isPlaying ==> !elementPlaying && callbacks == old(callbacks) + [OnPause]
      ensures !isPlaying ==> isInitialized == old(isInitialized) && filters == old(filters) && links == old(links)
      ensures old(isInitialized) ==> filters == old(filters) && links == old(links) && gain == old(gain)
      ensures elementVolume == old(elementVolume) && elementTime == old(elementTime)
      ensures Valid()
    {
      if isPlaying {
        if !isInitialized {
          InitializeAudioContext(bands, equalizerEnabled);
        }
        if playSucceeds {
          elementPlaying := true;
          callbacks := callbacks + [OnPlay];
        }
      } else {
        elementPlaying := false;
        callbacks := callbacks + [OnPause];
      }
    }

    /** The volume effect: the level `muted ? 0 : volume` goes to the gain node (if any) and to the element. */
    method SyncVolume(volume: real, muted: bool)
      requires Valid()
      modifies this
      ensures elementVolume == (if muted then 0.0 else volume)
      ensures gain == (if old(gain).Some? then Some(elementVolume) else None)
      ensures isInitialized == old(isInitialized) && filters == old(filters) && links == old(links)
      ensures elementTime == old(elementTime) && elementPlaying == old(elementPlaying) && callbacks == old(callbacks)
      ensures Valid()
    {
      var level := if muted then 0.0 else volume;
      if gain.Some? {
        gain := Some(level);
      }
      elementVolume := level;
    }

    /** The equalizer effect: the `forEach` writing each existing filter's gain; the connections never change. */
    method SyncEqualizer(bands: seq<AudioEqualizer.Band>, enabled: bool)
      requires Valid()
      modifies this
      ensures filters == SyncedFilters(old(filters), bands, enabled)
      ensures links == old(links) && gain == old(gain) && isInitialized == old(isInitialized)
      ensures elementVolume == old(elementVolume) && elementTime == old(elementTime)
      ensures elementPlaying == old(elementPlaying) && callbacks == old(callbacks)
      ensures Valid()
    {
      if |filters| > 0 && isInitialized {
        var updated := filters;
        var index := 0;
        while index < |bands|
          invariant 0 <= index <= |bands|
          invariant |updated| == |filters|
          invariant forall i :: 0 <= i < |filters| && i < index ==>
            updated[i] == filters[i].(gain := if enabled then bands[i].gain else 0.0)
          invariant forall i :: index <= i < |filters| ==> updated[i] == filters[i]
        {
          if index < |updated| {
            updated := updated[index := updated[index].(gain := if enabled then bands[index].gain else 0.0)];
          }
          index := index + 1;
        }
        assert updated == SyncedFilters(filters, bands, enabled);
        filters := updated;
      }
    }

    /**
     * The seek effect, reading `currentTime` as the declared prop (the component as written does
     * not bind that name; see `SeekEffectReadsUnboundName`).
     */
    method SyncSeek(currentTime: real)
      requires Valid()
      modifies this
      ensures elementTime == SeekTarget(old(elementTime), currentTime)
      ensures isInitialized == old(isInitialized) && filters == old(filters) && links == old(links) && gain == old(gain)
      ensures elementVolume == old(elementVolume) && elementPlaying == old(elementPlaying) && callbacks == old(callbacks)
      ensures Valid()
    {
      if AbsReal(elementTime - currentTime) > 1.0 {
        elementTime := currentTime;
      }
    }

    /** The element plays on and fires `timeupdate` at time `t`, which is forwarded. */
    method ElementTimeUpdate(t: real)
      requires Valid()
      modifies this
      ensures elementTime == t && callbacks == old(callbacks) + [OnTimeUpdate(t)]
      ensures isInitialized == old(isInitialized) && filters == old(filters) && links == old(links) && gain == old(gain)
      ensures elementVolume == old(elementVolume) && elementPlaying == old(elementPlaying)
      ensures Valid()
    {
      elementTime := t;
      callbacks := callbacks + [OnTimeUpdate(t)];
    }

    /**
     * The load effect for a new file: assigning the element's source pauses it and rewinds it to
     * 0 (the media load algorithm); loading is reported, then either the element's duration
     * (`metadata`) and the end of loading, or only the end of loading on an error.
     */
    method LoadFile(metadata: Option<real>)
      requires Valid()
      modifies this
      ensures metadata.Some? ==> callbacks == old(callbacks) + [OnLoadingChange(true), OnDurationChange(metadata.value), OnLoadingChange(false)]
      ensures metadata.None? ==> callbacks == old(callbacks) + [OnLoadingChange(true), OnLoadingChange(false)]
      ensures isInitialized == old(isInitialized) && filters == old(filters) && links == old(links) && gain == old(gain)
      ensures !elementPlaying && elementTime == 0.0 && elementVolume == old(elementVolume)
      ensures Valid()
    {
      elementPlaying := false;
      elementTime := 0.0;
      callbacks := callbacks + [OnLoadingChange(true)];
      match metadata {
        case Some(d) =>
          callbacks := callbacks + [OnDurationChange(d), OnLoadingChange(false)];
        case None =>
          callbacks := callbacks + [OnLoadingChange(false)];
      }
    }
  }
}
